=== FILE: README.md ===
# draftdiff — a Dafny model of the draft core

draftdiff runs League-of-Legends-style champion drafts: two teams, blue and red,
take turns banning and picking champions over twenty fixed steps, and
spectators watch live or replay a finished draft from its event log. This
project models the core of that system and proves properties of the model. It
is written as pure functions and a few loop-carrying methods over immutable
datatypes.

- **The draft model** (`draft.dfy`, module `Draft`). Covers the draft state,
  the fixed twenty-step layout with each side's five bans and five picks, the
  initial state, and the spectator mask that hides a finished draft's outcome.
- **The authoritative server reducer** (`server_reducer.dfy`). Covers ready,
  select, confirm, auto-confirm, rename, join and tick. It returns the next
  state and a list of effects, and appends at most one numbered, time-stamped
  event to the room's log. The model proves this reducer preserves a
  well-formedness invariant over any run from a fresh room. It also proves
  that event numbers stay dense from 1 over any such run.
- **The client's optimistic reducer** (`client_reducer.dfy`). Covers
  hydrate/tick merges and the local ready, select, confirm and rename actions.
- **The server's room runtime** (`room_runtime.dfy`). Covers the room table,
  per-room turn timers (30 s) and the effect executor. In that executor a
  persist suppresses the state broadcast, and it reports only when the write
  succeeded. It also covers the message handlers, the one-second tick with its
  auto-confirm at the deadline, and the sweep of idle rooms (5 minutes). The
  invariant `TimersTracked` says every live interval belongs to exactly one
  room. Every operation preserves it.
- **Spectator replay**:
  - the shared replay context and its event application (`replay_context.dfy`);
  - the real-time scheduler with pause/resume, scrubbing and the confirm rule
    (`realtime_scheduler.dfy`);
  - the fast scheduler (`fast_scheduler.dfy`);
  - the history slider (`draft_history.dfy`);
  - the spectator page's own countdown-driven replay (`spec_page.dfy`).

  `replay_fidelity.dfy` proves the central replay property. Take a room driven
  from creation by any run of server actions in which every step change was
  logged. Fast-replaying its log onto the masked final state rebuilds the
  server's final board: every champion and pending flag, the pointer, and the
  finished flag. It also exhibits the counterexample when a change was not
  logged: a ban chosen before both teams are ready.
- **Smaller pieces**:
  - the in-process TTL cache (`memory_cache.dfy`);
  - the champion catalogue store, its image selector and the grid's name
    filter (`champions.dfy`);
  - the participant page's derived flags and guarded dispatches
    (`draft_page.dfy`);
  - JavaScript's `trim`, ASCII `toLowerCase` and `includes` (`text.dfy`).

The clock is the parameter `now` (milliseconds), wherever the source reads
`Date.now()`. Whether a database write succeeded is the parameter `persistOk`.
Timers are modelled as follows:

- server intervals are numbered handles in a `live` set;
- client timers are flags or the armed event record;
- sockets are an outbox of messages.

Behaviours of the code worth knowing, all modelled as written:

- The mask marks the masked state finished.
- The server never moves `currentSide`.
- On the last confirm the server leaves the pointer on step 19, while the
  client moves it to 20.
- A hydrate overrides fields blindly, with no sequence-number reconciliation.
- A client confirm of a non-last step writes `isFinished := false`.
- The spectator page's inline mask does not bump `eventSeq`.

## Model

| member | source | states |
|---|---|---|
| Draft.CurrentStep | src/server/reducer.ts:35-37 | the current step exists exactly when the pointer is inside the step list, and is then the step at the pointer |
| Draft.InitialSteps | src/app/models/draft.ts:52-73 | twenty steps with ids 0..19, no champion chosen, only step 0 pending; steps 0-5 and 12-15 are bans and the rest picks; every place is 0..4 |
| Draft.LayoutSlotsUnique | src/app/models/draft.ts:52-73 | every (side, ban/pick, place 0..4) slot is held by exactly one step, so each side gets five bans and five picks and no step is counted twice |
| Draft.CreateInitialDraftState | src/app/models/draft.ts:51-90 | a fresh draft: the initial layout, room id defaulting to "local", team names defaulting to empty, nobody ready, blue to move at step 0 with 30 s, empty log, sequence 0, not finished |
| Draft.WithCountdownOnlyCountdown | src/app/models/draft.ts:152-154 | setting the countdown changes the countdown and nothing else |
| Draft.MaskedFromCurrent | src/app/models/draft.ts:156-175 | the masked state has the initial layout, keeps room, log and team names, clears both ready flags, resets pointer, side and countdown, is marked finished and bumps the sequence by one |
| Draft.MaskedHidesOutcome | src/app/models/draft.ts:156-175 | no masked step reveals a champion, and only step 0 is pending |
| Draft.MaskedForgetsProgress | src/app/models/draft.ts:156-175 | two drafts that share room, log, sequence and team names mask to the same state, whatever their picks, pointer or ready flags |
| ServerReducer.HandleReady | src/server/reducer.ts:43-63 | appends at most one event, numbered after the last and stamped now, and never changes the step layout, room id or side to move |
| ServerReducer.HandleSelect | src/server/reducer.ts:65-85 | the same log discipline and layout preservation as a ready |
| ServerReducer.CloseOrAdvance | src/server/reducer.ts:87-129 | the same log discipline and layout preservation as a ready |
| ServerReducer.HandleSetTeamName | src/server/reducer.ts:131-149 | the same log discipline and layout preservation as a ready |
| ServerReducer.Reduce | src/server/reducer.ts:151-190 | every action extends the log by at most one event, numbered after the counter and stamped now, keeps the earlier log, keeps the step layout, room id and side to move |
| ServerReducer.FinishedIsInert | src/server/reducer.ts:43-149 | once the draft is finished, ready, select, confirm, auto-confirm and rename return the state unchanged with no effects |
| ServerReducer.JoinAndTickAreLight | src/server/reducer.ts:155-182 | a join only re-broadcasts; a tick stores the countdown floored at 0, changes nothing else and only emits a tick |
| ServerReducer.ReadyProtocol | src/server/reducer.ts:43-63 | a repeated ready is a no-op; a first ready sets only that team's flag and persists and broadcasts; it is logged and starts the turn timer exactly when the other team was already ready |
| ServerReducer.SelectProtocol | src/server/reducer.ts:65-85 | a select for the wrong side or type, or with no current step, is a no-op; otherwise it writes the champion onto the current step only, persists and broadcasts, and is logged exactly when both teams are ready |
| ServerReducer.ConfirmIgnoresPayload | src/server/reducer.ts:169-171 | a confirm resolves the current step whatever side and type it names |
| ServerReducer.ConfirmAdvances | src/server/reducer.ts:87-129 | confirming a non-last step clears its pending flag, makes the next step pending, leaves other steps alone, moves the pointer by one, resets the countdown to 30 and restarts the timer |
| ServerReducer.ConfirmFinishes | src/server/reducer.ts:87-129 | confirming the last step clears its pending flag, keeps the pointer there, marks the draft finished with countdown 0 and stops the timer |
| ServerReducer.ConfirmEventRecords | src/server/reducer.ts:107-125 | a confirm or auto-confirm logs one event naming the resolved step's side, type and champion, with the countdown it was resolved at |
| ServerReducer.SetTeamNameProtocol | src/server/reducer.ts:131-149 | a blank or unchanged name is a no-op; otherwise only that team's name changes, to the trimmed input, and the rename is logged exactly when both teams are ready |
| ServerReducer.InitialWellformed | src/app/models/draft.ts:51-90 | a fresh draft satisfies the invariant: the pointer is in range, and exactly the step under it is pending while unfinished |
| ServerReducer.ReducePreservesWellformed | src/server/reducer.ts:151-190 | every action preserves the invariant, including the finished form in which the pointer stays on the last step and nothing is pending |
| ServerReducer.RunAppendsOnly | src/server/reducer.ts:192-194 | any run of actions only appends to the log |
| ServerReducer.RunKeepsSeqConsistent | src/server/reducer.ts:151-194 | if events are numbered 1..n with the counter at n, any run keeps them so |
| ServerReducer.RunKeepsWellformed | src/server/reducer.ts:151-190 | any run of actions keeps the invariant |
| ServerReducer.FromInitial | src/server/reducer.ts:151-194 | every state reachable from a fresh draft is well formed and has its log numbered 1..n with the counter at n |
| ClientReducer.Reduce | src/app/state/draft/draft.reducer.ts:7-106 | local actions never touch the log, sequence or room id, and a select or confirm for another side or step type is ignored |
| ClientReducer.HydrateFullReplaces | src/app/state/draft/draft.reducer.ts:11-24 | a hydrate or tick carrying a whole state replaces the local state by it |
| ClientReducer.MergeIsOverride | src/app/state/draft/draft.reducer.ts:11-24 | each field present in a patch overrides, each absent one is kept, and merging the same patch twice is the same as once |
| ClientReducer.TickWithCountdown | src/app/state/draft/draft.reducer.ts:17-24 | a tick carrying the local state with a new countdown changes only the countdown |
| ClientReducer.ReadySetsOnlyFlag | src/app/state/draft/draft.reducer.ts:27-39 | a local ready sets that team's flag and changes nothing else |
| ClientReducer.SetTeamNameTrims | src/app/state/draft/draft.reducer.ts:42-54 | a local rename stores the trimmed name, keeps the old name for blank input, and changes nothing else |
| ClientReducer.SelectSetsOnlyChampion | src/app/state/draft/draft.reducer.ts:57-70 | a matching local select writes the champion onto the current step and changes nothing else |
| ClientReducer.ConfirmAdvances | src/app/state/draft/draft.reducer.ts:73-105 | a matching local confirm of a non-last step hands the pending flag to the next step, moves the pointer by one and resets the countdown to 30 |
| ClientReducer.ConfirmLastFinishes | src/app/state/draft/draft.reducer.ts:73-105 | a matching local confirm of the last step moves the pointer past the end and finishes with countdown 0, after which every select and confirm is ignored |
| Text.TrimFacts | src/server/reducer.ts:131-149 | the trimmed string is empty exactly when the input is all JavaScript whitespace, and otherwise neither starts nor ends with whitespace |
| Text.TrimIsCore | src/server/reducer.ts:131-149 | the trimmed string sits inside the input with only whitespace before and after it |
| Text.TrimIdempotent | src/app/state/draft/draft.reducer.ts:42-54 | trimming twice is trimming once |
| Text.ToLower | src/app/components/champions/champions-grid.component.ts:49-55 | lower-casing keeps the length and maps each character on its own |
| Text.IncludesIff | src/app/components/champions/champions-grid.component.ts:49-55 | `includes` holds exactly when the query occurs at some position of the string |
| RoomRuntime.GetRoom | src/server/events.ts:35-43 | the room afterwards exists, as a fresh empty room if it was missing; existing rooms are untouched, the sweep is armed, and no timer is created |
| RoomRuntime.SetRoom | src/server/events.ts:45-50 | writes the room back only for a non-empty id already in the table; otherwise nothing changes |
| RoomRuntime.ResetTimer | src/server/events.ts:94-98 | clears the room's interval and removes exactly that handle from the live set |
| RoomRuntime.StartTimer | src/server/events.ts:79-92 | with both teams ready, sets the deadline 30 s ahead, marks the room started and replaces its interval by a fresh handle; otherwise nothing changes; other rooms are untouched and every interval stays owned by one room |
| RoomRuntime.RunEffect | src/server/events.ts:185-219 | a persist reports the state only if the write succeeded; a broadcast is sent only when the batch has no persist; a tick effect broadcasts a tick; the timer effects start or reset the room's interval; a log effect does nothing; no room's draft state changes |
| RoomRuntime.RunEffects | src/server/events.ts:221-238 | running a batch only appends to the outbox, leaves other rooms and every draft state alone, and keeps every interval owned |
| RoomRuntime.ApplyEffects | src/server/events.ts:221-238 | a room without a state ignores the batch; otherwise the same guarantees as running each effect |
| RoomRuntime.PersistSuppressesEmit | src/server/events.ts:185-229 | a persist-and-broadcast batch sends exactly one state message when the write succeeds and none when it fails |
| RoomRuntime.EmitWithoutPersist | src/server/events.ts:192-217 | a broadcast without a persist sends the state, and a log effect changes nothing |
| RoomRuntime.Dispatch | src/server/events.ts:123-178 | a handled message leaves the room's state exactly as the server reducer computes it and keeps every interval owned |
| RoomRuntime.HandleJoin | src/server/events.ts:118-121 | a join creates the room if needed and broadcasts its current state to the room |
| RoomRuntime.HandleReady | src/server/events.ts:123-133 | a ready without a side, or for a room without state, is ignored; otherwise the room's state becomes the reducer's result |
| RoomRuntime.HandleSelect | src/server/events.ts:135-149 | a select missing its side or type, or for a room without state, is ignored; otherwise the room's state becomes the reducer's result |
| RoomRuntime.HandleConfirm | src/server/events.ts:151-161 | a confirm missing its side or type, or for a room without state, is ignored; otherwise the room's state becomes the reducer's result |
| RoomRuntime.HandleSetTeamName | src/server/events.ts:163-178 | a rename missing its side or name, or for a room without state, is ignored; otherwise the room's state becomes the reducer's result |
| RoomRuntime.TickCountdown | src/server/events.ts:100-116 | the countdown is the whole seconds left, rounded up, zero exactly when the deadline has passed, and at most 30 within a fresh turn |
| RoomRuntime.Tick | src/server/events.ts:100-116 | a room with no interval or state is untouched; otherwise it stores the countdown, and at zero also auto-confirms the step; every interval stays owned |
| RoomRuntime.TickAutoConfirmsOnlyAtDeadline | src/server/events.ts:100-116 | before the deadline a tick only updates the countdown and never resolves the step |
| RoomRuntime.SweepIdleRooms | src/server/events.ts:240-252 | removes exactly the idle rooms, keeps the others unchanged, and clears the intervals of the removed rooms |
| ReplayContext.ApplyEventEffect | src/app/services/schedulers/realtime-replay.scheduler.ts:272-292 | the schedulers' event application (the same as `src/app/services/schedulers/fast-replay.scheduler.ts:93-111`). Without a room id, and for renames, nothing changes. A ready sets that team's flag only. A select or confirm that does not match the current step is ignored. A matching select puts the champion on the current step only, and a matching confirm resolves and advances as the client reducer does. The log, the sequence number and the team names never change |
| ReplayContext.ApplyEventSkips | src/app/services/schedulers/realtime-replay.scheduler.ts:272-292 | applying a rename event, or any event without a room id, leaves the store unchanged |
| ReplayContext.ScrubPointers | src/app/services/schedulers/realtime-replay.scheduler.ts:99-111 | scrubbing sets the history index, puts the replay pointer just after it (at least 0), takes the countdown recorded by that next event or 0 at the end, and changes nothing else |
| ReplayContext.EnsureSpecReplayReady | src/app/services/schedulers/realtime-replay.scheduler.ts:124-131 | disconnects the socket and, with a room id, marks both teams ready without touching the board |
| ReplayContext.RewindToMaskedBase | src/app/services/schedulers/realtime-replay.scheduler.ts:85-94 | the store becomes the masked state, the pointers return to the start and the countdown to 30, the log is kept |
| ReplayContext.TickStore | src/app/services/schedulers/realtime-replay.scheduler.ts:137-141 | a countdown tick overwrites only the store's countdown |
| RealtimeScheduler.Stop | src/app/services/schedulers/realtime-replay.scheduler.ts:77-80 | stops the countdown, disarms the next event and clears running, touching nothing else |
| RealtimeScheduler.Pause | src/app/services/schedulers/realtime-replay.scheduler.ts:65-72 | stops everything and, when an event was armed, remembers the time still to wait, never negative |
| RealtimeScheduler.ComputeDelayMs | src/app/services/schedulers/realtime-replay.scheduler.ts:187-197 | the delay is never negative; a remembered pause delay is used and consumed; otherwise it is the gap from the last applied event, or from the previous event, to the next one |
| RealtimeScheduler.ScheduleNextEvent | src/app/services/schedulers/realtime-replay.scheduler.ts:168-222 | with events left, arms exactly the event under the replay pointer, due at now plus the delay `ComputeDelayMs` gives (so never before now); past the end it disarms |
| RealtimeScheduler.Start | src/app/services/schedulers/realtime-replay.scheduler.ts:52-60 | with events, starts running and the countdown and disconnects. The store is the spectator-prepared store (both teams ready when a room id is set) showing the replay countdown. No other context field changes. An event is armed exactly when one remains |
| RealtimeScheduler.RestartToMaskedBase | src/app/services/schedulers/realtime-replay.scheduler.ts:85-94 | stops and rewinds to the masked state with pointers at the start and countdown 30 |
| RealtimeScheduler.ScrubTo | src/app/services/schedulers/realtime-replay.scheduler.ts:99-111 | only the context's pointers and countdown move |
| RealtimeScheduler.HandlePostConfirm | src/app/services/schedulers/realtime-replay.scheduler.ts:239-250 | after a confirm, a finished store stops the replay with countdown 0 and signals the finish once; otherwise the countdown resets to 30; the board and pointers are kept |
| RealtimeScheduler.CountdownTick | src/app/services/schedulers/realtime-replay.scheduler.ts:147-162 | each second lowers the countdown by one, floored at 0, in context and store; it stops and signals the finish exactly when the log is exhausted and the countdown is out |
| RealtimeScheduler.StartArmsNext | src/app/services/schedulers/realtime-replay.scheduler.ts:52-60 | after a start, any armed event is the one under the replay pointer |
| RealtimeScheduler.FireAppliesNextInOrder | src/app/services/schedulers/realtime-replay.scheduler.ts:202-232 | firing applies exactly the armed event, sets the history index to it and the pointer just after, and arms the following event if any |
| RealtimeScheduler.FireConfirmRule | src/app/services/schedulers/realtime-replay.scheduler.ts:202-250 | after a confirm event the replay halts with countdown 0 if the draft is finished, and otherwise resumes with countdown 30 and arms the next event if one remains |
| RealtimeScheduler.CountdownTickKeepsArmed | src/app/services/schedulers/realtime-replay.scheduler.ts:147-162 | a countdown tick keeps the armed event the one under the pointer |
| RealtimeScheduler.PausedDelayUsedOnce | src/app/services/schedulers/realtime-replay.scheduler.ts:187-192 | pausing and resuming keeps the time still owed: the event fires that much after the resume, and the remembered delay is spent |
| RealtimeScheduler.FireWaitsRecordedGap | src/app/services/schedulers/realtime-replay.scheduler.ts:202-221 | after a non-confirm event recorded at a positive time fires, with no paused delay saved, the next event is armed after exactly the recorded gap between the two, floored at 0 |
| RealtimeScheduler.FireSkipsTeamName | src/app/services/schedulers/realtime-replay.scheduler.ts:272-292 | firing a rename event, or any event without a room id, leaves the board and teams unchanged |
| FastScheduler.Start | src/app/services/schedulers/fast-replay.scheduler.ts:30-43 | with events, the store is the whole log replayed onto the prepared store, both pointers sit at the end, the countdown is 0, the finish is signalled once and it is not running |
| FastScheduler.Pause | src/app/services/schedulers/fast-replay.scheduler.ts:45-46 | only clears running |
| FastScheduler.RestartToMaskedBase | src/app/services/schedulers/fast-replay.scheduler.ts:49-57 | rewinds to the masked state with pointers at the start and countdown 30, keeping running as it was |
| FastScheduler.ScrubTo | src/app/services/schedulers/fast-replay.scheduler.ts:60-67 | moves the pointers without touching the store |
| ReplayFidelity.ReplayStep | src/app/services/schedulers/fast-replay.scheduler.ts:93-111 | replaying the events one server action logged keeps the client's board and pointer in step with the server's |
| ReplayFidelity.ReplayResolution | src/server/reducer.ts:87-129 | replaying a confirm's logged event resolves the same step on the client as on the server |
| ReplayFidelity.ReplayTracksRun | src/app/services/schedulers/fast-replay.scheduler.ts:30-43 | for any run whose step changes were all logged, replaying the new log keeps the client in step with the server |
| ReplayFidelity.FastReplayRebuildsDraft | src/app/services/schedulers/fast-replay.scheduler.ts:30-43 | fast-replaying a room's final log onto its masked final state rebuilds the server's final board, pointer and finished flag |
| ReplayFidelity.UnloggedSelectIsLost | src/server/reducer.ts:65-85 | a ban chosen before both teams are ready changes the server's board, is not logged, and so is missing from the replay |
| DraftHistory.Clamp | src/app/components/draft-history/draft-history.component.ts:87-101 | the index is clamped into -1..total-1, leaving in-range values alone |
| DraftHistory.BuildInitialBase | src/app/components/draft-history/draft-history.component.ts:135-154 | the base keeps the layout and team names, clears every champion and ready flag, makes step 0 pending, resets pointer and countdown, and bumps the sequence |
| DraftHistory.BaseMatchesMaskedSteps | src/app/components/draft-history/draft-history.component.ts:135-154 | on the standard layout the slider's base board is the masked board |
| DraftHistory.HistoricalEffect | src/app/components/draft-history/draft-history.component.ts:165-213 | one step of the slider's loop (with the 30 of lines 128-130). The countdown ends at the event's recorded value, or at 30 after any confirm-type event. A ready sets only that flag. A rename stores the trimmed name. An unmatched select or confirm changes only the countdown. A matching select writes the champion on the current step, and a matching confirm resolves and advances it. The log and sequence are kept |
| DraftHistory.ApplyAllKeepsLog | src/app/components/draft-history/draft-history.component.ts:165-213 | re-applying history never changes the log, sequence or room id |
| DraftHistory.PrefixLen | src/app/components/draft-history/draft-history.component.ts:104-133 | index t selects the events 0..t that exist: none for a negative index, all past the end |
| DraftHistory.ApplyUpToIndex | src/app/components/draft-history/draft-history.component.ts:104-133 | the store is the base with countdown 30 followed by the events up to the index, applied in order |
| DraftHistory.ResetToInitial | src/app/components/draft-history/draft-history.component.ts:215-220 | replaces the store by its initial base and changes nothing else |
| DraftHistory.SetIndex | src/app/components/draft-history/draft-history.component.ts:87-101 | a controlled slider ignores input; an empty log resets; otherwise the value is clamped and, if it moved, the store is rebuilt to that index and the index emitted |
| DraftHistory.SetIndexSettles | src/app/components/draft-history/draft-history.component.ts:87-101 | rebuilding keeps the log length, so setting the same value again is a no-op |
| DraftHistory.OnChanges | src/app/components/draft-history/draft-history.component.ts:74-80 | an incoming index is clamped into range; no incoming index leaves the slider alone |
| DraftHistory.ClampEffect | src/app/components/draft-history/draft-history.component.ts:62-72 | with a store, the index ends up in range and an in-range index is left alone; only the index changes |
| DraftHistory.HistoryAgreesWithReplay | src/app/components/draft-history/draft-history.component.ts:165-213 | from bases with the same board and pointer, the slider's re-application and a scheduler's replay agree on every step and the pointer |
| DraftHistory.HistoricalStepAgrees | src/app/components/draft-history/draft-history.component.ts:165-213 | the same agreement for one event |
| SpecPage.PlayPauseLabel | src/app/pages/spec-page/spec-page.component.ts:58-65 | the button reads Detener exactly while replaying, Continuar exactly when paused after progress, Empezar otherwise |
| SpecPage.StopReplayTimer | src/app/pages/spec-page/spec-page.component.ts:175-181 | stops the interval and the replaying flag, changing nothing else |
| SpecPage.InlineMaskIsMaskedFromCurrent | src/app/pages/spec-page/spec-page.component.ts:139-172 | the page's inline mask is the model's mask except that it keeps the sequence number |
| SpecPage.ResetToMaskedBase | src/app/pages/spec-page/spec-page.component.ts:183-208 | the store becomes the masked state, the pointers return to the start and the countdown to 30 |
| SpecPage.Restart | src/app/pages/spec-page/spec-page.component.ts:227-230 | stops the replay and rewinds to the masked initial board, keeping the log |
| SpecPage.MaskOnLoad | src/app/pages/spec-page/spec-page.component.ts:139-172 | a finished draft seen finished on first load, with a log and no replay running, is masked once; otherwise nothing changes |
| SpecPage.SpecEventEffect | src/app/pages/spec-page/spec-page.component.ts:306-348 | without a room id an event changes nothing, apart from the 30 shown after a confirm. With one, the countdown is the recorded value (30 after a confirm), and the board, pointer and finished flag move exactly as in a scheduler's replay of the same event. The log is never touched |
| SpecPage.SpecAgreesWithHistory | src/app/pages/spec-page/spec-page.component.ts:306-348 | the page applies events exactly as the history slider does |
| SpecPage.PendingEnd | src/app/pages/spec-page/spec-page.component.ts:257-281 | pending application stops at the end of the log or at the first event recorded at another countdown |
| SpecPage.PendingConsumesAtTarget | src/app/pages/spec-page/spec-page.component.ts:257-281 | every event consumed was recorded at the countdown then in force: the starting one until a confirm, 30 after it |
| SpecPage.ApplyPending | src/app/pages/spec-page/spec-page.component.ts:257-281 | consumes exactly the events PendingEnd names, applies them in order to the store, points the history at the last one, and changes nothing else |
| SpecPage.ReplayBase | src/app/pages/spec-page/spec-page.component.ts:240-283 | with a room id both teams become ready; the store shows the replay countdown; nothing else changes |
| SpecPage.StartReplay | src/app/pages/spec-page/spec-page.component.ts:232-286 | outside replay mode, or already replaying, nothing changes; otherwise it disconnects, starts the interval, and the store is the readied store at the replay countdown with exactly the pending events applied in order, the slider on the last of them |
| SpecPage.LogSurvivesSpecReplay | src/app/pages/spec-page/spec-page.component.ts:306-348 | applying events never changes the store's log |
| SpecPage.TogglePlayback | src/app/pages/spec-page/spec-page.component.ts:211-224 | a running replay stops; a stopped one in replay mode raises the countdown to the next event's and starts |
| SpecPage.RaisedCountdown | src/app/pages/spec-page/spec-page.component.ts:216-223 | the countdown is the larger of the current one and the next event's recorded countdown: never lowered, at least that event's, and exactly one of the two |
| SpecPage.ToggleAdvances | src/app/pages/spec-page/spec-page.component.ts:211-224 | resuming before an event recorded at or above the current countdown applies at least that event |
| SpecPage.IntervalStep | src/app/pages/spec-page/spec-page.component.ts:288-303 | each second lowers the countdown (floored at 0). The store becomes the ticked store with exactly the pending events applied in order, and the slider moves to the last of them. It stops exactly when the log is exhausted and the countdown is out |
| MemoryCache.Get | src/server/cache.ts:15-23 | a value comes back exactly for a present, unexpired key; an expired key is removed and reads as null |
| MemoryCache.ExpiryFor | src/server/cache.ts:25-28 | no expiry for an absent or zero TTL, otherwise the TTL in seconds after now |
| MemoryCache.Set | src/server/cache.ts:25-28 | the key now holds the value with its expiry; other keys are untouched |
| MemoryCache.Del | src/server/cache.ts:30-32 | the key is gone; other keys are untouched |
| MemoryCache.GetNeverSet | src/server/cache.ts:15-17 | a key never written reads as null |
| MemoryCache.SetThenGet | src/server/cache.ts:15-28 | a read after a write returns the value exactly when the TTL is absent or zero, the expiry is the instant 0, or the read is not past the expiry; otherwise it is null and drops the key |
| MemoryCache.NoTtlNeverExpires | src/server/cache.ts:15-28 | a write without a TTL reads back however late |
| MemoryCache.SetOverwrites | src/server/cache.ts:25-28 | a later write to a key replaces an earlier one |
| MemoryCache.DelThenGet | src/server/cache.ts:15-32 | a deleted key reads as null, and other keys read as before |
| MemoryCache.OtherKeysUntouched | src/server/cache.ts:12-33 | writing or reading one key does not change what another key reads as |
| Champions.Reduce | src/app/state/champions/champions.reducer.ts:17-31 | load marks loading and clears the error; success replaces the items and keeps the error; failure records the message and keeps the items; clear resets |
| Champions.ReduceAllReachable | src/app/state/champions/champions.reducer.ts:11-31 | after any actions from the initial slice, an idle slice is the initial one and a loading slice has no error |
| Champions.SuccessKeepsStaleError | src/app/state/champions/champions.reducer.ts:20-29 | a failure followed by a success leaves a successful slice that still carries the old error |
| Champions.ImageById | src/app/state/champions/champions.selectors.ts:8-19 | the map's keys are exactly the ids in the list |
| Champions.ImageByIdLastWins | src/app/state/champions/champions.selectors.ts:8-19 | with repeated ids, each id maps to the images of its last item |
| Champions.Source | src/app/components/champions/champions-grid.component.ts:49-55 | the grid lists its input when it has items, else the store's items |
| Champions.KeepMatching | src/app/components/champions/champions-grid.component.ts:49-55 | keeps exactly the items whose lower-cased name contains the query, each as many times as the list holds it |
| Champions.KeepMatchingIsSublist | src/app/components/champions/champions-grid.component.ts:49-55 | the kept items appear in their original order |
| Champions.Filtered | src/app/components/champions/champions-grid.component.ts:49-55 | a blank query shows the whole source; otherwise exactly the items whose lower-cased name contains the trimmed, lower-cased query, each as many times as the source holds it |
| Champions.FilteredIsSublist | src/app/components/champions/champions-grid.component.ts:49-55 | the grid shows its source's items in their original order |
| Champions.EmitSelected | src/app/components/champions/champions-grid.component.ts:69-76 | a disabled grid emits nothing; an enabled one emits the champion clicked |
| DraftPage.StepAt | src/app/state/draft/draft.selectors.ts:18-22 | the page's current step exists exactly when the pointer is inside the step list, and is then the step at the pointer |
| DraftPage.UsedIds | src/app/pages/draft-page/draft-page.component.ts:77-84 | an id is used exactly when some step holds that champion |
| DraftPage.IsMyTurn | src/app/pages/draft-page/draft-page.component.ts:90-94 | it is the viewer's turn exactly when the current step belongs to the viewer's seat; with no current step, only a URL with no segment matches |
| DraftPage.HasStarted | src/app/pages/draft-page/draft-page.component.ts:96-99 | started exactly when both teams are ready |
| DraftPage.DisableGrid | src/app/pages/draft-page/draft-page.component.ts:101-103 | the grid is enabled exactly when the draft is unfinished, started and the viewer's turn |
| DraftPage.IsReady | src/app/pages/draft-page/draft-page.component.ts:105-111 | a seat shows its own team's ready flag; other viewers are never ready |
| DraftPage.IsPending | src/app/pages/draft-page/draft-page.component.ts:113-117 | pending exactly when the current step exists and is pending |
| DraftPage.Confirmable | src/app/pages/draft-page/draft-page.component.ts:119-123 | confirmable exactly with a room, an enabled grid and a pending current step |
| DraftPage.Ready | src/app/pages/draft-page/draft-page.component.ts:157-162 | a ready is sent exactly with a room and a viewer other than the spectator, for the viewer's seat or passing the URL segment through |
| DraftPage.PickedChampion | src/app/pages/draft-page/draft-page.component.ts:164-180 | a pick is sent exactly with a room, on the viewer's turn, for a non-spectator and a current step, as a select of that champion for the step's type |
| DraftPage.ConfirmSelection | src/app/pages/draft-page/draft-page.component.ts:182-190 | a confirm is sent under the same guards, for the current step's type |
| DraftPage.GuardedActionsMatch | src/app/pages/draft-page/draft-page.component.ts:164-190 | whatever pick or confirm gets through comes from a seat and matches the current step, so the local reducer applies it |
| DraftPage.SpectatorSendsNothing | src/app/pages/draft-page/draft-page.component.ts:157-190 | the spectator can send nothing, is never ready, never has the turn and never sees an enabled grid |
| DraftPage.ConfirmableImpliesConfirmSent | src/app/pages/draft-page/draft-page.component.ts:119-123 | whenever the confirm button is enabled, pressing it sends a confirm |
| DraftPage.PickLandsOnCurrentStep | src/app/pages/draft-page/draft-page.component.ts:164-180 | a pick that gets through puts the champion on the current step and leaves every other step alone |

## Left out

- MySQL persistence (the database service in `src/server/db.ts`, and `fetchRoomEvents` in `src/server/events.ts:180-183`): the database is not part of this model. A write's success is the `persistOk` parameter, and a successful write becomes a `Persisted` message in the outbox.
- The Socket.IO transport and the message router in `src/server.ts`: not modelled. Outgoing messages are the outbox. Each handler receives the already-decoded fields as `Option`s, so a field the payload lacks is `None`.
- The router rejects an empty room id before any handler runs, so the runtime invariant is proved for non-empty ids only. With an empty id, `startTimer` would start an interval that the room table never records.
- The private helpers in `src/server/events.ts:56-77`: nothing calls them.
- `RoomRuntime`: the source's handlers mutate the room object they were given, and `updateRoomProperties` replaces the table entry with a copy. The model reads the current table entry at each step instead, and runs each handler together with its effects as one step. Interleavings while a persist is awaited are left out. One such interleaving is an auto-confirm race. A confirm's effects run persist, then emit-state, then start-timer (`src/server/reducer.ts:126-127`), and each handler is awaited (`src/server/events.ts:187-190`, `232-236`). While the write is pending, the room's old interval still calls `tick` (`src/server/events.ts:90`) with the old deadline. At countdown 0 it auto-confirms the step the handler has just advanced to (`src/server/events.ts:104-115`), and its own start-timer replaces the table entry. The pending handler then starts a timer from a stale room object (`src/server/events.ts:79-91`). The model does not exhibit this race.
- The Redis `CacheService` and its JSON helpers (`src/server/cache.ts:36` onwards): they need an external server. Only the in-process cache is modelled.
- Real timers, `setInterval`/`setTimeout` scheduling and asynchrony: a timer is a flag, a handle or an armed event. Its firing is an explicit call (`Tick`, `FireNextEvent`, `CountdownTick`, `IntervalStep`).
- ReplayContext.RewindToMaskedBase: takes the replay context's `maskedFromCurrent` callback (`realtime-replay.scheduler.ts:89`) to be `maskedFromCurrent` of `src/app/models/draft.ts:156-175`; the code that builds the replay context is not part of this model.
- RealtimeScheduler.RestartToMaskedBase: the same assumption about the context's mask callback.
- FastScheduler.RestartToMaskedBase: the same assumption about the context's mask callback (`fast-replay.scheduler.ts:52`).
- `ReplayContext.ApplyEvent`, `DraftHistory.ApplyHistorical` and `SpecPage.ApplySpecEvent`: carry no contracts of their own. Their behaviour is stated by `ApplyEventEffect` and `ApplyEventSkips`, by `HistoricalEffect` and `HistoricalStepAgrees`, and by `SpecEventEffect` and `SpecAgreesWithHistory`.
- `SpecPage.IsReplayMode`: carries no contract of its own. It is the guard of `SpecPage.StartReplay` and `SpecPage.TogglePlayback`, whose contracts state what happens on each side of it.
- `RealtimeScheduler.FireNextEvent`: carries no contract of its own. Its behaviour is stated by `FireAppliesNextInOrder`, `FireConfirmRule` and `FireSkipsTeamName`. When the next event falls due is stated by `FireWaitsRecordedGap`, and by the `ScheduleNextEvent` contract it ends with.
- Timestamps that do not parse: an event's time is `Option<int>`, and `None` stands for a non-finite `Date` value.
- `Text.ToLower`: lower-cases ASCII letters only. `toLowerCase` also maps non-ASCII letters. It is applied both to champion names and to the user's query (`src/app/components/champions/champions-grid.component.ts:50`). So the two differ on non-ASCII input. In the source, a query holding U+212A KELVIN SIGN lower-cases to "k" and so matches "Kayle". In the model that character stays unchanged and matches nothing.
- The spectator page's capture of the first server state (`spec-page.component.ts:100-115`): modelled as its outcome, the `hasCapturedInitial` and `initialWasFinished` fields.
- The champion load effects (`spec-page.component.ts:117-136`, `champions-grid.component.ts:37-43`), the grid's `clear()`, and the pages' title and socket-connect effects: not modelled. They only trigger loads or I/O.
- `selectChampionsStatus` and `selectChampionsItems`: plain field projections, read directly.
- `pickedChampion`'s guard against a null champion: the clicked champion is always present in the model.
- The distinction between `undefined` and `null` for a step's champion: both are `None`.
- The Angular component wiring, the rendering and the NgRx effects that forward store actions to the socket: not modelled.

=== FILE: champions.dfy ===
/**
 * The champion catalogue on the client: its load-status store
 * (`champions.reducer.ts`), the id-to-images selector
 * (`champions.selectors.ts`) and the grid's name filter and pick guard
 * (`champions-grid.component.ts`).
 */
module Champions {
  import opened Wrappers
  import opened Text

  /** A champion as the catalogue lists it: numeric id, display name and three image URLs. */
  datatype ChampionItem = ChampionItem(id: int, name: string, loadingImage: string, squareImage: string, splashImage: string)

  /** Where the catalogue's load stands. */
  datatype Status = Idle | Loading | Success | Error

  /** The `champions` slice of the store. */
  datatype ChampionsState = ChampionsState(status: Status, items: seq<ChampionItem>, error: Option<string>)

  /** The four catalogue actions. */
  datatype ChampionsAction = Load | LoadSuccess(items: seq<ChampionItem>) | LoadFailure(message: string) | Clear

  const Initial := ChampionsState(Idle, [], None)

  // ----- the load-status store -----

  /**
   * `championsReducer`: load marks the slice loading and clears the error;
   * success replaces the items; failure records the message; clear resets.
   * Nothing else in the slice moves.
   */
  function Reduce(s: ChampionsState, a: ChampionsAction): (r: ChampionsState)
    ensures a.Load? ==> r == ChampionsState(Loading, s.items, None)
    ensures a.LoadSuccess? ==> r.status == Success && r.items == a.items && r.error == s.error
    ensures a.LoadFailure? ==> r.status == Error && r.items == s.items && r.error == Some(a.message)
    ensures a.Clear? ==> r == Initial
  {
    match a
    case Load => s.(status := Loading, error := None)
    case LoadSuccess(items) => s.(status := Success, items := items)
    case LoadFailure(message) => s.(status := Error, error := Some(message))
    case Clear => Initial
  }

  /** The store after a sequence of actions. */
  function ReduceAll(s: ChampionsState, actions: seq<ChampionsAction>): ChampionsState
    decreases |actions|
  {
    if actions == [] then s else Reduce(ReduceAll(s, actions[..|actions| - 1]), actions[|actions| - 1])
  }

  /**
   * What every reachable slice satisfies: an idle slice is the initial one
   * (only `clear` returns there), and a loading slice carries no error.
   */
  predicate Reachable(s: ChampionsState) {
    && (s.status == Idle ==> s == Initial)
    && (s.status == Loading ==> s.error.None?)
  }

  /** Every run of actions from the initial slice keeps `Reachable`. */
  lemma {:induction false} ReduceAllReachable(actions: seq<ChampionsAction>)
    ensures Reachable(ReduceAll(Initial, actions))
  {
    if actions != [] {
      ReduceAllReachable(actions[..|actions| - 1]);
    }
  }

  /**
   * A success does not clear an earlier error: a failure answered directly by
   * a success leaves a successful slice that still carries the message.
   */
  lemma SuccessKeepsStaleError(s: ChampionsState, message: string, items: seq<ChampionItem>)
    ensures var r := Reduce(Reduce(s, LoadFailure(message)), LoadSuccess(items));
      r.status == Success && r.error == Some(message) && r.items == items
  {
  }

  // ----- the image selector -----

  /** The three image URLs the selector keeps for one champion. */
  datatype Images = Images(squareImage: string, loadingImage: string, splashImage: string)

  function ImagesOf(c: ChampionItem): Images {
    Images(c.squareImage, c.loadingImage, c.splashImage)
  }

  /** The ids listed in `items`. */
  function Ids(items: seq<ChampionItem>): set<int> {
    set i | 0 <= i < |items| :: items[i].id
  }

  /**
   * `selectChampionsImageById`: writes each item's images under its id in list
   * order, so the key set is the set of ids.
   */
  function ImageById(items: seq<ChampionItem>): (r: map<int, Images>)
    ensures r.Keys == Ids(items)
    decreases |items|
  {
    if items == [] then map[]
    else
      var front := items[..|items| - 1];
      var last := items[|items| - 1];
      assert Ids(items) == Ids(front) + {last.id} by {
        assert forall i | 0 <= i < |front| :: front[i] == items[i];
      }
      ImageById(front)[last.id := ImagesOf(last)]
  }

  /** Item `i` is the last one in the list with its id. */
  predicate LastWithId(items: seq<ChampionItem>, i: int) {
    0 <= i < |items| && forall j | i < j < |items| :: items[j].id != items[i].id
  }

  /** With duplicate ids the later item wins: each id maps to the images of its last item. */
  lemma {:induction false} ImageByIdLastWins(items: seq<ChampionItem>, i: int)
    requires LastWithId(items, i)
    ensures items[i].id in ImageById(items)
    ensures ImageById(items)[items[i].id] == ImagesOf(items[i])
    decreases |items|
  {
    var n := |items| - 1;
    if i < n {
      var front := items[..n];
      assert items[n].id != items[i].id;
      assert LastWithId(front, i) by {
        forall j | i < j < |front| ensures front[j].id != front[i].id {
          assert front[j] == items[j];
        }
      }
      ImageByIdLastWins(front, i);
    }
  }

  // ----- the grid -----

  /** The grid's list source: the input list when it has items, otherwise the store's items. */
  function Source(input: seq<ChampionItem>, storeItems: seq<ChampionItem>): (r: seq<ChampionItem>)
    ensures input != [] ==> r == input
    ensures input == [] ==> r == storeItems
  {
    if |input| > 0 then input else storeItems
  }

  /** A champion name matches a query already trimmed and lower-cased. */
  predicate NameMatches(c: ChampionItem, q: string) {
    Includes(ToLower(c.name), q)
  }

  /** Keeps the items whose name matches `q`, in order. */
  function KeepMatching(list: seq<ChampionItem>, q: string): (r: seq<ChampionItem>)
    ensures |r| <= |list|
    ensures forall c | c in r :: c in list && NameMatches(c, q)
    ensures forall c | c in list && NameMatches(c, q) :: c in r
    ensures forall c :: multiset(r)[c] == (if NameMatches(c, q) then multiset(list)[c] else 0)
    decreases |list|
  {
    if list == [] then []
    else
      var front := KeepMatching(list[..|list| - 1], q);
      var last := list[|list| - 1];
      assert list == list[..|list| - 1] + [last];
      assert multiset(list) == multiset(list[..|list| - 1]) + multiset{last};
      if NameMatches(last, q) then front + [last] else front
  }

  /** `sub` is `list` with some items dropped and the others kept in order. */
  predicate Sublist(sub: seq<ChampionItem>, list: seq<ChampionItem>)
    decreases |list|
  {
    if list == [] then sub == []
    else if sub != [] && sub[|sub| - 1] == list[|list| - 1] && Sublist(sub[..|sub| - 1], list[..|list| - 1]) then true
    else Sublist(sub, list[..|list| - 1])
  }

  /** The filter keeps order: its result is a sublist of what it filtered. */
  lemma {:induction false} KeepMatchingIsSublist(list: seq<ChampionItem>, q: string)
    ensures Sublist(KeepMatching(list, q), list)
    decreases |list|
  {
    if list != [] {
      var front := list[..|list| - 1];
      KeepMatchingIsSublist(front, q);
      var r := KeepMatching(list, q);
      if NameMatches(list[|list| - 1], q) {
        assert r[..|r| - 1] == KeepMatching(front, q);
      }
    }
  }

  /**
   * `filtered`: the query trimmed and lower-cased; blank keeps the whole source,
   * anything else keeps the items whose lower-cased name contains it.
   */
  function Filtered(query: string, input: seq<ChampionItem>, storeItems: seq<ChampionItem>): (r: seq<ChampionItem>)
    ensures IsBlank(query) ==> r == Source(input, storeItems)
    ensures forall c | c in r :: c in Source(input, storeItems) && NameMatches(c, ToLower(Trim(query)))
    ensures forall c | c in Source(input, storeItems) && NameMatches(c, ToLower(Trim(query))) :: c in r
    ensures forall c :: multiset(r)[c] == (if NameMatches(c, ToLower(Trim(query))) then multiset(Source(input, storeItems))[c] else 0)
  {
    var q := ToLower(Trim(query));
    var list := Source(input, storeItems);
    if q == "" then
      EmptyQueryMatchesAll(list, q);
      list
    else KeepMatching(list, q)
  }

  /** A blank query matches every name, so the "blank keeps everything" branch agrees with the filter. */
  lemma EmptyQueryMatchesAll(list: seq<ChampionItem>, q: string)
    requires q == ""
    ensures forall c | c in list :: NameMatches(c, q)
  {
    forall c | c in list ensures NameMatches(c, q) {
      IncludesEmpty(ToLower(c.name));
    }
  }

  /** Whatever the query, the grid shows a sublist of its source. */
  lemma FilteredIsSublist(query: string, input: seq<ChampionItem>, storeItems: seq<ChampionItem>)
    ensures Sublist(Filtered(query, input, storeItems), Source(input, storeItems))
  {
    var list := Source(input, storeItems);
    if ToLower(Trim(query)) == "" {
      SublistRefl(list);
    } else {
      KeepMatchingIsSublist(list, ToLower(Trim(query)));
    }
  }

  lemma {:induction false} SublistRefl(list: seq<ChampionItem>)
    ensures Sublist(list, list)
    decreases |list|
  {
    if list != [] {
      SublistRefl(list[..|list| - 1]);
    }
  }

  /** `emitSelectedChampionEvent`: a disabled grid emits nothing; an enabled one emits the champion clicked. */
  function EmitSelected(disabled: bool, c: ChampionItem): (r: Option<ChampionItem>)
    ensures r.Some? <==> !disabled
    ensures r.Some? ==> r.value == c
  {
    if disabled then None else Some(c)
  }
}

=== FILE: client_reducer.dfy ===
/**
 * The observer-side reducer (`draftReducer`). Observers drive it live and
 * during replay. It differs from the server reducer in two ways: select and
 * confirm check side and type against the current step, and confirming the
 * last step moves `currentStepId` past the end.
 */
module ClientReducer {
  import opened Wrappers
  import opened Text
  import opened Draft

  /**
   * The `newState` payload of hydrate and tick. Object spread copies only the
   * fields the payload carries; `None` marks a field it does not carry.
   */
  datatype DraftPatch = DraftPatch(
    roomId: Option<string>,
    currentSide: Option<Side>,
    currentStepId: Option<int>,
    countdown: Option<int>,
    steps: Option<seq<Step>>,
    isFinished: Option<bool>,
    teams: Option<Teams>,
    events: Option<seq<DraftEvent>>,
    eventSeq: Option<int>)

  /** A payload carrying every field of `s`, as the callers build it. */
  function Full(s: DraftState): DraftPatch {
    DraftPatch(Some(s.roomId), Some(s.currentSide), Some(s.currentStepId), Some(s.countdown), Some(s.steps),
               Some(s.isFinished), Some(s.teams), Some(s.events), Some(s.eventSeq))
  }

  /** `{ ...state, ...newState }`: a blind field-by-field override, with no `eventSeq` comparison. */
  function Merge(s: DraftState, p: DraftPatch): DraftState {
    DraftState(
      roomId := p.roomId.GetOr(s.roomId),
      currentSide := p.currentSide.GetOr(s.currentSide),
      currentStepId := p.currentStepId.GetOr(s.currentStepId),
      countdown := p.countdown.GetOr(s.countdown),
      steps := p.steps.GetOr(s.steps),
      isFinished := p.isFinished.GetOr(s.isFinished),
      teams := p.teams.GetOr(s.teams),
      events := p.events.GetOr(s.events),
      eventSeq := p.eventSeq.GetOr(s.eventSeq))
  }

  /** The store actions (`DraftActions`); the `roomId` carried by the participant actions is not read. */
  datatype ClientAction =
    | Hydrate(newState: DraftPatch)
    | TickState(newState: DraftPatch)
    | ReadyAction(roomId: string, side: Side)
    | SetTeamNameAction(roomId: string, side: Side, name: string)
    | SelectAction(roomId: string, side: Side, action: DraftType, championId: Option<int>)
    | ConfirmAction(roomId: string, side: Side, action: DraftType)

  /** The current step exists and matches the given side and type. */
  predicate Matches(s: DraftState, side: Side, action: DraftType) {
    0 <= s.currentStepId < |s.steps| && s.steps[s.currentStepId].side == side && s.steps[s.currentStepId].kind == action
  }

  /** `draft/set-team-name`: `name.trim() || current`. */
  function NameAfter(current: string, name: string): string {
    if Trim(name) != "" then Trim(name) else current
  }

  /** The confirm case: resolve the current step and move past it, finishing when it was the last. */
  function ConfirmStep(s: DraftState): DraftState
    requires 0 <= s.currentStepId < |s.steps|
  {
    var idx := s.currentStepId;
    var steps1 := s.steps[idx := s.steps[idx].(pending := false)];
    var nextIdx := idx + 1;
    var finished := nextIdx >= |steps1|;
    var steps2 := if !finished then steps1[nextIdx := steps1[nextIdx].(pending := true)] else steps1;
    s.(steps := steps2,
       currentStepId := nextIdx,
       countdown := if finished then 0 else DefaultCountdown,
       isFinished := finished)
  }

  /** `draftReducer`. */
  function Reduce(s: DraftState, a: ClientAction): (r: DraftState)
    ensures !a.Hydrate? && !a.TickState? ==>
              r.currentSide == s.currentSide && r.events == s.events && r.eventSeq == s.eventSeq && r.roomId == s.roomId
    ensures (a.SelectAction? || a.ConfirmAction?) && !Matches(s, a.side, a.action) ==> r == s
  {
    match a
    case Hydrate(p) => Merge(s, p)
    case TickState(p) => Merge(s, p)
    case ReadyAction(_, side) =>
      s.(teams := Teams(
           s.teams.blue.(ready := if side == Blue then true else s.teams.blue.ready),
           s.teams.red.(ready := if side == Red then true else s.teams.red.ready)))
    case SetTeamNameAction(_, side, name) =>
      s.(teams := Teams(
           s.teams.blue.(name := if side == Blue then NameAfter(s.teams.blue.name, name) else s.teams.blue.name),
           s.teams.red.(name := if side == Red then NameAfter(s.teams.red.name, name) else s.teams.red.name)))
    case SelectAction(_, side, action, championId) =>
      if !Matches(s, side, action) then s
      else s.(steps := s.steps[s.currentStepId := s.steps[s.currentStepId].(championId := championId)])
    case ConfirmAction(_, side, action) =>
      if !Matches(s, side, action) then s
      else ConfirmStep(s)
  }

  // ----- hydrate and tick -----

  /** A full payload replaces the local state outright, whatever the local `eventSeq` was. */
  lemma HydrateFullReplaces(s: DraftState, n: DraftState)
    ensures Reduce(s, Hydrate(Full(n))) == n
    ensures Reduce(s, TickState(Full(n))) == n
  {
  }

  /**
   * The merge is a blind override: fields the payload carries come from it,
   * the others from the local state, and applying the same payload twice is
   * the same as applying it once.
   */
  lemma MergeIsOverride(s: DraftState, p: DraftPatch)
    ensures p.eventSeq.Some? ==> Merge(s, p).eventSeq == p.eventSeq.value
    ensures p.eventSeq.None? ==> Merge(s, p).eventSeq == s.eventSeq
    ensures p.steps.Some? ==> Merge(s, p).steps == p.steps.value
    ensures p.steps.None? ==> Merge(s, p).steps == s.steps
    ensures p.countdown.Some? ==> Merge(s, p).countdown == p.countdown.value
    ensures p.countdown.None? ==> Merge(s, p).countdown == s.countdown
    ensures Merge(Merge(s, p), p) == Merge(s, p)
  {
  }

  /** The tick the replay code dispatches, `withCountdown(current, v)`, sets the countdown and nothing else. */
  lemma TickWithCountdown(s: DraftState, v: int)
    ensures Reduce(s, TickState(Full(WithCountdown(s, v)))) == s.(countdown := v)
  {
  }

  // ----- participant actions -----

  /** Ready sets the named side's flag; the other side and every other field stay as they were. */
  lemma ReadySetsOnlyFlag(s: DraftState, room: string, side: Side)
    ensures var r := Reduce(s, ReadyAction(room, side));
      && r.teams.Get(side) == s.teams.Get(side).(ready := true)
      && (forall o: Side | o != side :: r.teams.Get(o) == s.teams.Get(o))
      && r.(teams := s.teams) == s
  {
  }

  /** Set-team-name stores the trimmed name, keeps the old one when the trimmed name is blank, and leaves the other side alone. */
  lemma SetTeamNameTrims(s: DraftState, room: string, side: Side, name: string)
    ensures var r := Reduce(s, SetTeamNameAction(room, side, name));
      && r.teams.Get(side).name == (if IsBlank(name) then s.teams.Get(side).name else Trim(name))
      && r.teams.Get(side).ready == s.teams.Get(side).ready
      && (forall o: Side | o != side :: r.teams.Get(o) == s.teams.Get(o))
      && r.(teams := s.teams) == s
  {
    NameAfterBlank(s.teams.Get(side).name, name);
    SetTeamNameWrites(s, room, side, name);
  }

  /** Set-team-name rewrites one side's name with `NameAfter` and nothing else. */
  lemma SetTeamNameWrites(s: DraftState, room: string, side: Side, name: string)
    ensures Reduce(s, SetTeamNameAction(room, side, name))
         == s.(teams := s.teams.With(side, s.teams.Get(side).(name := NameAfter(s.teams.Get(side).name, name))))
  {
    if side == Blue {
      var n := NameAfter(s.teams.blue.name, name);
      assert Reduce(s, SetTeamNameAction(room, side, name)).teams == Teams(s.teams.blue.(name := n), s.teams.red);
    } else {
      var n := NameAfter(s.teams.red.name, name);
      assert Reduce(s, SetTeamNameAction(room, side, name)).teams == Teams(s.teams.blue, s.teams.red.(name := n));
    }
  }

  /** The name a set-team-name leaves: the current one for a blank input, the trimmed input otherwise. */
  lemma NameAfterBlank(current: string, name: string)
    ensures NameAfter(current, name) == (if IsBlank(name) then current else Trim(name))
  {
  }

  /** A matching select changes only the current step's champion. */
  lemma SelectSetsOnlyChampion(s: DraftState, room: string, side: Side, action: DraftType, championId: Option<int>)
    requires Matches(s, side, action)
    ensures var r := Reduce(s, SelectAction(room, side, action, championId));
      && r.steps == s.steps[s.currentStepId := s.steps[s.currentStepId].(championId := championId)]
      && r.(steps := s.steps) == s
  {
  }

  /**
   * A matching confirm on a step that is not the last clears its pending
   * flag, sets the next one's, moves the pointer by one, restarts the
   * countdown and marks the draft unfinished.
   */
  lemma ConfirmAdvances(s: DraftState, room: string, side: Side, action: DraftType)
    requires Matches(s, side, action) && s.currentStepId + 1 < |s.steps|
    ensures var r := Reduce(s, ConfirmAction(room, side, action)); var cur := s.currentStepId;
      && r.steps[cur] == s.steps[cur].(pending := false)
      && r.steps[cur + 1] == s.steps[cur + 1].(pending := true)
      && (forall i | 0 <= i < |s.steps| && i != cur && i != cur + 1 :: r.steps[i] == s.steps[i])
      && |r.steps| == |s.steps|
      && r.currentStepId == cur + 1 && r.countdown == DefaultCountdown && !r.isFinished
      && r.teams == s.teams
  {
  }

  /**
   * A matching confirm on the last step moves the pointer to `|steps|`, sets
   * the draft finished with countdown 0, and from then on every select and
   * confirm is ignored.
   */
  lemma ConfirmLastFinishes(s: DraftState, room: string, side: Side, action: DraftType)
    requires Matches(s, side, action) && s.currentStepId + 1 == |s.steps|
    ensures var r := Reduce(s, ConfirmAction(room, side, action));
      && r.currentStepId == |s.steps| && r.isFinished && r.countdown == 0
      && r.steps == s.steps[s.currentStepId := s.steps[s.currentStepId].(pending := false)]
      && (forall room2, side2, action2, c :: Reduce(r, SelectAction(room2, side2, action2, c)) == r)
      && (forall room2, side2, action2 :: Reduce(r, ConfirmAction(room2, side2, action2)) == r)
  {
  }
}

=== FILE: draft.dfy ===
/**
 * The draft data model: the fixed 20-step ban/pick layout, the room state,
 * the event log entries, the initial state and the two state helpers used
 * by replay (`withCountdown`, `maskedFromCurrent`).
 */
module Draft {
  import opened Wrappers

  /** Seconds granted to every step. */
  const DefaultCountdown: int := 30

  /** Number of steps in the hard-coded layout. */
  const StepCount: int := 20

  /** A competing side (`UserSide`). */
  datatype Side = Blue | Red

  /** What a step does (`DraftType`). */
  datatype DraftType = Ban | Pick

  /** One ordered slot of the draft (`IStep`); `kind` is the source's `type` field. */
  datatype Step = Step(id: int, kind: DraftType, side: Side, place: int, pending: bool, championId: Option<int>)

  datatype Team = Team(name: string, ready: bool)

  /** The `teams` record, addressed by side. */
  datatype Teams = Teams(blue: Team, red: Team) {
    function Get(side: Side): Team {
      match side
      case Blue => blue
      case Red => red
    }

    function With(side: Side, t: Team): (r: Teams)
      ensures r.Get(side) == t
      ensures forall other: Side | other != side :: r.Get(other) == Get(other)
    {
      match side
      case Blue => this.(blue := t)
      case Red => this.(red := t)
    }
  }

  datatype EventSource = ClientSource | ServerSource

  /**
   * The type and payload of a logged event. `ServerConfirm` is the source's
   * `CONFIRM` event, whose payload always carries `reason: 'timeout'`.
   */
  datatype EventBody =
    | ClientReady(side: Side)
    | ClientSelect(side: Side, action: DraftType, championId: Option<int>)
    | ClientConfirm(side: Side, action: DraftType, championId: Option<int>)
    | ServerConfirm(side: Side, action: DraftType, championId: Option<int>)
    | ClientSetTeamName(side: Side, name: string)
  {
    /** Both confirm-type events (`CLIENT/CONFIRM` and `CONFIRM`). */
    predicate IsConfirm() {
      ClientConfirm? || ServerConfirm?
    }
  }

  /**
   * One entry of the in-room log (`DraftEvent`); `seqNum` is the source's `seq`. `at` is the event time in
   * milliseconds; `None` stands for a timestamp that does not parse to a
   * finite time.
   */
  datatype DraftEvent = DraftEvent(seqNum: int, at: Option<int>, source: EventSource, body: EventBody, countdownAt: int)

  /** The whole room state (`DraftState`). */
  datatype DraftState = DraftState(
    roomId: string,
    currentSide: Side,
    currentStepId: int,
    countdown: int,
    steps: seq<Step>,
    isFinished: bool,
    teams: Teams,
    events: seq<DraftEvent>,
    eventSeq: int)

  /** Both teams have pressed ready (`bothTeamsReady`, `hasStarted`). */
  predicate BothTeamsReady(s: DraftState) {
    s.teams.blue.ready && s.teams.red.ready
  }

  /** The step at `currentStepId`, or `None` when the pointer is out of range (`steps[currentStepId]` is undefined). */
  function CurrentStep(s: DraftState): (r: Option<Step>)
    ensures r.Some? <==> 0 <= s.currentStepId < |s.steps|
    ensures r.Some? ==> r.value == s.steps[s.currentStepId]
  {
    if 0 <= s.currentStepId < |s.steps| then Some(s.steps[s.currentStepId]) else None
  }

  /** The literal layout: bans 0-5, picks 6-11, bans 12-15, picks 16-19. */
  function InitialSteps(): (steps: seq<Step>)
    ensures |steps| == StepCount
    ensures forall i | 0 <= i < |steps| :: steps[i].id == i
    ensures forall i | 0 <= i < |steps| :: steps[i].championId == None
    ensures forall i | 0 <= i < |steps| :: steps[i].pending <==> i == 0
    ensures forall i | 0 <= i < |steps| ::
              steps[i].kind == (if i < 6 || 12 <= i < 16 then Ban else Pick)
    ensures forall i | 0 <= i < |steps| :: 0 <= steps[i].place < 5
  {
    [ Step(0, Ban, Blue, 0, true, None),
      Step(1, Ban, Red, 0, false, None),
      Step(2, Ban, Blue, 1, false, None),
      Step(3, Ban, Red, 1, false, None),
      Step(4, Ban, Blue, 2, false, None),
      Step(5, Ban, Red, 2, false, None),
      Step(6, Pick, Blue, 0, false, None),
      Step(7, Pick, Red, 0, false, None),
      Step(8, Pick, Red, 1, false, None),
      Step(9, Pick, Blue, 1, false, None),
      Step(10, Pick, Blue, 2, false, None),
      Step(11, Pick, Red, 2, false, None),
      Step(12, Ban, Red, 3, false, None),
      Step(13, Ban, Blue, 3, false, None),
      Step(14, Ban, Red, 4, false, None),
      Step(15, Ban, Blue, 4, false, None),
      Step(16, Pick, Red, 3, false, None),
      Step(17, Pick, Blue, 3, false, None),
      Step(18, Pick, Blue, 4, false, None),
      Step(19, Pick, Red, 4, false, None) ]
  }

  /**
   * Where slot `place` of `side`'s `kind` sits in the layout; an independent
   * table used to show that each (side, kind, place) occurs exactly once.
   */
  function SlotIndex(side: Side, kind: DraftType, place: int): int
    requires 0 <= place < 5
  {
    match (side, kind)
    case (Blue, Ban) => [0, 2, 4, 13, 15][place]
    case (Red, Ban) => [1, 3, 5, 12, 14][place]
    case (Blue, Pick) => [6, 9, 10, 17, 18][place]
    case (Red, Pick) => [7, 8, 11, 16, 19][place]
  }

  /**
   * Every (side, kind, place) with place in 0..4 names exactly one step:
   * the step at `SlotIndex` has that key, and any step with that key is it.
   * Hence each side has five bans and five picks.
   */
  lemma LayoutSlotsUnique()
    ensures forall side: Side, kind: DraftType, p | 0 <= p < 5 ::
              var st := InitialSteps()[SlotIndex(side, kind, p)];
              st.side == side && st.kind == kind && st.place == p
    ensures forall i | 0 <= i < StepCount ::
              var st := InitialSteps()[i];
              SlotIndex(st.side, st.kind, st.place) == i
  {
  }

  /** Options accepted by `createInitialDraftState` (room id and team names). */
  datatype InitOptions = InitOptions(roomId: Option<string>, blueName: Option<string>, redName: Option<string>)

  /** A fresh room (`createInitialDraftState`). */
  function CreateInitialDraftState(options: InitOptions): (s: DraftState)
    ensures s.steps == InitialSteps()
    ensures s.roomId == options.roomId.GetOr("local")
    ensures s.currentStepId == 0 && s.currentSide == Blue && s.countdown == DefaultCountdown
    ensures !s.isFinished && s.events == [] && s.eventSeq == 0
    ensures s.teams.blue == Team(options.blueName.GetOr(""), false)
    ensures s.teams.red == Team(options.redName.GetOr(""), false)
  {
    var steps := InitialSteps();
    DraftState(
      roomId := options.roomId.GetOr("local"),
      currentSide := steps[0].side,
      currentStepId := steps[0].id,
      countdown := DefaultCountdown,
      steps := steps,
      isFinished := false,
      teams := Teams(Team(options.blueName.GetOr(""), false), Team(options.redName.GetOr(""), false)),
      events := [],
      eventSeq := 0)
  }

  /** `withCountdown`: the same state with another countdown. */
  function WithCountdown(s: DraftState, countdown: int): DraftState {
    s.(countdown := countdown)
  }

  /** Every field except `countdown` agrees. */
  predicate SameButCountdown(a: DraftState, b: DraftState) {
    a.(countdown := 0) == b.(countdown := 0)
  }

  /** `withCountdown` changes the countdown and nothing else. */
  lemma WithCountdownOnlyCountdown(s: DraftState, c: int)
    ensures WithCountdown(s, c).countdown == c
    ensures SameButCountdown(WithCountdown(s, c), s)
  {
  }

  /**
   * `maskedFromCurrent`: the spoiler-free replay base. The layout, pointer
   * and countdown are those of a fresh room, names are kept, readiness is
   * dropped, the log is kept, the state is marked finished and `eventSeq` is
   * bumped so that it reads as newer than anything shown before.
   */
  function MaskedFromCurrent(s: DraftState): (m: DraftState)
    ensures m.steps == InitialSteps()
    ensures m.currentStepId == 0 && m.currentSide == Blue && m.countdown == DefaultCountdown
    ensures m.isFinished
    ensures m.teams == Teams(Team(s.teams.blue.name, false), Team(s.teams.red.name, false))
    ensures m.roomId == s.roomId && m.events == s.events
    ensures m.eventSeq == s.eventSeq + 1
  {
    var base := CreateInitialDraftState(InitOptions(Some(s.roomId), Some(s.teams.blue.name), Some(s.teams.red.name)));
    s.(steps := base.steps,
       currentStepId := base.currentStepId,
       currentSide := base.currentSide,
       countdown := base.countdown,
       isFinished := true,
       teams := base.teams,
       eventSeq := s.eventSeq + 1)
  }

  /** The masked base hides every outcome: no step holds a champion and only step 0 is pending. */
  lemma MaskedHidesOutcome(s: DraftState)
    ensures forall i | 0 <= i < |MaskedFromCurrent(s).steps| ::
              MaskedFromCurrent(s).steps[i].championId == None
              && (MaskedFromCurrent(s).steps[i].pending <==> i == 0)
  {
  }

  /** Masking depends only on the room id, the names, the log and `eventSeq`: two states that agree on these mask alike. */
  lemma MaskedForgetsProgress(a: DraftState, b: DraftState)
    requires a.roomId == b.roomId && a.events == b.events && a.eventSeq == b.eventSeq
    requires a.teams.blue.name == b.teams.blue.name && a.teams.red.name == b.teams.red.name
    ensures MaskedFromCurrent(a) == MaskedFromCurrent(b)
  {
  }
}

=== FILE: draft_history.dfy ===
/**
 * The history slider (`DraftHistoryComponent`): scrubbing to an index
 * rebuilds the draft from a clean base by re-applying the log up to that
 * index. The component's signals are the fields of `History`; `store` is
 * the draft store (absent before it loads) and `emitted` the values sent on
 * `indexChanged`.
 */
module DraftHistory {
  import opened Wrappers
  import opened Draft
  import ServerReducer
  import ClientReducer
  import ReplayContext

  datatype History = History(
    store: Option<DraftState>,
    index: int,
    controlled: bool,
    currentIndex: Option<int>,
    emitted: seq<int>)

  /** `total`: the log length, 0 before the store loads. */
  function Total(h: History): nat {
    if h.store.Some? then |h.store.value.events| else 0
  }

  /** `Math.max(-1, Math.min(v, len - 1))`. */
  function Clamp(v: int, len: nat): (r: int)
    ensures -1 <= r <= len - 1 || (len == 0 && r == -1)
    ensures -1 <= v <= len - 1 ==> r == v
    ensures v > len - 1 ==> r == len - 1 || (len == 0 && r == -1)
    ensures v < -1 ==> r == -1
  {
    var m := if v < len - 1 then v else len - 1;
    if m > -1 then m else -1
  }

  /**
   * `buildInitialBaseFromState`: the same room, log and names, with the
   * pointer, countdown and flags of a fresh draft, every selection cleared,
   * only step 0 pending, and `eventSeq` one past the current one.
   */
  function BuildInitialBase(s: DraftState): (b: DraftState)
    ensures b.currentStepId == 0 && b.currentSide == Blue && b.countdown == DefaultCountdown && !b.isFinished
    ensures b.teams == Teams(Team(s.teams.blue.name, false), Team(s.teams.red.name, false))
    ensures ServerReducer.SameLayout(s.steps, b.steps)
    ensures forall i | 0 <= i < |b.steps| :: b.steps[i].championId == None && (b.steps[i].pending <==> i == 0)
    ensures b.eventSeq == s.eventSeq + 1
    ensures b.roomId == s.roomId && b.events == s.events
  {
    s.(currentStepId := 0,
       currentSide := Blue,
       countdown := DefaultCountdown,
       isFinished := false,
       teams := Teams(Team(s.teams.blue.name, false), Team(s.teams.red.name, false)),
       steps := seq(|s.steps|, i requires 0 <= i < |s.steps| => s.steps[i].(championId := None, pending := i == 0)),
       eventSeq := s.eventSeq + 1)
  }

  /** On a room with the standard layout the slider's base and the masked replay base show the same board. */
  lemma BaseMatchesMaskedSteps(s: DraftState)
    requires ServerReducer.SameLayout(s.steps, InitialSteps())
    ensures BuildInitialBase(s).steps == MaskedFromCurrent(s).steps
  {
    MaskedHidesOutcome(s);
    var b := BuildInitialBase(s).steps;
    var m := MaskedFromCurrent(s).steps;
    assert |b| == |m|;
    forall i | 0 <= i < |b| ensures b[i] == m[i] {
      assert b[i].(pending := false, championId := None) == s.steps[i].(pending := false, championId := None);
    }
  }

  /**
   * `applyHistoricalEvent` followed by the loop's confirm rule: the store
   * first shows the countdown recorded with the event; then ready, select,
   * confirm and set-team-name are re-dispatched with the event's payload;
   * after a confirm the countdown shows 30.
   */
  function ApplyHistorical(store: DraftState, roomId: string, ev: DraftEvent): DraftState {
    var s1 := ReplayContext.TickStore(store, ev.countdownAt);
    var s2 :=
      match ev.body
      case ClientReady(side) => ClientReducer.Reduce(s1, ClientReducer.ReadyAction(roomId, side))
      case ClientSelect(side, action, championId) => ClientReducer.Reduce(s1, ClientReducer.SelectAction(roomId, side, action, championId))
      case ClientConfirm(side, action, _) => ClientReducer.Reduce(s1, ClientReducer.ConfirmAction(roomId, side, action))
      case ServerConfirm(side, action, _) => ClientReducer.Reduce(s1, ClientReducer.ConfirmAction(roomId, side, action))
      case ClientSetTeamName(side, name) => ClientReducer.Reduce(s1, ClientReducer.SetTeamNameAction(roomId, side, name));
    if ev.body.IsConfirm() then ReplayContext.TickStore(s2, DefaultCountdown) else s2
  }

  /** What one step of the slider's loop does: the recorded countdown (30 after a confirm) and the reducer's rule for the event, with the log kept. */
  lemma HistoricalEffect(store: DraftState, roomId: string, ev: DraftEvent)
    ensures var r := ApplyHistorical(store, roomId, ev);
      && (r.events == store.events && r.eventSeq == store.eventSeq && r.roomId == store.roomId)
      && (r.countdown == (if ev.body.IsConfirm() then DefaultCountdown else ev.countdownAt))
      && (ev.body.ClientReady? ==>
            r == store.(countdown := ev.countdownAt,
                        teams := store.teams.With(ev.body.side, store.teams.Get(ev.body.side).(ready := true))))
      && (ev.body.ClientSetTeamName? ==>
            var t := store.teams.Get(ev.body.side);
            r == store.(countdown := ev.countdownAt,
                        teams := store.teams.With(ev.body.side, t.(name := ClientReducer.NameAfter(t.name, ev.body.name)))))
      && (((ev.body.ClientSelect? || ev.body.IsConfirm()) && !ClientReducer.Matches(store, ev.body.side, ev.body.action)) ==>
            r == store.(countdown := r.countdown))
      && (ev.body.ClientSelect? && ClientReducer.Matches(store, ev.body.side, ev.body.action) ==>
            var cur := store.currentStepId;
            r == store.(countdown := ev.countdownAt, steps := store.steps[cur := store.steps[cur].(championId := ev.body.championId)]))
      && (ev.body.IsConfirm() && ClientReducer.Matches(store, ev.body.side, ev.body.action) ==>
            r == ClientReducer.ConfirmStep(store).(countdown := DefaultCountdown))
  {
  }

  /** The store after `ApplyHistorical` of each of `evs` in order. */
  function ApplyAll(store: DraftState, roomId: string, evs: seq<DraftEvent>): DraftState
    decreases |evs|
  {
    if evs == [] then store else ApplyHistorical(ApplyAll(store, roomId, evs[..|evs| - 1]), roomId, evs[|evs| - 1])
  }

  /** Re-applying history never touches the room id, the log or `eventSeq`. */
  lemma {:induction false} ApplyAllKeepsLog(store: DraftState, roomId: string, evs: seq<DraftEvent>)
    ensures var r := ApplyAll(store, roomId, evs);
      r.events == store.events && r.eventSeq == store.eventSeq && r.roomId == store.roomId
    decreases |evs|
  {
    if evs != [] {
      ApplyAllKeepsLog(store, roomId, evs[..|evs| - 1]);
    }
  }

  /** How many events `applyUpToIndex(t)` applies: those at indices 0..t that exist. */
  function PrefixLen(t: int, len: nat): (n: nat)
    ensures n <= len
    ensures t < 0 ==> n == 0
    ensures 0 <= t < len ==> n == t + 1
    ensures t >= len ==> n == len
  {
    if t < 0 then 0 else if t + 1 < len then t + 1 else len
  }

  /**
   * `applyUpToIndex(t)`: hydrate the base built from `s`, show 30, then
   * apply events 0..t of `s`'s log in order (stopping at its end), with a
   * 30 after every confirm.
   */
  method ApplyUpToIndex(s: DraftState, t: int) returns (store: DraftState)
    ensures store == ApplyAll(ReplayContext.TickStore(BuildInitialBase(s), DefaultCountdown), s.roomId,
                              s.events[..PrefixLen(t, |s.events|)])
  {
    ClientReducer.HydrateFullReplaces(s, BuildInitialBase(s));
    store := ClientReducer.Reduce(s, ClientReducer.Hydrate(ClientReducer.Full(BuildInitialBase(s))));
    store := ReplayContext.TickStore(store, DefaultCountdown);
    if t < 0 {
      assert s.events[..0] == [];
      return;
    }
    var start := store;
    var events := s.events;
    var i := 0;
    while i <= t && i < |events|
      invariant 0 <= i <= |events| && i <= t + 1
      invariant store == ApplyAll(start, s.roomId, events[..i])
    {
      assert events[..i + 1][..i] == events[..i];
      store := ApplyHistorical(store, s.roomId, events[i]);
      i := i + 1;
    }
    assert i == PrefixLen(t, |events|);
  }

  /** The slider's reset: hydrate the base when the store is loaded. */
  function ResetToInitial(h: History): (r: History)
    ensures h.store.Some? ==> r.store == Some(BuildInitialBase(h.store.value))
    ensures r.(store := h.store) == h
  {
    if h.store.None? then h
    else
      ClientReducer.HydrateFullReplaces(h.store.value, BuildInitialBase(h.store.value));
      h.(store := Some(ClientReducer.Reduce(h.store.value, ClientReducer.Hydrate(ClientReducer.Full(BuildInitialBase(h.store.value))))))
  }

  /**
   * `setIndex(value)`: ignored while the parent controls the slider. With no
   * store or an empty log the board resets to the base and nothing is
   * emitted. Otherwise the value is clamped to `[-1, len-1]`; landing on the
   * current index does nothing; any other index is shown (the board rebuilt
   * up to it) and emitted once.
   */
  method SetIndex(h: History, value: int) returns (r: History)
    ensures h.controlled ==> r == h
    ensures !h.controlled && Total(h) == 0 ==> r == ResetToInitial(h)
    ensures !h.controlled && Total(h) > 0 ==>
              var c := Clamp(value, Total(h));
              && -1 <= c < Total(h)
              && (c == h.index ==> r == h)
              && (c != h.index ==>
                    && r.index == c && r.emitted == h.emitted + [c]
                    && r.store.Some?
                    && r.store.value == ApplyAll(ReplayContext.TickStore(BuildInitialBase(h.store.value), DefaultCountdown),
                                                 h.store.value.roomId, h.store.value.events[..PrefixLen(c, Total(h))])
                    && r.controlled == h.controlled && r.currentIndex == h.currentIndex)
  {
    if h.controlled {
      return h;
    }
    if h.store.None? || |h.store.value.events| == 0 {
      return ResetToInitial(h);
    }
    var clamped := Clamp(value, |h.store.value.events|);
    if clamped == h.index {
      return h;
    }
    var store := ApplyUpToIndex(h.store.value, clamped);
    r := h.(index := clamped, store := Some(store), emitted := h.emitted + [clamped]);
  }

  /** Scrubbing to the same place twice is the same as scrubbing once: the log survives the rebuild, so the second call lands on the current index. */
  lemma SetIndexSettles(h: History, value: int, r: History)
    requires !h.controlled && Total(h) > 0
    requires r.store.Some? && r.index == Clamp(value, Total(h))
    requires r.store.value == ApplyAll(ReplayContext.TickStore(BuildInitialBase(h.store.value), DefaultCountdown),
                                       h.store.value.roomId, h.store.value.events[..PrefixLen(r.index, Total(h))])
    ensures Total(r) == Total(h)
    ensures Clamp(value, Total(r)) == r.index
  {
    ApplyAllKeepsLog(ReplayContext.TickStore(BuildInitialBase(h.store.value), DefaultCountdown),
                     h.store.value.roomId, h.store.value.events[..PrefixLen(r.index, Total(h))]);
  }

  /** `ngOnChanges`: a numeric `currentIndex` from the parent is clamped into `[-1, len-1]`. */
  function OnChanges(h: History): (r: History)
    ensures h.currentIndex.None? ==> r == h
    ensures h.currentIndex.Some? ==> r == h.(index := Clamp(h.currentIndex.value, Total(h)))
    ensures h.currentIndex.Some? ==> -1 <= r.index <= Total(h) - 1 || (Total(h) == 0 && r.index == -1)
  {
    if h.currentIndex.None? then h else h.(index := Clamp(h.currentIndex.value, Total(h)))
  }

  /** The constructor's effect: once the store is loaded the index is pulled back into `[-1, len-1]`. */
  function ClampEffect(h: History): (r: History)
    ensures h.store.None? ==> r == h
    ensures h.store.Some? ==> -1 <= r.index <= Total(h) - 1 || (Total(h) == 0 && r.index == -1)
    ensures h.store.Some? && -1 <= h.index <= Total(h) - 1 ==> r == h
    ensures r.(index := h.index) == h
  {
    if h.store.None? then h
    else
      var len := |h.store.value.events|;
      var curr := h.index;
      var h1 := if curr > len - 1 then h.(index := len - 1) else h;
      if curr < -1 then h1.(index := -1) else h1
  }

  /**
   * Scrubbing to the end shows the board the replay schedulers reach: from
   * bases with the same board and pointer, re-applying history and
   * replaying the log (with a room id) agree on every step and the pointer.
   */
  lemma {:induction false} HistoryAgreesWithReplay(a: DraftState, b: DraftState, roomId: string, evs: seq<DraftEvent>)
    requires a.steps == b.steps && a.currentStepId == b.currentStepId && roomId != ""
    ensures var h := ApplyAll(a, roomId, evs);
      var rp := ReplayContext.ReplayAll(b, Some(roomId), evs);
      h.steps == rp.steps && h.currentStepId == rp.currentStepId
    decreases |evs|
  {
    if evs != [] {
      HistoryAgreesWithReplay(a, b, roomId, evs[..|evs| - 1]);
      HistoricalStepAgrees(ApplyAll(a, roomId, evs[..|evs| - 1]), ReplayContext.ReplayAll(b, Some(roomId), evs[..|evs| - 1]),
                           roomId, evs[|evs| - 1]);
    }
  }

  /** One event: the slider and a scheduler move the board and the pointer alike. */
  lemma HistoricalStepAgrees(a: DraftState, b: DraftState, roomId: string, ev: DraftEvent)
    requires a.steps == b.steps && a.currentStepId == b.currentStepId && roomId != ""
    ensures var h := ApplyHistorical(a, roomId, ev);
      var rp := ReplayContext.ApplyEvent(b, Some(roomId), ev);
      h.steps == rp.steps && h.currentStepId == rp.currentStepId
  {
    var a1 := ReplayContext.TickStore(a, ev.countdownAt);
    assert a1.steps == a.steps && a1.currentStepId == a.currentStepId;
    match ev.body
    case ClientReady(_) =>
    case ClientSelect(_, _, _) =>
    case ClientConfirm(_, _, _) =>
    case ServerConfirm(_, _, _) =>
    case ClientSetTeamName(_, _) =>
  }
}

=== FILE: draft_page.dfy ===
/**
 * The participant page (`draft-page.component.ts`): what it derives from the
 * local draft state for the viewer named in the URL, and the three guarded
 * dispatches behind its buttons.
 */
module DraftPage {
  import opened Wrappers
  import opened Draft
  import ClientReducer

  /**
   * Who the URL's last segment names: one of the two seats, the spectator, or
   * any other segment (`None` when the URL has no segment at all, which reads
   * as `undefined`). `Stray` never holds "blue", "red" or "spec".
   */
  datatype Viewer = Seat(side: Side) | Spectator | Stray(path: Option<string>)

  /** The fields of the local draft state the page reads. */
  datatype PageView = PageView(roomId: string, viewer: Viewer, state: DraftState)

  /** `selectCurrentStep`: the step under the pointer, or null. */
  function StepAt(v: PageView): (r: Option<Step>)
    ensures r.Some? <==> 0 <= v.state.currentStepId < |v.state.steps|
    ensures r.Some? ==> r.value == v.state.steps[v.state.currentStepId]
  {
    CurrentStep(v.state)
  }

  /** `usedIds`: collects every champion id placed on a step, scanning the steps in order. */
  method UsedIds(steps: seq<Step>) returns (ids: set<int>)
    ensures forall x :: x in ids <==> exists i | 0 <= i < |steps| :: steps[i].championId == Some(x)
  {
    ids := {};
    var k := 0;
    while k < |steps|
      invariant 0 <= k <= |steps|
      invariant forall x :: x in ids <==> exists i | 0 <= i < k :: steps[i].championId == Some(x)
    {
      if steps[k].championId.Some? {
        ids := ids + {steps[k].championId.value};
      }
      k := k + 1;
    }
  }

  /**
   * `isMyTurn`: the step under the pointer belongs to the viewer's seat. When
   * there is no such step the comparison is `undefined === mySide`, true only
   * for a URL without a segment.
   */
  function IsMyTurn(v: PageView): (r: bool)
    ensures StepAt(v).Some? ==> (r <==> v.viewer == Seat(StepAt(v).value.side))
    ensures StepAt(v).None? ==> (r <==> v.viewer == Stray(None))
  {
    match StepAt(v)
    case Some(step) => v.viewer.Seat? && v.viewer.side == step.side
    case None => v.viewer.Stray? && v.viewer.path.None?
  }

  /** `hasStarted`: both teams have pressed ready. */
  function HasStarted(v: PageView): (r: bool)
    ensures r <==> v.state.teams.blue.ready && v.state.teams.red.ready
  {
    BothTeamsReady(v.state)
  }

  /** `disableGrid`: the grid is off once the draft is over, off the viewer's turn, and before both are ready. */
  function DisableGrid(v: PageView): (r: bool)
    ensures !r <==> !v.state.isFinished && IsMyTurn(v) && HasStarted(v)
  {
    v.state.isFinished || !IsMyTurn(v) || !HasStarted(v)
  }

  /** `isReady`: a seat shows its own team's flag; the spectator and any other viewer are never ready. */
  function IsReady(v: PageView): (r: bool)
    ensures v.viewer.Seat? ==> (r <==> v.state.teams.Get(v.viewer.side).ready)
    ensures !v.viewer.Seat? ==> !r
  {
    match v.viewer
    case Seat(side) => if side == Blue then v.state.teams.blue.ready else v.state.teams.red.ready
    case _ => false
  }

  /** `isPending`: the step under the pointer is marked pending. */
  function IsPending(v: PageView): (r: bool)
    ensures r <==> StepAt(v).Some? && StepAt(v).value.pending
  {
    match StepAt(v)
    case Some(step) => step.pending
    case None => false
  }

  /** `confirmable`: a room, an enabled grid and a pending current step. */
  function Confirmable(v: PageView): (r: bool)
    ensures r <==> v.roomId != "" && !DisableGrid(v) && IsPending(v)
  {
    if v.roomId == "" then false
    else if DisableGrid(v) then false
    else IsPending(v)
  }

  /**
   * What a button press sends to the store: a client action for a seat, or a
   * ready carrying whatever the URL named when that was neither seat nor the
   * spectator (the source passes the segment through unchecked).
   */
  datatype Dispatch = Send(action: ClientReducer.ClientAction) | SendStrayReady(roomId: string, path: Option<string>)

  /** `ready`: needs a room and a viewer other than the spectator. */
  function Ready(v: PageView): (r: Option<Dispatch>)
    ensures r.Some? <==> v.roomId != "" && !v.viewer.Spectator?
    ensures r.Some? && v.viewer.Seat? ==> r.value == Send(ClientReducer.ReadyAction(v.roomId, v.viewer.side))
    ensures r.Some? && v.viewer.Stray? ==> r.value == SendStrayReady(v.roomId, v.viewer.path)
  {
    if v.roomId == "" then None
    else
      match v.viewer
      case Spectator => None
      case Seat(side) => Some(Send(ClientReducer.ReadyAction(v.roomId, side)))
      case Stray(path) => Some(SendStrayReady(v.roomId, path))
  }

  /**
   * `pickedChampion`: needs a room, the viewer's turn, a non-spectator viewer
   * and a current step; sends a select of the clicked champion for that
   * step's type.
   */
  function PickedChampion(v: PageView, championId: int): (r: Option<Dispatch>)
    ensures r.Some? <==> v.roomId != "" && IsMyTurn(v) && !v.viewer.Spectator? && StepAt(v).Some?
    ensures r.Some? ==> r.value == Send(ClientReducer.SelectAction(v.roomId, v.viewer.side, StepAt(v).value.kind, Some(championId)))
  {
    if v.roomId == "" || !IsMyTurn(v) || v.viewer.Spectator? then None
    else
      match StepAt(v)
      case None => None
      case Some(step) => Some(Send(ClientReducer.SelectAction(v.roomId, v.viewer.side, step.kind, Some(championId))))
  }

  /** `confirmSelection`: the same guards as a pick; sends a confirm for the current step's type. */
  function ConfirmSelection(v: PageView): (r: Option<Dispatch>)
    ensures r.Some? <==> v.roomId != "" && IsMyTurn(v) && !v.viewer.Spectator? && StepAt(v).Some?
    ensures r.Some? ==> r.value == Send(ClientReducer.ConfirmAction(v.roomId, v.viewer.side, StepAt(v).value.kind))
  {
    if v.roomId == "" || !IsMyTurn(v) || v.viewer.Spectator? then None
    else
      match StepAt(v)
      case None => None
      case Some(step) => Some(Send(ClientReducer.ConfirmAction(v.roomId, v.viewer.side, step.kind)))
  }

  // ----- how the guards line up with the reducer -----

  /**
   * A pick or confirm the page lets through always names a seat, and the
   * action it sends matches the current step, so the local reducer applies
   * it rather than ignoring it; a stray URL segment never gets this far.
   */
  lemma GuardedActionsMatch(v: PageView, championId: int)
    ensures PickedChampion(v, championId).Some? ==>
      && v.viewer.Seat?
      && ClientReducer.Matches(v.state, v.viewer.side, PickedChampion(v, championId).value.action.action)
    ensures ConfirmSelection(v).Some? ==>
      && v.viewer.Seat?
      && ClientReducer.Matches(v.state, v.viewer.side, ConfirmSelection(v).value.action.action)
  {
  }

  /** The spectator page dispatches nothing, whatever the state. */
  lemma SpectatorSendsNothing(v: PageView, championId: int)
    requires v.viewer.Spectator?
    ensures Ready(v).None? && PickedChampion(v, championId).None? && ConfirmSelection(v).None?
    ensures !IsReady(v) && !IsMyTurn(v) && DisableGrid(v) && !Confirmable(v)
  {
  }

  /** A confirmable page is one whose confirm button gets through the guards. */
  lemma ConfirmableImpliesConfirmSent(v: PageView)
    requires Confirmable(v)
    ensures ConfirmSelection(v).Some?
  {
  }

  /** A picked champion lands on the current step: the local reducer stores it there and nowhere else. */
  lemma PickLandsOnCurrentStep(v: PageView, championId: int)
    requires PickedChampion(v, championId).Some?
    ensures var s := ClientReducer.Reduce(v.state, PickedChampion(v, championId).value.action);
      && s.steps[v.state.currentStepId].championId == Some(championId)
      && (forall i | 0 <= i < |s.steps| && i != v.state.currentStepId :: s.steps[i] == v.state.steps[i])
  {
    GuardedActionsMatch(v, championId);
    ClientReducer.SelectSetsOnlyChampion(v.state, v.roomId, v.viewer.side, v.state.steps[v.state.currentStepId].kind, Some(championId));
  }
}

=== FILE: fast_scheduler.dfy ===
/**
 * The fast replay strategy (`FastReplayScheduler`): applies the whole log
 * in one tight loop to reach the final state, with no timing.
 */
module FastScheduler {
  import opened Wrappers
  import opened Draft
  import opened ReplayContext

  /** The scheduler's fields: the configured context, if any, and the running flag. */
  datatype Fast = Fast(ctx: Option<Ctx>, running: bool)

  /**
   * `start`: with no context or an empty log nothing happens. Otherwise the
   * spectator is prepared (socket dropped, both sides ready), every event is
   * applied in index order, the pointers end past the last event, the
   * countdown is 0, the scheduler is idle again and `onFinished` fires once.
   */
  method Start(f: Fast) returns (r: Fast)
    ensures f.ctx.None? || f.ctx.value.events == [] ==> r == f
    ensures f.ctx.Some? && f.ctx.value.events != [] ==>
      var c := f.ctx.value;
      var n := |c.events|;
      && r.ctx.Some?
      && r.ctx.value.store == ReplayAll(EnsureSpecReplayReady(c).store, c.roomId, c.events)
      && r.ctx.value.replayIdx == n && r.ctx.value.historyIndex == n - 1
      && r.ctx.value.countdown == 0
      && !r.running
      && r.ctx.value.finishedSignals == c.finishedSignals + 1
      && !r.ctx.value.socketConnected
      && r.ctx.value.events == c.events && r.ctx.value.roomId == c.roomId
  {
    if f.ctx.None? || f.ctx.value.events == [] {
      return f;
    }
    var c0 := f.ctx.value;
    var c := EnsureSpecReplayReady(c0);
    var base := c.store;
    var running := true;
    var i := 0;
    while i < |c.events|
      invariant 0 <= i <= |c.events|
      invariant c.events == c0.events && c.roomId == c0.roomId
      invariant c.finishedSignals == c0.finishedSignals && !c.socketConnected
      invariant c.store == ReplayAll(base, c.roomId, c.events[..i])
      invariant i > 0 ==> c.historyIndex == i - 1 && c.replayIdx == i
    {
      assert c.events[..i + 1][..i] == c.events[..i];
      c := c.(store := ApplyEvent(c.store, c.roomId, c.events[i]));
      c := c.(historyIndex := i, replayIdx := i + 1);
      i := i + 1;
    }
    assert c.events[..i] == c.events;
    c := c.(countdown := 0);
    running := false;
    c := c.(finishedSignals := c.finishedSignals + 1);
    r := Fast(Some(c), running);
  }

  /** `pause` and `stop` only clear the running flag. */
  function Pause(f: Fast): (r: Fast)
    ensures !r.running && r.ctx == f.ctx
  {
    f.(running := false)
  }

  /** `restartToMaskedBase`: hydrate the masked base and rewind the pointers; the running flag is left alone. */
  function RestartToMaskedBase(f: Fast): (r: Fast)
    ensures f.ctx.None? ==> r == f
    ensures f.ctx.Some? ==>
              (r.ctx.Some? && r.ctx.value.store == MaskedFromCurrent(f.ctx.value.store)
               && r.ctx.value.historyIndex == -1 && r.ctx.value.replayIdx == 0
               && r.ctx.value.countdown == DefaultCountdown)
    ensures r.running == f.running
  {
    if f.ctx.None? then f else f.(ctx := Some(RewindToMaskedBase(f.ctx.value)))
  }

  /** `scrubTo`: the shared pointer formula. */
  function ScrubTo(f: Fast, index: int): (r: Fast)
    ensures f.ctx.None? ==> r == f
    ensures f.ctx.Some? ==>
              (r.ctx.Some? && r.ctx.value.historyIndex == index
               && r.ctx.value.replayIdx == (if index + 1 > 0 then index + 1 else 0)
               && r.ctx.value.store == f.ctx.value.store)
    ensures r.running == f.running
  {
    if f.ctx.None? then f else f.(ctx := Some(ScrubPointers(f.ctx.value, index)))
  }
}

=== FILE: memory_cache.dfy ===
/**
 * The in-process TTL cache the server falls back to when no Redis is
 * configured (`InMemoryCache` in `src/server/cache.ts`). Time is the
 * `now` parameter in milliseconds; a TTL is in seconds.
 */
module MemoryCache {
  import opened Wrappers

  /** A stored value and its expiry instant, if it has one. */
  datatype Entry = Entry(value: string, expiresAt: Option<int>)

  /** The backing `Map`. */
  type Cache = map<string, Entry>

  const Empty: Cache := map[]

  /**
   * The entry has expired at `now`: the expiry is set, is not zero (the
   * source tests it for truthiness) and lies strictly in the past.
   */
  predicate Expired(e: Entry, now: int) {
    e.expiresAt.Some? && e.expiresAt.value != 0 && now > e.expiresAt.value
  }

  /** What `get` answers and what it leaves behind. */
  datatype Lookup = Lookup(value: Option<string>, cache: Cache)

  /** `get`: a missing key is null; an expired entry is removed and null; otherwise its value. */
  function Get(c: Cache, key: string, now: int): (r: Lookup)
    ensures r.value.Some? <==> key in c && !Expired(c[key], now)
    ensures r.value.Some? ==> r.value.value == c[key].value && r.cache == c
    ensures r.cache == (if key in c && Expired(c[key], now) then c - {key} else c)
  {
    if key !in c then Lookup(None, c)
    else if Expired(c[key], now) then Lookup(None, c - {key})
    else Lookup(Some(c[key].value), c)
  }

  /** The expiry `set` computes: none for an absent or zero TTL, otherwise `ttl` seconds after `now`. */
  function ExpiryFor(ttlSeconds: Option<int>, now: int): (r: Option<int>)
    ensures ttlSeconds.None? || ttlSeconds.value == 0 <==> r.None?
    ensures r.Some? ==> r.value - now == ttlSeconds.value * 1000
  {
    if ttlSeconds.None? || ttlSeconds.value == 0 then None else Some(now + ttlSeconds.value * 1000)
  }

  /** `set`: overwrites the key's value and expiry, whatever was there before. */
  function Set(c: Cache, key: string, value: string, ttlSeconds: Option<int>, now: int): (r: Cache)
    ensures r.Keys == c.Keys + {key}
    ensures r[key] == Entry(value, ExpiryFor(ttlSeconds, now))
    ensures forall k | k in c && k != key :: r[k] == c[k]
  {
    c[key := Entry(value, ExpiryFor(ttlSeconds, now))]
  }

  /** `del`: removes the key, if present. */
  function Del(c: Cache, key: string): (r: Cache)
    ensures key !in r
    ensures forall k | k != key :: k in r <==> k in c
    ensures forall k | k in r :: r[k] == c[k]
  {
    c - {key}
  }

  // ----- properties -----

  /** A key that was never set reads as null and changes nothing. */
  lemma GetNeverSet(key: string, now: int)
    ensures Get(Empty, key, now) == Lookup(None, Empty)
  {
  }

  /**
   * Reading back a write: the value comes back exactly when the TTL was absent
   * or zero, the computed expiry happened to be the instant 0, or the read is
   * no later than the expiry; otherwise the read is null and drops the key.
   */
  lemma SetThenGet(c: Cache, key: string, value: string, ttlSeconds: Option<int>, setAt: int, getAt: int)
    ensures var r := Get(Set(c, key, value, ttlSeconds, setAt), key, getAt);
      var live := ttlSeconds.None? || ttlSeconds.value == 0
                  || setAt + ttlSeconds.value * 1000 == 0
                  || getAt <= setAt + ttlSeconds.value * 1000;
      && (live ==> r.value == Some(value))
      && (!live ==> r.value.None? && key !in r.cache)
  {
  }

  /** A TTL that is absent or zero never expires, however late the read. */
  lemma NoTtlNeverExpires(c: Cache, key: string, value: string, ttlSeconds: Option<int>, setAt: int, getAt: int)
    requires ttlSeconds.None? || ttlSeconds == Some(0)
    ensures Get(Set(c, key, value, ttlSeconds, setAt), key, getAt).value == Some(value)
  {
  }

  /** A later write wins over an earlier one to the same key. */
  lemma SetOverwrites(c: Cache, key: string, v1: string, t1: Option<int>, v2: string, t2: Option<int>, now: int)
    ensures Set(Set(c, key, v1, t1, now), key, v2, t2, now) == Set(c, key, v2, t2, now)
  {
  }

  /** After `del` the key reads as null; other keys read as they did. */
  lemma DelThenGet(c: Cache, key: string, other: string, now: int)
    requires other != key
    ensures Get(Del(c, key), key, now).value.None?
    ensures Get(Del(c, key), other, now).value == Get(c, other, now).value
  {
  }

  /** A write or a read of one key does not change what another key reads as. */
  lemma OtherKeysUntouched(c: Cache, key: string, other: string, value: string, ttlSeconds: Option<int>, now: int, at: int)
    requires other != key
    ensures Get(Set(c, key, value, ttlSeconds, now), other, at).value == Get(c, other, at).value
    ensures Get(Get(c, key, now).cache, other, at).value == Get(c, other, at).value
  {
  }
}

=== FILE: realtime_scheduler.dfy ===
/**
 * The real-time replay strategy (`RealTimeReplayScheduler`): applies the log
 * at the original cadence, one armed timeout per event, while a one-second
 * interval counts the displayed countdown down. Timers are flags in the
 * record and the clock reading `now` is a parameter; a timer firing is the
 * step function `FireNextEvent`, an interval tick is `CountdownTick`.
 */
module RealtimeScheduler {
  import opened Wrappers
  import opened Draft
  import opened ReplayContext

  /**
   * The armed next-event timeout: the index it was scheduled for, the event
   * it will apply, and that event's time (`None` when the timestamp does not
   * parse to a finite number).
   */
  datatype ArmedEvent = ArmedEvent(idx: nat, ev: DraftEvent, nextAt: Option<int>)

  /**
   * The scheduler's fields. `lastAppliedEventAtMs` is `None` when the last
   * applied event had no finite time (the source stores `NaN` there); the
   * source's initial value 0 is `Some(0)`.
   */
  datatype Realtime = Realtime(
    ctx: Option<Ctx>,
    countdownTimer: bool,
    nextEvent: Option<ArmedEvent>,
    nextEventDueAtMs: int,
    remainingToNextMs: int,
    lastAppliedEventAtMs: Option<int>,
    running: bool)

  /** A freshly constructed scheduler configured with `ctx`. */
  function Configured(ctx: Ctx): Realtime {
    Realtime(Some(ctx), false, None, 0, 0, Some(0), false)
  }

  /** `stopTimers` followed by clearing the running flag: what `stop` does. */
  function Stop(rt: Realtime): (r: Realtime)
    ensures !r.running && !r.countdownTimer && r.nextEvent.None?
    ensures r.(countdownTimer := rt.countdownTimer, nextEvent := rt.nextEvent, running := rt.running) == rt
  {
    rt.(countdownTimer := false, nextEvent := None, running := false)
  }

  /**
   * `pause`: when a next-event timeout is armed with a positive due time, the
   * time still to wait, never negative, is saved; then everything stops.
   */
  function Pause(rt: Realtime, now: int): (r: Realtime)
    ensures !r.running && !r.countdownTimer && r.nextEvent.None?
    ensures r.remainingToNextMs >= 0 || r.remainingToNextMs == rt.remainingToNextMs
    ensures rt.nextEvent.Some? && rt.nextEventDueAtMs > 0 ==>
              r.remainingToNextMs == Max0(rt.nextEventDueAtMs - now)
    ensures !(rt.nextEvent.Some? && rt.nextEventDueAtMs > 0) ==> r.remainingToNextMs == rt.remainingToNextMs
    ensures r.ctx == rt.ctx && r.lastAppliedEventAtMs == rt.lastAppliedEventAtMs
  {
    var rt1 := if rt.nextEvent.Some? && rt.nextEventDueAtMs > 0
               then rt.(remainingToNextMs := Max0(rt.nextEventDueAtMs - now))
               else rt;
    Stop(rt1)
  }

  /**
   * `computeDelayMs`: a delay saved by `pause` is used as is and cleared;
   * otherwise the gap from the base (the last applied event's time when it
   * is positive, else the previous event's time, else the event's own) to
   * the next event's time, 0 when either is not a finite time, never
   * negative. Returns the delay and the scheduler with the saved delay spent.
   */
  function ComputeDelayMs(rt: Realtime, events: seq<DraftEvent>, idx: nat, nextAt: Option<int>): (r: (int, Realtime))
    requires idx < |events|
    ensures r.0 >= 0
    ensures r.1 == rt.(remainingToNextMs := r.1.remainingToNextMs)
    ensures r.1.remainingToNextMs == (if rt.remainingToNextMs > 0 then 0 else rt.remainingToNextMs)
    ensures rt.remainingToNextMs > 0 ==> r.0 == rt.remainingToNextMs
    ensures rt.remainingToNextMs <= 0 && nextAt.None? ==> r.0 == 0
    ensures rt.remainingToNextMs <= 0 && rt.lastAppliedEventAtMs.Some? && rt.lastAppliedEventAtMs.value > 0 && nextAt.Some? ==>
              r.0 == Max0(nextAt.value - rt.lastAppliedEventAtMs.value)
    ensures rt.remainingToNextMs <= 0 && 0 < idx && !(rt.lastAppliedEventAtMs.Some? && rt.lastAppliedEventAtMs.value > 0) ==>
              r.0 == (if nextAt.Some? && events[idx - 1].at.Some? then Max0(nextAt.value - events[idx - 1].at.value) else 0)
    ensures rt.remainingToNextMs <= 0 && idx == 0 && !(rt.lastAppliedEventAtMs.Some? && rt.lastAppliedEventAtMs.value > 0) ==>
              r.0 == 0
  {
    if rt.remainingToNextMs > 0 then
      (rt.remainingToNextMs, rt.(remainingToNextMs := 0))
    else
      var prevAt := if idx > 0 then events[idx - 1].at else nextAt;
      var base := if rt.lastAppliedEventAtMs.Some? && rt.lastAppliedEventAtMs.value > 0 then rt.lastAppliedEventAtMs else prevAt;
      var rawDelta := if nextAt.Some? && base.Some? then nextAt.value - base.value else 0;
      (Max0(rawDelta), rt)
  }

  /**
   * `scheduleNextEvent` followed by `armNextEventTimer`: drop any armed
   * timeout; with a context and an event left at `replayIdx`, arm one for it
   * due after the computed delay.
   */
  function ScheduleNextEvent(rt: Realtime, now: int): (r: Realtime)
    ensures rt.ctx.None? || rt.ctx.value.replayIdx >= |rt.ctx.value.events| ==> r == rt.(nextEvent := None)
    ensures rt.ctx.Some? && rt.ctx.value.replayIdx < |rt.ctx.value.events| ==>
              var c := rt.ctx.value;
              && r.nextEvent == Some(ArmedEvent(c.replayIdx, c.events[c.replayIdx], c.events[c.replayIdx].at))
              && r.nextEventDueAtMs >= now
              && r.nextEventDueAtMs == now + ComputeDelayMs(rt.(nextEvent := None), c.events, c.replayIdx, c.events[c.replayIdx].at).0
              && r.remainingToNextMs <= 0
              && r.ctx == rt.ctx && r.running == rt.running && r.countdownTimer == rt.countdownTimer
              && r.lastAppliedEventAtMs == rt.lastAppliedEventAtMs
  {
    var rt0 := rt.(nextEvent := None);
    if rt0.ctx.None? then rt0
    else
      var c := rt0.ctx.value;
      var idx := c.replayIdx;
      if idx >= |c.events| then rt0
      else
        var nextAt := c.events[idx].at;
        var (delay, rt1) := ComputeDelayMs(rt0, c.events, idx, nextAt);
        rt1.(nextEventDueAtMs := now + delay, nextEvent := Some(ArmedEvent(idx, c.events[idx], nextAt)))
  }

  /** `dispatchCountdownTick`: the store's countdown becomes `v`. */
  function DispatchTick(c: Ctx, v: int): Ctx {
    c.(store := TickStore(c.store, v))
  }

  /**
   * `start`: with no context or an empty log nothing happens. Otherwise the
   * spectator is prepared, the scheduler runs, the store shows the replay
   * countdown, the interval is armed and the event at `replayIdx` is
   * scheduled.
   */
  function Start(rt: Realtime, now: int): (r: Realtime)
    ensures rt.ctx.None? || rt.ctx.value.events == [] ==> r == rt
    ensures rt.ctx.Some? && rt.ctx.value.events != [] ==>
              && r.running && r.countdownTimer
              && r.ctx.Some? && !r.ctx.value.socketConnected
              && r.ctx.value.store.countdown == rt.ctx.value.countdown
              && r.ctx.value.store.steps == rt.ctx.value.store.steps
              && r.ctx.value.store == TickStore(EnsureSpecReplayReady(rt.ctx.value).store, rt.ctx.value.countdown)
              && (HasRoom(rt.ctx.value.roomId) ==> r.ctx.value.store.teams.blue.ready && r.ctx.value.store.teams.red.ready)
              && r.ctx.value.(store := rt.ctx.value.store, socketConnected := rt.ctx.value.socketConnected) == rt.ctx.value
              && (rt.ctx.value.replayIdx < |rt.ctx.value.events| <==> r.nextEvent.Some?)
  {
    if rt.ctx.None? || rt.ctx.value.events == [] then rt
    else
      var c1 := EnsureSpecReplayReady(rt.ctx.value);
      var c2 := DispatchTick(c1, c1.countdown);
      ScheduleNextEvent(rt.(ctx := Some(c2), running := true, countdownTimer := true), now)
  }

  /** `restartToMaskedBase`: stop, hydrate the masked base, rewind the pointers. */
  function RestartToMaskedBase(rt: Realtime): (r: Realtime)
    ensures rt.ctx.None? ==> r == rt
    ensures rt.ctx.Some? ==>
              (&& !r.running && !r.countdownTimer && r.nextEvent.None?
               && r.ctx.Some? && r.ctx.value.store == MaskedFromCurrent(rt.ctx.value.store)
               && r.ctx.value.historyIndex == -1 && r.ctx.value.replayIdx == 0
               && r.ctx.value.countdown == DefaultCountdown)
  {
    if rt.ctx.None? then rt
    else Stop(rt).(ctx := Some(RewindToMaskedBase(rt.ctx.value)))
  }

  /** `scrubTo`: the pointer formula shared with the fast strategy; timers are left as they are. */
  function ScrubTo(rt: Realtime, index: int): (r: Realtime)
    ensures rt.ctx.None? ==> r == rt
    ensures rt.ctx.Some? ==>
              (&& r.ctx == Some(ScrubPointers(rt.ctx.value, index))
               && r.(ctx := rt.ctx) == rt)
  {
    if rt.ctx.None? then rt else rt.(ctx := Some(ScrubPointers(rt.ctx.value, index)))
  }

  /**
   * `handlePostConfirm`: a finished store shows countdown 0, stops the
   * scheduler and signals the end (result true); otherwise the countdown
   * restarts at 30 (result false).
   */
  function HandlePostConfirm(rt: Realtime): (r: (bool, Realtime))
    ensures rt.ctx.None? ==> r == (false, rt)
    ensures rt.ctx.Some? && rt.ctx.value.store.isFinished ==>
              (&& r.0 && !r.1.running && !r.1.countdownTimer && r.1.nextEvent.None?
               && r.1.ctx.Some? && r.1.ctx.value.countdown == 0 && r.1.ctx.value.store.countdown == 0
               && r.1.ctx.value.finishedSignals == rt.ctx.value.finishedSignals + 1)
    ensures rt.ctx.Some? && !rt.ctx.value.store.isFinished ==>
              (&& !r.0 && r.1.running == rt.running
               && r.1.ctx.Some? && r.1.ctx.value.countdown == DefaultCountdown
               && r.1.ctx.value.store.countdown == DefaultCountdown)
    ensures rt.ctx.Some? ==>
              && r.1.ctx.Some?
              && r.1.ctx.value.events == rt.ctx.value.events && r.1.ctx.value.roomId == rt.ctx.value.roomId
              && r.1.ctx.value.replayIdx == rt.ctx.value.replayIdx && r.1.ctx.value.historyIndex == rt.ctx.value.historyIndex
              && r.1.ctx.value.store.steps == rt.ctx.value.store.steps
  {
    if rt.ctx.None? then (false, rt)
    else
      var c := rt.ctx.value;
      if c.store.isFinished then
        var c1 := DispatchTick(c.(countdown := 0), 0);
        (true, Stop(rt).(ctx := Some(c1.(finishedSignals := c1.finishedSignals + 1))))
      else
        (false, rt.(ctx := Some(DispatchTick(c.(countdown := DefaultCountdown), DefaultCountdown))))
  }

  /**
   * The armed timeout fires: the event is applied to the store, the pointers
   * move past it and its time becomes the base for the next delay; after a
   * confirm the post-confirm rule runs and only an unfinished draft goes on;
   * otherwise the next event is scheduled.
   */
  function FireNextEvent(rt: Realtime, now: int): Realtime {
    if rt.nextEvent.None? then rt
    else
      var armed := rt.nextEvent.value;
      var rt1 :=
        if rt.ctx.None? then rt
        else
          var c := rt.ctx.value;
          var c1 := c.(store := ApplyEvent(c.store, c.roomId, armed.ev));
          rt.(ctx := Some(c1.(historyIndex := armed.idx, replayIdx := armed.idx + 1)),
              lastAppliedEventAtMs := armed.nextAt);
      if armed.ev.body.IsConfirm() then
        var (finished, rt2) := HandlePostConfirm(rt1);
        if finished then rt2 else ScheduleNextEvent(rt2, now)
      else
        ScheduleNextEvent(rt1, now)
  }

  /**
   * The one-second interval body: the countdown drops by one but not below
   * 0 and is mirrored into the store; once every event is applied and the
   * countdown is out, the scheduler stops and signals the end.
   */
  function CountdownTick(rt: Realtime): (r: Realtime)
    ensures !rt.countdownTimer || rt.ctx.None? ==> r == rt
    ensures rt.countdownTimer && rt.ctx.Some? ==>
              var c := rt.ctx.value;
              var next := Max0(c.countdown - 1);
              && r.ctx.Some?
              && r.ctx.value.countdown == next && r.ctx.value.store.countdown == next
              && r.ctx.value.store == c.store.(countdown := next)
              && (c.replayIdx >= |c.events| && next <= 0 <==> !r.running && !r.countdownTimer)
              && (c.replayIdx >= |c.events| && next <= 0 ==> r.ctx.value.finishedSignals == c.finishedSignals + 1 && r.nextEvent.None?)
              && (!(c.replayIdx >= |c.events| && next <= 0) ==> r.ctx.value.finishedSignals == c.finishedSignals && r.nextEvent == rt.nextEvent)
    ensures r.ctx.Some? ==> r.ctx.value.events == rt.ctx.value.events && r.ctx.value.replayIdx == rt.ctx.value.replayIdx
  {
    if !rt.countdownTimer || rt.ctx.None? then rt
    else
      var c := rt.ctx.value;
      var next := Max0(c.countdown - 1);
      var c1 := DispatchTick(c.(countdown := next), next);
      if c1.replayIdx >= |c1.events| && next <= 0 then
        Stop(rt).(ctx := Some(c1.(finishedSignals := c1.finishedSignals + 1)))
      else
        rt.(ctx := Some(c1))
  }

  /**
   * The armed timeout is for the next event in the log: it is the event at
   * `replayIdx`, and the countdown interval runs with it.
   */
  predicate ArmedAtNext(rt: Realtime) {
    rt.nextEvent.Some? ==>
      && rt.ctx.Some?
      && rt.nextEvent.value.idx == rt.ctx.value.replayIdx < |rt.ctx.value.events|
      && rt.nextEvent.value.ev == rt.ctx.value.events[rt.nextEvent.value.idx]
      && rt.nextEvent.value.nextAt == rt.nextEvent.value.ev.at
  }

  /** `start` arms the timeout for the next event. */
  lemma StartArmsNext(rt: Realtime, now: int)
    requires rt.nextEvent.None? || ArmedAtNext(rt)
    ensures ArmedAtNext(Start(rt, now))
  {
  }

  /**
   * Events are applied strictly in index order, one at a time: firing the
   * timeout armed for `replayIdx = k` applies exactly event k, leaves the
   * pointers at `historyIndex = k`, `replayIdx = k + 1`, and arms (if
   * anything) event k + 1.
   */
  lemma FireAppliesNextInOrder(rt: Realtime, now: int)
    requires ArmedAtNext(rt) && rt.nextEvent.Some?
    ensures var r := FireNextEvent(rt, now); var c := rt.ctx.value; var k := c.replayIdx;
      && r.ctx.Some?
      && r.ctx.value.historyIndex == k && r.ctx.value.replayIdx == k + 1
      && r.ctx.value.store.steps == ApplyEvent(c.store, c.roomId, c.events[k]).steps
      && r.ctx.value.events == c.events
      && ArmedAtNext(r)
      && (r.nextEvent.Some? ==> r.nextEvent.value.idx == k + 1)
  {
    var c := rt.ctx.value;
    var armed := rt.nextEvent.value;
    var c1 := c.(store := ApplyEvent(c.store, c.roomId, armed.ev));
    var rt1 := rt.(ctx := Some(c1.(historyIndex := armed.idx, replayIdx := armed.idx + 1)),
                   lastAppliedEventAtMs := armed.nextAt);
    if armed.ev.body.IsConfirm() {
      var (finished, rt2) := HandlePostConfirm(rt1);
      assert FireNextEvent(rt, now) == if finished then rt2 else ScheduleNextEvent(rt2, now);
    } else {
      assert FireNextEvent(rt, now) == ScheduleNextEvent(rt1, now);
    }
  }

  /** After a confirm, a finished draft shows 0 and stops; otherwise the countdown restarts at 30 and the next event is armed. */
  lemma FireConfirmRule(rt: Realtime, now: int)
    requires ArmedAtNext(rt) && rt.nextEvent.Some? && rt.nextEvent.value.ev.body.IsConfirm()
    ensures var r := FireNextEvent(rt, now);
      && r.ctx.Some?
      && (r.ctx.value.store.isFinished ==> r.ctx.value.countdown == 0 && !r.running && r.nextEvent.None?)
      && (!r.ctx.value.store.isFinished ==>
            r.ctx.value.countdown == DefaultCountdown
            && (r.ctx.value.replayIdx < |r.ctx.value.events| <==> r.nextEvent.Some?))
  {
  }

  /** The interval tick keeps the armed timeout pointing at the next event. */
  lemma CountdownTickKeepsArmed(rt: Realtime)
    requires ArmedAtNext(rt)
    ensures ArmedAtNext(CountdownTick(rt))
  {
  }

  /**
   * A delay saved by `pause` is spent exactly once: resuming with `start`
   * arms the timeout due after exactly the saved delay, and leaves nothing
   * saved for the next computation.
   */
  lemma PausedDelayUsedOnce(rt: Realtime, pausedAt: int, resumedAt: int)
    requires rt.nextEvent.Some? && rt.nextEventDueAtMs > pausedAt >= 0
    requires rt.ctx.Some? && rt.ctx.value.events != [] && rt.ctx.value.replayIdx < |rt.ctx.value.events|
    ensures var r := Start(Pause(rt, pausedAt), resumedAt);
      && r.nextEventDueAtMs == resumedAt + (rt.nextEventDueAtMs - pausedAt)
      && r.remainingToNextMs == 0
  {
  }

  /**
   * The replay waits out the recorded gap: after a non-confirm event k with
   * a positive time `a` fires, with no paused delay saved, the event k + 1
   * recorded at `b` is armed `max(0, b - a)` milliseconds after the firing.
   */
  lemma FireWaitsRecordedGap(rt: Realtime, now: int)
    requires ArmedAtNext(rt) && rt.nextEvent.Some? && !rt.nextEvent.value.ev.body.IsConfirm()
    requires rt.remainingToNextMs <= 0
    requires rt.nextEvent.value.nextAt.Some? && rt.nextEvent.value.nextAt.value > 0
    requires rt.ctx.value.replayIdx + 1 < |rt.ctx.value.events| && rt.ctx.value.events[rt.ctx.value.replayIdx + 1].at.Some?
    ensures var r := FireNextEvent(rt, now); var k := rt.ctx.value.replayIdx; var evs := rt.ctx.value.events;
      && r.nextEvent.Some? && r.nextEvent.value.idx == k + 1
      && r.nextEventDueAtMs == now + Max0(evs[k + 1].at.value - evs[k].at.value)
  {
  }

  /** A set-team-name event never reaches the store, and with no room id no event does. */
  lemma FireSkipsTeamName(rt: Realtime, now: int)
    requires ArmedAtNext(rt) && rt.nextEvent.Some?
    requires rt.nextEvent.value.ev.body.ClientSetTeamName? || !HasRoom(rt.ctx.value.roomId)
    ensures FireNextEvent(rt, now).ctx.value.store.steps == rt.ctx.value.store.steps
    ensures FireNextEvent(rt, now).ctx.value.store.teams == rt.ctx.value.store.teams
  {
    ApplyEventSkips(rt.ctx.value.store, rt.ctx.value.roomId, rt.nextEvent.value.ev);
  }
}

=== FILE: replay_context.dfy ===
/**
 * What the two replay schedulers share: the replay context they are
 * configured with (`ReplayContext`: store state, log, room id and the three
 * replay pointers), the event application both use, the scrub formula and
 * the spectator preparation.
 */
module ReplayContext {
  import opened Wrappers
  import opened Draft
  import ClientReducer

  /**
   * The context's observable state. `store` is the observer's draft store,
   * `events` what `getEvents` returns, `roomId` what `getRoomId` returns;
   * `socketConnected` and `finishedSignals` record `disconnectSocket` and
   * `onFinished` calls.
   */
  datatype Ctx = Ctx(
    store: DraftState,
    events: seq<DraftEvent>,
    roomId: Option<string>,
    historyIndex: int,
    replayIdx: nat,
    countdown: int,
    socketConnected: bool,
    finishedSignals: nat)

  /** `roomId` is truthy: present and not the empty string. */
  predicate HasRoom(roomId: Option<string>) {
    roomId.Some? && roomId.value != ""
  }

  /**
   * The schedulers' `applyEvent`: ready, select and both confirm types are
   * re-driven through the store with the logged payload; team-name events
   * are skipped; nothing happens without a room id.
   */
  function ApplyEvent(store: DraftState, roomId: Option<string>, ev: DraftEvent): DraftState {
    if !HasRoom(roomId) then store
    else
      match ev.body
      case ClientReady(side) => ClientReducer.Reduce(store, ClientReducer.ReadyAction(roomId.value, side))
      case ClientSelect(side, action, championId) =>
        ClientReducer.Reduce(store, ClientReducer.SelectAction(roomId.value, side, action, championId))
      case ClientConfirm(side, action, _) => ClientReducer.Reduce(store, ClientReducer.ConfirmAction(roomId.value, side, action))
      case ServerConfirm(side, action, _) => ClientReducer.Reduce(store, ClientReducer.ConfirmAction(roomId.value, side, action))
      case ClientSetTeamName(_, _) => store
  }

  /** What one replayed event does to the store: the reducer's ready, select and confirm rules, nothing for renames or without a room id, and never the log or the names. */
  lemma ApplyEventEffect(store: DraftState, roomId: Option<string>, ev: DraftEvent)
    ensures var r := ApplyEvent(store, roomId, ev);
      && (r.events == store.events && r.eventSeq == store.eventSeq && r.roomId == store.roomId)
      && (r.teams.blue.name == store.teams.blue.name && r.teams.red.name == store.teams.red.name)
      && (!HasRoom(roomId) || ev.body.ClientSetTeamName? ==> r == store)
      && (HasRoom(roomId) && ev.body.ClientReady? ==>
            r == store.(teams := store.teams.With(ev.body.side, store.teams.Get(ev.body.side).(ready := true))))
      && ((HasRoom(roomId) && (ev.body.ClientSelect? || ev.body.IsConfirm()) && !ClientReducer.Matches(store, ev.body.side, ev.body.action)) ==>
            r == store)
      && (HasRoom(roomId) && ev.body.ClientSelect? && ClientReducer.Matches(store, ev.body.side, ev.body.action) ==>
            r == store.(steps := store.steps[store.currentStepId := store.steps[store.currentStepId].(championId := ev.body.championId)]))
      && (HasRoom(roomId) && ev.body.IsConfirm() && ClientReducer.Matches(store, ev.body.side, ev.body.action) ==>
            r == ClientReducer.ConfirmStep(store))
  {
  }

  /** The store after applying `evs` in order, one at a time. */
  function ReplayAll(store: DraftState, roomId: Option<string>, evs: seq<DraftEvent>): DraftState
    decreases |evs|
  {
    if evs == [] then store else ApplyEvent(ReplayAll(store, roomId, evs[..|evs| - 1]), roomId, evs[|evs| - 1])
  }

  /** Replaying a concatenation is replaying the parts one after the other. */
  lemma {:induction false} ReplayAllAppend(store: DraftState, roomId: Option<string>, a: seq<DraftEvent>, b: seq<DraftEvent>)
    ensures ReplayAll(store, roomId, a + b) == ReplayAll(ReplayAll(store, roomId, a), roomId, b)
    decreases |b|
  {
    if b == [] {
      assert a + b == a;
    } else {
      assert (a + b)[..|a + b| - 1] == a + b[..|b| - 1];
      ReplayAllAppend(store, roomId, a, b[..|b| - 1]);
    }
  }

  /** The team-name event is never applied, and nothing is applied without a room id. */
  lemma ApplyEventSkips(store: DraftState, roomId: Option<string>, ev: DraftEvent)
    ensures ev.body.ClientSetTeamName? ==> ApplyEvent(store, roomId, ev) == store
    ensures !HasRoom(roomId) ==> ApplyEvent(store, roomId, ev) == store
  {
  }

  /**
   * `scrubTo(index)` in both strategies: the slider position is `index`, the
   * next event to apply is `max(0, index + 1)`, and the countdown is that
   * event's recorded countdown, or 0 at or past the end.
   */
  function ScrubPointers(c: Ctx, index: int): (r: Ctx)
    ensures r.historyIndex == index
    ensures r.replayIdx == (if index + 1 > 0 then index + 1 else 0) >= 0
    ensures r.replayIdx >= |c.events| ==> r.countdown == 0
    ensures r.replayIdx < |c.events| ==> r.countdown == c.events[r.replayIdx].countdownAt
    ensures r.(historyIndex := c.historyIndex, replayIdx := c.replayIdx, countdown := c.countdown) == c
  {
    var nextIdx := if index + 1 > 0 then index + 1 else 0;
    c.(historyIndex := index,
       replayIdx := nextIdx,
       countdown := if nextIdx >= |c.events| then 0 else c.events[nextIdx].countdownAt)
  }

  /** `ensureSpecReplayReady`: disconnect, then mark both sides ready in the store when there is a room id. */
  function EnsureSpecReplayReady(c: Ctx): (r: Ctx)
    ensures !r.socketConnected
    ensures HasRoom(c.roomId) ==> r.store.teams.blue.ready && r.store.teams.red.ready
    ensures r.store.steps == c.store.steps && r.store.currentStepId == c.store.currentStepId
    ensures r.(store := c.store, socketConnected := c.socketConnected) == c
  {
    if !HasRoom(c.roomId) then c.(socketConnected := false)
    else
      var s1 := ClientReducer.Reduce(c.store, ClientReducer.ReadyAction(c.roomId.value, Blue));
      var s2 := ClientReducer.Reduce(s1, ClientReducer.ReadyAction(c.roomId.value, Red));
      c.(socketConnected := false, store := s2)
  }

  /** `restartToMaskedBase` (without the scheduler's own stop): hydrate the masked base and rewind the pointers. */
  function RewindToMaskedBase(c: Ctx): (r: Ctx)
    ensures r.store == MaskedFromCurrent(c.store)
    ensures r.historyIndex == -1 && r.replayIdx == 0 && r.countdown == DefaultCountdown
    ensures r.events == c.events && r.roomId == c.roomId
  {
    ClientReducer.HydrateFullReplaces(c.store, MaskedFromCurrent(c.store));
    c.(store := ClientReducer.Reduce(c.store, ClientReducer.Hydrate(ClientReducer.Full(MaskedFromCurrent(c.store)))),
       historyIndex := -1,
       replayIdx := 0,
       countdown := DefaultCountdown)
  }

  /** The tick a scheduler dispatches: the store's countdown becomes `v`. */
  function TickStore(store: DraftState, v: int): (r: DraftState)
    ensures r == store.(countdown := v)
  {
    ClientReducer.TickWithCountdown(store, v);
    ClientReducer.Reduce(store, ClientReducer.TickState(ClientReducer.Full(WithCountdown(store, v))))
  }
}

=== FILE: replay_fidelity.dfy ===
/**
 * Why replaying works: a server log re-driven through the observer reducer
 * from the masked base rebuilds the draft, provided every change to the
 * steps was logged. The server only logs selections made after both teams
 * are ready, so the proviso is real; `UnloggedSelectIsLost` shows it failing.
 */
module ReplayFidelity {
  import opened Wrappers
  import opened Draft
  import ServerReducer
  import ClientReducer
  import opened ReplayContext

  /**
   * The observer state `c` agrees with the server state `s`: same steps, and
   * the same pointer except that the observer moves one past the last step
   * when the draft finishes, where it also shows the draft finished at 0.
   */
  predicate Tracks(s: DraftState, c: DraftState) {
    && c.steps == s.steps
    && c.currentStepId == s.currentStepId + (if s.isFinished then 1 else 0)
    && (s.isFinished ==> c.isFinished && c.countdown == 0)
  }

  /** The reduction of `a` either appends to the log or leaves the steps alone. */
  predicate StepChangeLogged(s: DraftState, a: ServerReducer.Timed) {
    var r := ServerReducer.Reduce(s, a.action, a.now).state;
    r.steps != s.steps ==> |r.events| > |s.events|
  }

  /** Every action of the run either appends to the log or leaves the steps alone. */
  predicate StepChangesLogged(s: DraftState, actions: seq<ServerReducer.Timed>)
    decreases |actions|
  {
    actions == [] ||
    (StepChangeLogged(s, actions[0])
     && StepChangesLogged(ServerReducer.Reduce(s, actions[0].action, actions[0].now).state, actions[1..]))
  }

  /** One server action and the events it appended, replayed on the observer, keep the two in step. */
  lemma ReplayStep(s: DraftState, c: DraftState, a: ServerReducer.Timed, room: Option<string>)
    requires ServerReducer.Wellformed(s) && Tracks(s, c) && HasRoom(room)
    requires StepChangeLogged(s, a)
    ensures var r := ServerReducer.Reduce(s, a.action, a.now).state;
      Tracks(r, ReplayAll(c, room, r.events[|s.events|..]))
  {
    var r := ServerReducer.Reduce(s, a.action, a.now).state;
    if s.isFinished && !a.action.Join? && !a.action.Tick? {
      ServerReducer.FinishedIsInert(s, a.action, a.now);
      assert r.events[|s.events|..] == [];
    } else if ServerReducer.IsResolution(a.action) {
      ReplayResolution(s, c, a, room);
    } else if a.action.Select? {
      ReplaySelect(s, c, a, room);
    } else {
      ReplayQuiet(s, c, a, room);
    }
  }

  /** The one event a single reduction appended, when it appended one. */
  lemma AddedIsLast(s: DraftState, r: DraftState)
    requires |r.events| == |s.events| + 1
    ensures r.events[|s.events|..] == [r.events[|s.events|]]
  {
  }

  /** Replaying a ready or team-name event leaves what `Tracks` looks at alone. */
  lemma QuietEventInert(c: DraftState, room: Option<string>, e: DraftEvent)
    requires e.body.ClientReady? || e.body.ClientSetTeamName?
    ensures var c1 := ApplyEvent(c, room, e);
      c1.steps == c.steps && c1.currentStepId == c.currentStepId
      && c1.isFinished == c.isFinished && c1.countdown == c.countdown
  {
  }

  /** Join, tick, ready and set-team-name leave the steps alone and log nothing a replay applies to them. */
  lemma ReplayQuiet(s: DraftState, c: DraftState, a: ServerReducer.Timed, room: Option<string>)
    requires ServerReducer.Wellformed(s) && Tracks(s, c) && HasRoom(room)
    requires a.action.Join? || a.action.Tick? || a.action.Ready? || a.action.SetTeamName?
    ensures var r := ServerReducer.Reduce(s, a.action, a.now).state;
      Tracks(r, ReplayAll(c, room, r.events[|s.events|..]))
  {
    var r := ServerReducer.Reduce(s, a.action, a.now).state;
    if a.action.Join? || a.action.Tick? {
      ServerReducer.JoinAndTickAreLight(s, if a.action.Tick? then a.action.countdown else 0, a.now);
      assert r.events[|s.events|..] == [];
    } else {
      if a.action.Ready? {
        assert r == ServerReducer.HandleReady(s, a.action.side, a.now).state;
      } else {
        assert r == ServerReducer.HandleSetTeamName(s, a.action.side, a.action.name, a.now).state;
      }
      assert r.steps == s.steps && r.currentStepId == s.currentStepId && r.isFinished == s.isFinished;
      if |r.events| == |s.events| {
        assert r.events[|s.events|..] == [];
      } else {
        AddedIsLast(s, r);
        var e := r.events[|s.events|];
        assert e.body.ClientReady? || e.body.ClientSetTeamName?;
        QuietEventInert(c, room, e);
      }
    }
  }

  /** A select on a running draft either is logged and replayed onto the same step, or changed nothing. */
  lemma ReplaySelect(s: DraftState, c: DraftState, a: ServerReducer.Timed, room: Option<string>)
    requires ServerReducer.Wellformed(s) && Tracks(s, c) && HasRoom(room) && !s.isFinished
    requires a.action.Select? && StepChangeLogged(s, a)
    ensures var r := ServerReducer.Reduce(s, a.action, a.now).state;
      Tracks(r, ReplayAll(c, room, r.events[|s.events|..]))
  {
    var r := ServerReducer.Reduce(s, a.action, a.now).state;
    assert r.currentStepId == s.currentStepId && r.isFinished == s.isFinished;
    if |r.events| == |s.events| {
      assert r.events[|s.events|..] == [];
    } else {
      AddedIsLast(s, r);
      var e := r.events[|s.events|];
      assert e.body == ClientSelect(a.action.side, a.action.action, a.action.championId);
      assert ClientReducer.Matches(c, a.action.side, a.action.action);
    }
  }

  /** A confirm or timeout on a running draft is always logged, and the replayed confirm resolves the same step. */
  lemma ReplayResolution(s: DraftState, c: DraftState, a: ServerReducer.Timed, room: Option<string>)
    requires ServerReducer.Wellformed(s) && Tracks(s, c) && HasRoom(room) && !s.isFinished
    requires ServerReducer.IsResolution(a.action)
    ensures var r := ServerReducer.Reduce(s, a.action, a.now).state;
      Tracks(r, ReplayAll(c, room, r.events[|s.events|..]))
  {
    var r := ServerReducer.Reduce(s, a.action, a.now).state;
    ServerReducer.ConfirmEventRecords(s, a.action, a.now);
    AddedIsLast(s, r);
    var e := r.events[|s.events|];
    var st := s.steps[s.currentStepId];
    assert e.body.IsConfirm() && e.body.side == st.side && e.body.action == st.kind;
    assert ClientReducer.Matches(c, st.side, st.kind);
    var c1 := ApplyEvent(c, room, e);
    assert c1 == ClientReducer.ConfirmStep(c);
    if s.currentStepId + 1 < |s.steps| {
      ServerReducer.ConfirmAdvances(s, a.action, a.now);
    } else {
      ServerReducer.ConfirmFinishes(s, a.action, a.now);
    }
  }

  /** Over a whole run, replaying what the run appended keeps the observer in step with the server. */
  lemma {:induction false} ReplayTracksRun(s: DraftState, c: DraftState, actions: seq<ServerReducer.Timed>, room: Option<string>)
    requires ServerReducer.Wellformed(s) && Tracks(s, c) && HasRoom(room)
    requires StepChangesLogged(s, actions)
    ensures |s.events| <= |ServerReducer.Run(s, actions).events|
    ensures var fin := ServerReducer.Run(s, actions);
      Tracks(fin, ReplayAll(c, room, fin.events[|s.events|..]))
    decreases |actions|
  {
    ServerReducer.RunAppendsOnly(s, actions);
    var fin := ServerReducer.Run(s, actions);
    if actions == [] {
      assert fin.events[|s.events|..] == [];
    } else {
      var a := actions[0];
      var s1 := ServerReducer.Reduce(s, a.action, a.now).state;
      var c1 := ReplayAll(c, room, s1.events[|s.events|..]);
      ReplayStep(s, c, a, room);
      ServerReducer.ReducePreservesWellformed(s, a.action, a.now);
      ReplayTracksRun(s1, c1, actions[1..], room);
      ServerReducer.RunAppendsOnly(s1, actions[1..]);
      assert fin == ServerReducer.Run(s1, actions[1..]);
      assert fin.events[|s.events|..] == s1.events[|s.events|..] + fin.events[|s1.events|..];
      ReplayAllAppend(c, room, s1.events[|s.events|..], fin.events[|s1.events|..]);
    }
  }

  /**
   * The fast replay's purpose: for a room run from creation in which every
   * step change was logged, a spectator context holding the masked final
   * state and the final log, with a room id, replays (as `FastScheduler.Start`
   * does) to the final steps: every champion and pending flag, the pointer,
   * and the finished flag with countdown 0 once the draft is over.
   */
  lemma FastReplayRebuildsDraft(o: InitOptions, actions: seq<ServerReducer.Timed>, ctx: Ctx)
    requires StepChangesLogged(CreateInitialDraftState(o), actions)
    requires var fin := ServerReducer.Run(CreateInitialDraftState(o), actions);
      ctx.store == MaskedFromCurrent(fin) && ctx.events == fin.events && HasRoom(ctx.roomId)
    ensures var fin := ServerReducer.Run(CreateInitialDraftState(o), actions);
      var rep := ReplayAll(EnsureSpecReplayReady(ctx).store, ctx.roomId, ctx.events);
      && rep.steps == fin.steps
      && rep.currentStepId == fin.currentStepId + (if fin.isFinished then 1 else 0)
      && (fin.isFinished ==> rep.isFinished && rep.countdown == 0)
  {
    var s0 := CreateInitialDraftState(o);
    var fin := ServerReducer.Run(s0, actions);
    ServerReducer.InitialWellformed(o);
    ReplayTracksRun(s0, EnsureSpecReplayReady(ctx).store, actions, ctx.roomId);
    assert fin.events[|s0.events|..] == fin.events;
  }

  /**
   * Without the proviso replay is lossy: a blue ban chosen before both teams
   * are ready changes the server's step 0 but is not logged, so the replay
   * of the (empty) log shows no champion there.
   */
  lemma UnloggedSelectIsLost(o: InitOptions, ctx: Ctx)
    requires var fin := ServerReducer.Run(CreateInitialDraftState(o), [ServerReducer.Timed(ServerReducer.Select(Blue, Ban, Some(7)), 0)]);
      ctx.store == MaskedFromCurrent(fin) && ctx.events == fin.events
    ensures var fin := ServerReducer.Run(CreateInitialDraftState(o), [ServerReducer.Timed(ServerReducer.Select(Blue, Ban, Some(7)), 0)]);
      && fin.steps[0].championId == Some(7)
      && fin.events == []
      && ReplayAll(EnsureSpecReplayReady(ctx).store, ctx.roomId, ctx.events).steps[0].championId == None
  {
    var s0 := CreateInitialDraftState(o);
    var a := [ServerReducer.Timed(ServerReducer.Select(Blue, Ban, Some(7)), 0)];
    assert ServerReducer.Run(s0, a) == ServerReducer.Run(ServerReducer.Reduce(s0, a[0].action, 0).state, []);
  }
}

=== FILE: room_runtime.dfy ===
/**
 * The per-room runtime of the server (`EventsService`): the table of rooms,
 * each with its state, countdown interval, deadline and started flag; the
 * interpreter of the reducer's effect tags; the one-second tick that turns
 * an expired deadline into an auto-confirm; and the idle-room sweep.
 *
 * The clock is the parameter `now`; an interval is a handle number, and the
 * set `live` holds the handles of intervals that have been set and not yet
 * cleared. What the database and the sockets would receive is appended to
 * `outbox`; whether the database write succeeds is the parameter
 * `persistOk`.
 */
module RoomRuntime {
  import opened Wrappers
  import opened Draft
  import ServerReducer

  /** `DEFAULT_DEADLINE_SECONDS * 1000`: a turn lasts 30 s. */
  const TurnMs := 30000
  /** A room whose deadline passed more than 5 minutes ago is abandoned. */
  const IdleLimitMs := 300000

  /** `RoomRuntime`. */
  datatype Room = Room(state: Option<DraftState>, timer: Option<nat>, deadlineMs: int, started: bool)

  /** A message to the room's sockets: `SERVER/STATE`, `SERVER/TICK`, or the state written to the database (which broadcasts `SERVER/STATE` itself). */
  datatype Outbound =
    | StateMessage(roomId: string, state: Option<DraftState>)
    | TickMessage(roomId: string, state: Option<DraftState>)
    | Persisted(roomId: string, written: DraftState)

  /** The service's fields plus the bookkeeping of intervals and outgoing messages. */
  datatype Runtime = Runtime(
    rooms: map<string, Room>,
    live: set<nat>,
    nextHandle: nat,
    sweepArmed: bool,
    outbox: seq<Outbound>)

  /** The runtime of a room nobody has touched yet. */
  const EmptyRoom := Room(None, None, 0, false)

  /** `Math.ceil(x / 1000)` on whole milliseconds. */
  function CeilDiv1000(x: int): (r: int)
    ensures (r - 1) * 1000 < x <= r * 1000
  {
    (x + 999) / 1000
  }

  // ----- the interval bookkeeping invariant -----

  /** The handles of the intervals the rooms hold. */
  function Timers(rooms: map<string, Room>): set<nat> {
    set id | id in rooms && rooms[id].timer.Some? :: rooms[id].timer.value
  }

  /** No two rooms hold the same interval. */
  predicate Injective(rooms: map<string, Room>) {
    forall a, b | a in rooms && b in rooms && a != b && rooms[a].timer.Some? :: rooms[a].timer != rooms[b].timer
  }

  /**
   * No interval is leaked or shared: the intervals still set are exactly
   * the ones the rooms hold, each room its own, all issued before
   * `nextHandle`.
   */
  predicate TimersTracked(rt: Runtime) {
    && rt.live == Timers(rt.rooms)
    && Injective(rt.rooms)
    && (forall id | id in rt.rooms && rt.rooms[id].timer.Some? :: rt.rooms[id].timer.value < rt.nextHandle)
  }

  function TimerOf(room: Room): set<nat> {
    if room.timer.Some? then {room.timer.value} else {}
  }

  /** A room's interval is among the held ones. */
  lemma InTimers(rooms: map<string, Room>, k: string)
    requires k in rooms && rooms[k].timer.Some?
    ensures rooms[k].timer.value in Timers(rooms)
  {
  }

  /** Replacing one room changes the held intervals by that room's old and new interval only. */
  lemma TimersUpdate(rooms: map<string, Room>, id: string, room: Room)
    requires id in rooms && Injective(rooms)
    ensures Timers(rooms[id := room]) == (Timers(rooms) - TimerOf(rooms[id])) + TimerOf(room)
  {
    var m := rooms[id := room];
    var lhs := Timers(m);
    var rhs := (Timers(rooms) - TimerOf(rooms[id])) + TimerOf(room);
    forall h | h in lhs ensures h in rhs {
      var k :| k in m && m[k].timer.Some? && m[k].timer.value == h;
      if k != id {
        InTimers(rooms, k);
      }
    }
    forall h | h in rhs ensures h in lhs {
      if h in TimerOf(room) {
        InTimers(m, id);
      } else {
        var k :| k in rooms && rooms[k].timer.Some? && rooms[k].timer.value == h;
        assert k != id;
        InTimers(m, k);
      }
    }
  }

  /** Changing a room without touching its interval keeps the bookkeeping. */
  lemma SameTimerKeepsTracking(rt: Runtime, id: string, room: Room)
    requires id in rt.rooms && room.timer == rt.rooms[id].timer
    ensures TimersTracked(rt) ==> TimersTracked(rt.(rooms := rt.rooms[id := room]))
  {
    if TimersTracked(rt) {
      TimersUpdate(rt.rooms, id, room);
    }
  }

  /** The rooms hold no interval at all when there is no room. */
  lemma TimersEmpty()
    ensures TimersTracked(Runtime(map[], {}, 0, false, []))
  {
  }

  // ----- room table -----

  /**
   * `getRoom`: an unknown id gets a fresh empty runtime, a known one is left
   * as it is, no other room is touched, and the sweep interval is armed.
   */
  function GetRoom(rt: Runtime, id: string): (r: Runtime)
    ensures id in r.rooms && r.sweepArmed
    ensures id !in rt.rooms ==> r.rooms[id] == EmptyRoom
    ensures forall k | k in rt.rooms :: k in r.rooms && r.rooms[k] == rt.rooms[k]
    ensures r.rooms.Keys == rt.rooms.Keys + {id}
    ensures r.live == rt.live && r.nextHandle == rt.nextHandle && r.outbox == rt.outbox
    ensures TimersTracked(rt) ==> TimersTracked(r)
  {
    if id in rt.rooms then rt.(sweepArmed := true)
    else
      var r := rt.(rooms := rt.rooms[id := EmptyRoom], sweepArmed := true);
      assert Timers(r.rooms) == Timers(rt.rooms) by {
        forall h | h in Timers(r.rooms) ensures h in Timers(rt.rooms) {
          var k :| k in r.rooms && r.rooms[k].timer.Some? && r.rooms[k].timer.value == h;
          assert k != id;
          InTimers(rt.rooms, k);
        }
        forall h | h in Timers(rt.rooms) ensures h in Timers(r.rooms) {
          var k :| k in rt.rooms && rt.rooms[k].timer.Some? && rt.rooms[k].timer.value == h;
          InTimers(r.rooms, k);
        }
      }
      r
  }

  /** `updateRoomProperties`: replaces a known room's entry; an empty id or an unknown room is ignored. */
  function SetRoom(rt: Runtime, id: string, room: Room): (r: Runtime)
    ensures id != "" && id in rt.rooms ==> r == rt.(rooms := rt.rooms[id := room])
    ensures id == "" || id !in rt.rooms ==> r == rt
  {
    if id == "" || id !in rt.rooms then rt else rt.(rooms := rt.rooms[id := room])
  }

  // ----- timer start and reset -----

  /** `resetTimer`: clear the room's interval if it has one, and zero its deadline and started flag. */
  function ResetTimer(rt: Runtime, id: string): (r: Runtime)
    requires id in rt.rooms
    ensures id != "" ==>
              (&& r.rooms == rt.rooms[id := rt.rooms[id].(timer := None, deadlineMs := 0, started := false)]
               && r.live == rt.live - TimerOf(rt.rooms[id]))
    ensures r.nextHandle == rt.nextHandle && r.outbox == rt.outbox && r.rooms.Keys == rt.rooms.Keys
    ensures TimersTracked(rt) && id != "" ==> TimersTracked(r)
  {
    var room := rt.rooms[id];
    var rt1 := rt.(live := rt.live - TimerOf(room));
    var r := SetRoom(rt1, id, room.(timer := None, deadlineMs := 0, started := false));
    if id != "" && Injective(rt.rooms) then
      TimersUpdate(rt.rooms, id, room.(timer := None, deadlineMs := 0, started := false));
      r
    else r
  }

  /**
   * `startTimer`: unless both teams of the room's state are ready nothing
   * happens; otherwise any running interval is cleared, the deadline is 30 s
   * from now, the room counts as started, and a new interval, distinct from
   * every one already set, drives it.
   */
  function StartTimer(rt: Runtime, id: string, now: int): (r: Runtime)
    requires id in rt.rooms
    ensures !(rt.rooms[id].state.Some? && BothTeamsReady(rt.rooms[id].state.value)) ==> r == rt
    ensures rt.rooms[id].state.Some? && BothTeamsReady(rt.rooms[id].state.value) && id != "" ==>
              && r.rooms.Keys == rt.rooms.Keys
              && r.rooms[id].deadlineMs == now + TurnMs && r.rooms[id].started
              && r.rooms[id].timer.Some?
              && (TimersTracked(rt) ==> r.rooms[id].timer.value !in rt.live)
              && r.rooms[id].state == rt.rooms[id].state
              && (forall k | k in rt.rooms && k != id :: r.rooms[k] == rt.rooms[k])
              && r.live == (rt.live - TimerOf(rt.rooms[id])) + {r.rooms[id].timer.value}
    ensures r.outbox == rt.outbox && r.rooms.Keys == rt.rooms.Keys
    ensures TimersTracked(rt) && id != "" ==> TimersTracked(r)
  {
    var room := rt.rooms[id];
    if !(room.state.Some? && BothTeamsReady(room.state.value)) then rt
    else
      var rt1 := if room.timer.Some? then ResetTimer(rt, id) else rt;
      var rt2 := SetRoom(rt1, id, rt1.rooms[id].(deadlineMs := now + TurnMs, started := true));
      var h := rt2.nextHandle;
      var rt3 := rt2.(live := rt2.live + {h}, nextHandle := h + 1);
      var r := SetRoom(rt3, id, rt3.rooms[id].(timer := Some(h)));
      StartTimerTracked(rt, id, now, rt1, rt2, rt3, r);
      r
  }

  /** The steps of `StartTimer` keep the interval bookkeeping, and the new handle was never issued before. */
  lemma StartTimerTracked(rt: Runtime, id: string, now: int, rt1: Runtime, rt2: Runtime, rt3: Runtime, r: Runtime)
    requires id in rt.rooms
    requires rt1 == (if rt.rooms[id].timer.Some? then ResetTimer(rt, id) else rt)
    requires rt2 == SetRoom(rt1, id, rt1.rooms[id].(deadlineMs := now + TurnMs, started := true))
    requires rt3 == rt2.(live := rt2.live + {rt2.nextHandle}, nextHandle := rt2.nextHandle + 1)
    requires r == SetRoom(rt3, id, rt3.rooms[id].(timer := Some(rt2.nextHandle)))
    ensures TimersTracked(rt) && id != "" ==> TimersTracked(r) && rt2.nextHandle !in rt.live
  {
    if TimersTracked(rt) && id != "" {
      assert TimersTracked(rt1);
      TimersUpdate(rt1.rooms, id, rt1.rooms[id].(deadlineMs := now + TurnMs, started := true));
      assert TimerOf(rt1.rooms[id]) == {};
      assert TimersTracked(rt2);
      TimersUpdate(rt2.rooms, id, rt3.rooms[id].(timer := Some(rt2.nextHandle)));
      assert rt2.nextHandle !in rt2.live;
    }
  }

  // ----- effects -----

  /**
   * One entry of the effect handler table, for the room's state `st`: a
   * database write broadcasts the state only when it succeeds (a failure is
   * swallowed), `emit-state` is skipped when the batch also persists,
   * `emit-tick` broadcasts a tick, the timer effects start or reset the
   * interval, and `log-event` does nothing. No room's state changes and
   * messages are only appended.
   */
  function RunEffect(rt: Runtime, id: string, st: DraftState, effect: ServerReducer.ReducerEffect,
                     hasPersist: bool, persistOk: bool, now: int): (r: Runtime)
    requires id in rt.rooms
    ensures r.rooms.Keys == rt.rooms.Keys
    ensures forall k | k in r.rooms :: r.rooms[k].state == rt.rooms[k].state
    ensures forall k | k in r.rooms && k != id :: r.rooms[k] == rt.rooms[k]
    ensures |rt.outbox| <= |r.outbox| && r.outbox[..|rt.outbox|] == rt.outbox
    ensures effect.Persist? ==> r.outbox == rt.outbox + (if persistOk then [Persisted(id, st)] else [])
    ensures effect.EmitState? ==> r.outbox == rt.outbox + (if hasPersist then [] else [StateMessage(id, Some(st))])
    ensures effect.EmitTick? ==> r == rt.(outbox := rt.outbox + [TickMessage(id, Some(st))])
    ensures effect.StartTimer? ==> r == StartTimer(rt, id, now)
    ensures effect.StopTimer? ==> r == ResetTimer(rt, id)
    ensures effect.LogEvent? ==> r == rt
    ensures TimersTracked(rt) && id != "" ==> TimersTracked(r)
  {
    match effect
    case Persist => if persistOk then rt.(outbox := rt.outbox + [Persisted(id, st)]) else rt
    case EmitState => if hasPersist then rt else rt.(outbox := rt.outbox + [StateMessage(id, Some(st))])
    case EmitTick => rt.(outbox := rt.outbox + [TickMessage(id, Some(st))])
    case StartTimer => StartTimer(rt, id, now)
    case StopTimer => ResetTimer(rt, id)
    case LogEvent(_) => rt
  }

  /** The handler table run over one batch in list order; what one entry keeps, the batch keeps. */
  function RunEffects(rt: Runtime, id: string, st: DraftState, effects: seq<ServerReducer.ReducerEffect>,
                      hasPersist: bool, persistOk: bool, now: int): (r: Runtime)
    requires id in rt.rooms
    ensures r.rooms.Keys == rt.rooms.Keys
    ensures forall k | k in r.rooms :: r.rooms[k].state == rt.rooms[k].state
    ensures forall k | k in r.rooms && k != id :: r.rooms[k] == rt.rooms[k]
    ensures |rt.outbox| <= |r.outbox| && r.outbox[..|rt.outbox|] == rt.outbox
    ensures TimersTracked(rt) && id != "" ==> TimersTracked(r)
    decreases |effects|
  {
    if effects == [] then rt
    else
      var rt1 := RunEffect(rt, id, st, effects[0], hasPersist, persistOk, now);
      var r := RunEffects(rt1, id, st, effects[1..], hasPersist, persistOk, now);
      assert r.outbox[..|rt.outbox|] == r.outbox[..|rt1.outbox|][..|rt.outbox|];
      r
  }

  /** `applyEffects`: nothing at all when the room has no state; otherwise the batch, knowing whether it persists. */
  function ApplyEffects(rt: Runtime, id: string, effects: seq<ServerReducer.ReducerEffect>, persistOk: bool, now: int): (r: Runtime)
    requires id in rt.rooms
    ensures rt.rooms[id].state.None? ==> r == rt
    ensures r.rooms.Keys == rt.rooms.Keys
    ensures forall k | k in r.rooms :: r.rooms[k].state == rt.rooms[k].state
    ensures TimersTracked(rt) && id != "" ==> TimersTracked(r)
  {
    match rt.rooms[id].state
    case None => rt
    case Some(st) => RunEffects(rt, id, st, effects, ServerReducer.Persist in effects, persistOk, now)
  }

  /** What the broadcast of one `[persist, emit-state]` batch amounts to: one message on a successful write, none on a failed one. */
  lemma PersistSuppressesEmit(rt: Runtime, id: string, st: DraftState, now: int)
    requires id in rt.rooms && rt.rooms[id].state == Some(st)
    ensures ApplyEffects(rt, id, [ServerReducer.Persist, ServerReducer.EmitState], true, now).outbox == rt.outbox + [Persisted(id, st)]
    ensures ApplyEffects(rt, id, [ServerReducer.Persist, ServerReducer.EmitState], false, now).outbox == rt.outbox
  {
    var p := ServerReducer.Persist;
    var e := ServerReducer.EmitState;
    assert p in [p, e];
    RunTwo(rt, id, st, p, e, true, true, now);
    RunTwo(rt, id, st, p, e, true, false, now);
  }

  /** Without a persist in the batch the state is broadcast directly; a log entry does nothing at all. */
  lemma EmitWithoutPersist(rt: Runtime, id: string, st: DraftState, now: int)
    requires id in rt.rooms && rt.rooms[id].state == Some(st)
    ensures ApplyEffects(rt, id, [ServerReducer.EmitState], true, now).outbox == rt.outbox + [StateMessage(id, Some(st))]
    ensures ApplyEffects(rt, id, [ServerReducer.LogEvent("x")], true, now) == rt
  {
    var p := ServerReducer.Persist;
    assert p !in [ServerReducer.EmitState] && p !in [ServerReducer.LogEvent("x")];
    RunOne(rt, id, st, ServerReducer.EmitState, false, true, now);
    RunOne(rt, id, st, ServerReducer.LogEvent("x"), false, true, now);
  }

  /** A batch of one effect is that effect. */
  lemma RunOne(rt: Runtime, id: string, st: DraftState, e: ServerReducer.ReducerEffect, hasPersist: bool, persistOk: bool, now: int)
    requires id in rt.rooms
    ensures RunEffects(rt, id, st, [e], hasPersist, persistOk, now) == RunEffect(rt, id, st, e, hasPersist, persistOk, now)
  {
    var r1 := RunEffect(rt, id, st, e, hasPersist, persistOk, now);
    assert [e][1..] == [];
    assert RunEffects(r1, id, st, [], hasPersist, persistOk, now) == r1;
  }

  /** A batch of two effects is the first followed by the second. */
  lemma RunTwo(rt: Runtime, id: string, st: DraftState, e1: ServerReducer.ReducerEffect, e2: ServerReducer.ReducerEffect,
               hasPersist: bool, persistOk: bool, now: int)
    requires id in rt.rooms
    ensures RunEffects(rt, id, st, [e1, e2], hasPersist, persistOk, now)
         == RunEffect(RunEffect(rt, id, st, e1, hasPersist, persistOk, now), id, st, e2, hasPersist, persistOk, now)
  {
    var r1 := RunEffect(rt, id, st, e1, hasPersist, persistOk, now);
    assert [e1, e2][1..] == [e2];
    RunOne(r1, id, st, e2, hasPersist, persistOk, now);
  }

  // ----- handlers -----

  /** Reduce the room's state with `action`, store the result, then run its effects. */
  function Dispatch(rt: Runtime, id: string, action: ServerReducer.DomainAction, persistOk: bool, now: int): (r: Runtime)
    requires id in rt.rooms && rt.rooms[id].state.Some?
    ensures r.rooms.Keys == rt.rooms.Keys
    ensures r.rooms[id].state == Some(ServerReducer.Reduce(rt.rooms[id].state.value, action, now).state)
    ensures TimersTracked(rt) && id != "" ==> TimersTracked(r)
  {
    var res := ServerReducer.Reduce(rt.rooms[id].state.value, action, now);
    var rt1 := rt.(rooms := rt.rooms[id := rt.rooms[id].(state := Some(res.state))]);
    SameTimerKeepsTracking(rt, id, rt.rooms[id].(state := Some(res.state)));
    ApplyEffects(rt1, id, res.effects, persistOk, now)
  }

  /** `handleJoin`: broadcast the room's state, null for a room without one. */
  function HandleJoin(rt: Runtime, id: string): (r: Runtime)
    ensures id in r.rooms
    ensures r.outbox == rt.outbox + [StateMessage(id, r.rooms[id].state)]
    ensures id in rt.rooms ==> r.rooms == rt.rooms
    ensures TimersTracked(rt) ==> TimersTracked(r)
  {
    var rt1 := GetRoom(rt, id);
    rt1.(outbox := rt1.outbox + [StateMessage(id, rt1.rooms[id].state)])
  }

  /** `handleReady`: ignored without a side or without a room state. */
  function HandleReady(rt: Runtime, id: string, side: Option<Side>, persistOk: bool, now: int): (r: Runtime)
    requires id in rt.rooms
    ensures r.rooms.Keys == rt.rooms.Keys
    ensures side.None? || rt.rooms[id].state.None? ==> r == rt
    ensures side.Some? && rt.rooms[id].state.Some? ==>
              r.rooms[id].state == Some(ServerReducer.Reduce(rt.rooms[id].state.value, ServerReducer.Ready(side.value), now).state)
    ensures TimersTracked(rt) && id != "" ==> TimersTracked(r)
  {
    if side.None? || rt.rooms[id].state.None? then rt
    else Dispatch(rt, id, ServerReducer.Ready(side.value), persistOk, now)
  }

  /** `handleSelect`: ignored without a side, without an action or without a room state; a missing champion id is null. */
  function HandleSelect(rt: Runtime, id: string, side: Option<Side>, action: Option<DraftType>, championId: Option<int>,
                        persistOk: bool, now: int): (r: Runtime)
    requires id in rt.rooms
    ensures r.rooms.Keys == rt.rooms.Keys
    ensures side.None? || action.None? || rt.rooms[id].state.None? ==> r == rt
    ensures side.Some? && action.Some? && rt.rooms[id].state.Some? ==>
              r.rooms[id].state == Some(ServerReducer.Reduce(rt.rooms[id].state.value,
                                          ServerReducer.Select(side.value, action.value, championId), now).state)
    ensures TimersTracked(rt) && id != "" ==> TimersTracked(r)
  {
    if side.None? || action.None? || rt.rooms[id].state.None? then rt
    else Dispatch(rt, id, ServerReducer.Select(side.value, action.value, championId), persistOk, now)
  }

  /** `handleConfirm`: ignored without a room state, a side or an action. */
  function HandleConfirm(rt: Runtime, id: string, side: Option<Side>, action: Option<DraftType>, persistOk: bool, now: int): (r: Runtime)
    requires id in rt.rooms
    ensures r.rooms.Keys == rt.rooms.Keys
    ensures side.None? || action.None? || rt.rooms[id].state.None? ==> r == rt
    ensures side.Some? && action.Some? && rt.rooms[id].state.Some? ==>
              r.rooms[id].state == Some(ServerReducer.Reduce(rt.rooms[id].state.value,
                                          ServerReducer.Confirm(side.value, action.value), now).state)
    ensures TimersTracked(rt) && id != "" ==> TimersTracked(r)
  {
    if rt.rooms[id].state.None? || side.None? || action.None? then rt
    else Dispatch(rt, id, ServerReducer.Confirm(side.value, action.value), persistOk, now)
  }

  /** `handleSetTeamName`: ignored without a side, when the name is not a string (`None`), or without a room state. */
  function HandleSetTeamName(rt: Runtime, id: string, side: Option<Side>, name: Option<string>, persistOk: bool, now: int): (r: Runtime)
    requires id in rt.rooms
    ensures r.rooms.Keys == rt.rooms.Keys
    ensures side.None? || name.None? || rt.rooms[id].state.None? ==> r == rt
    ensures side.Some? && name.Some? && rt.rooms[id].state.Some? ==>
              r.rooms[id].state == Some(ServerReducer.Reduce(rt.rooms[id].state.value,
                                          ServerReducer.SetTeamName(side.value, name.value), now).state)
    ensures TimersTracked(rt) && id != "" ==> TimersTracked(r)
  {
    if side.None? || name.None? || rt.rooms[id].state.None? then rt
    else Dispatch(rt, id, ServerReducer.SetTeamName(side.value, name.value), persistOk, now)
  }

  // ----- the tick -----

  /** The countdown a tick reports: whole seconds left until the deadline, rounded up, never negative. */
  function TickCountdown(deadlineMs: int, now: int): (cd: int)
    ensures cd >= 0
    ensures cd == 0 <==> deadlineMs <= now
    ensures cd > 0 ==> (cd - 1) * 1000 < deadlineMs - now <= cd * 1000
    ensures deadlineMs - now <= TurnMs ==> cd <= 30
  {
    Max0(CeilDiv1000(deadlineMs - now))
  }

  /**
   * `tick`, as the interval calls it (on the room `getRoom` returns): nothing
   * without an interval or a state; otherwise the state takes the countdown
   * and broadcasts it, and once the countdown is out the step is
   * auto-confirmed and that batch of effects runs too.
   */
  function Tick(rt: Runtime, id: string, persistOk: bool, now: int): (r: Runtime)
    ensures id in r.rooms
    ensures var room := GetRoom(rt, id).rooms[id];
      && (room.timer.None? || room.state.None? ==> r == GetRoom(rt, id))
      && (room.timer.Some? && room.state.Some? ==>
            var cd := TickCountdown(room.deadlineMs, now);
            var s1 := ServerReducer.Reduce(room.state.value, ServerReducer.Tick(cd), now).state;
            r.rooms[id].state == Some(if cd <= 0 then ServerReducer.Reduce(s1, ServerReducer.AutoConfirm, now).state else s1))
    ensures TimersTracked(rt) && id != "" ==> TimersTracked(r)
  {
    var rt0 := GetRoom(rt, id);
    var room := rt0.rooms[id];
    if room.timer.None? || room.state.None? then rt0
    else
      var cd := TickCountdown(room.deadlineMs, now);
      var res := ServerReducer.Reduce(room.state.value, ServerReducer.Tick(cd), now);
      var rt1 := rt0.(rooms := rt0.rooms[id := room.(state := Some(res.state))]);
      SameTimerKeepsTracking(rt0, id, room.(state := Some(res.state)));
      var rt2 := ApplyEffects(rt1, id, res.effects, persistOk, now);
      if cd <= 0 then
        Dispatch(rt2, id, ServerReducer.AutoConfirm, persistOk, now)
      else rt2
  }

  /** A tick never reports more than 30 s and only ever times out a step once the deadline has passed. */
  lemma TickAutoConfirmsOnlyAtDeadline(rt: Runtime, id: string, persistOk: bool, now: int)
    requires id in rt.rooms && rt.rooms[id].timer.Some? && rt.rooms[id].state.Some?
    requires now < rt.rooms[id].deadlineMs
    ensures var s := rt.rooms[id].state.value;
      Tick(rt, id, persistOk, now).rooms[id].state ==
        Some(s.(countdown := TickCountdown(rt.rooms[id].deadlineMs, now)))
  {
  }

  // ----- idle sweep -----

  /** A room the sweep removes: never started and stateless, or with a deadline more than 5 minutes past. */
  predicate Idle(room: Room, now: int) {
    (!room.started && room.state.None?) || (room.deadlineMs != 0 && now - room.deadlineMs > IdleLimitMs)
  }

  /**
   * `sweepIdleRooms`: exactly the idle rooms are removed, each with its
   * interval cleared; every other room is kept as it was.
   */
  function SweepIdleRooms(rt: Runtime, now: int): (r: Runtime)
    ensures forall id :: id in r.rooms <==> id in rt.rooms && !Idle(rt.rooms[id], now)
    ensures forall id | id in r.rooms :: r.rooms[id] == rt.rooms[id]
    ensures forall id | id in rt.rooms && Idle(rt.rooms[id], now) && rt.rooms[id].timer.Some? :: rt.rooms[id].timer.value !in r.live
    ensures r.live <= rt.live && r.nextHandle == rt.nextHandle && r.outbox == rt.outbox
    ensures TimersTracked(rt) ==> TimersTracked(r)
  {
    var cleared := set id | id in rt.rooms && Idle(rt.rooms[id], now) && rt.rooms[id].timer.Some? :: rt.rooms[id].timer.value;
    var kept := map id | id in rt.rooms && !Idle(rt.rooms[id], now) :: rt.rooms[id];
    var r := rt.(rooms := kept, live := rt.live - cleared);
    SweepTracked(rt, now, cleared, r);
    r
  }

  lemma SweepTracked(rt: Runtime, now: int, cleared: set<nat>, r: Runtime)
    requires cleared == set id | id in rt.rooms && Idle(rt.rooms[id], now) && rt.rooms[id].timer.Some? :: rt.rooms[id].timer.value
    requires r == rt.(rooms := map id | id in rt.rooms && !Idle(rt.rooms[id], now) :: rt.rooms[id], live := rt.live - cleared)
    ensures TimersTracked(rt) ==> TimersTracked(r)
  {
    if TimersTracked(rt) {
      forall h | h in r.live ensures h in Timers(r.rooms) {
        var k :| k in rt.rooms && rt.rooms[k].timer.Some? && rt.rooms[k].timer.value == h;
        assert Idle(rt.rooms[k], now) ==> h in cleared;
        InTimers(r.rooms, k);
      }
      forall h | h in Timers(r.rooms) ensures h in r.live {
        var k :| k in r.rooms && r.rooms[k].timer.Some? && r.rooms[k].timer.value == h;
        InTimers(rt.rooms, k);
        forall j | j in rt.rooms && Idle(rt.rooms[j], now) && rt.rooms[j].timer.Some?
          ensures rt.rooms[j].timer.value != h
        {
          assert j != k;
        }
      }
    }
  }
}

=== FILE: server_reducer.dfy ===
/**
 * The authoritative transition function of a room (`reduce`): a pure map
 * from a state and a domain action to the next state and an ordered list of
 * effect tags for the runtime to execute. `now` is the clock reading used to
 * stamp appended events.
 */
module ServerReducer {
  import opened Wrappers
  import opened Text
  import opened Draft

  /** The actions the reducer accepts (`DomainAction`). */
  datatype DomainAction =
    | Join
    | Ready(side: Side)
    | Select(side: Side, action: DraftType, championId: Option<int>)
    | Confirm(side: Side, action: DraftType)
    | SetTeamName(side: Side, name: string)
    | Tick(countdown: int)
    | AutoConfirm

  /** The effect tags (`ReducerEffect`); `LogEvent` is declared by the source but never produced. */
  datatype ReducerEffect = Persist | EmitState | EmitTick | StartTimer | StopTimer | LogEvent(eventType: string)

  datatype ReducerResult = ReducerResult(state: DraftState, effects: seq<ReducerEffect>)

  /** Which event a step resolution logs: a participant's `CLIENT/CONFIRM` or the server's timeout `CONFIRM`. */
  datatype ConfirmLog = ClientConfirmLog | TimeoutLog

  /** The current step is the last one (`isLastStep`). */
  predicate IsLastStep(s: DraftState) {
    s.currentStepId + 1 >= |s.steps|
  }

  /** A state returned untouched, with no effects. */
  function NoOp(s: DraftState): ReducerResult {
    ReducerResult(s, [])
  }

  /** `pushEvent` with `seq: ++eventSeq`: appends one event numbered after the room's counter and bumps the counter. */
  function PushEvent(s: DraftState, source: EventSource, body: EventBody, countdownAt: int, now: int): (r: DraftState)
    ensures r.events == s.events + [DraftEvent(s.eventSeq + 1, Some(now), source, body, countdownAt)]
    ensures r.eventSeq == s.eventSeq + 1
    ensures r.(events := s.events, eventSeq := s.eventSeq) == s
  {
    s.(events := s.events + [DraftEvent(s.eventSeq + 1, Some(now), source, body, countdownAt)],
       eventSeq := s.eventSeq + 1)
  }

  /** The step layout (id, kind, side, place of every step) is the same in both sequences. */
  predicate SameLayout(a: seq<Step>, b: seq<Step>) {
    |a| == |b| &&
    forall i | 0 <= i < |a| ::
      a[i].(pending := false, championId := None) == b[i].(pending := false, championId := None)
  }

  /**
   * One reduction's bookkeeping: at most one entry appended to the log,
   * numbered after the room counter and stamped `now`, the counter bumped
   * by the number appended, and the layout, room id and side untouched.
   */
  predicate LogStep(s: DraftState, r: DraftState, now: int) {
    && |s.events| <= |r.events| <= |s.events| + 1
    && r.events[..|s.events|] == s.events
    && r.eventSeq == s.eventSeq + (|r.events| - |s.events|)
    && (|r.events| > |s.events| ==>
          r.events[|s.events|].seqNum == s.eventSeq + 1 && r.events[|s.events|].at == Some(now))
    && SameLayout(s.steps, r.steps)
    && r.roomId == s.roomId && r.currentSide == s.currentSide
  }

  /** `handleReady`: the second ready is the one that starts the clock, so only it is logged. */
  function HandleReady(next: DraftState, side: Side, now: int): (r: ReducerResult)
    ensures LogStep(next, r.state, now)
  {
    if next.isFinished || next.teams.Get(side).ready then NoOp(next)
    else
      var s1 := next.(teams := next.teams.With(side, next.teams.Get(side).(ready := true)));
      if BothTeamsReady(s1) then
        ReducerResult(PushEvent(s1, ClientSource, ClientReady(side), s1.countdown, now), [Persist, EmitState, StartTimer])
      else
        ReducerResult(s1, [Persist, EmitState])
  }

  /** `handleSelect`: records the choice on the current step when side and type match; logs it only once both teams are ready. */
  function HandleSelect(next: DraftState, side: Side, action: DraftType, championId: Option<int>, now: int): (r: ReducerResult)
    ensures LogStep(next, r.state, now)
  {
    if next.isFinished then NoOp(next)
    else
      match CurrentStep(next)
      case None => NoOp(next)
      case Some(step) =>
        if step.side != side || step.kind != action then NoOp(next)
        else
          var s1 := next.(steps := next.steps[next.currentStepId := step.(championId := championId)]);
          var s2 := if BothTeamsReady(s1) then PushEvent(s1, ClientSource, ClientSelect(side, action, championId), s1.countdown, now) else s1;
          ReducerResult(s2, [Persist, EmitState])
  }

  /**
   * `closeOrAdvance`: resolves the current step whatever the caller's side
   * and type, then either moves the pending flag and pointer to the next
   * step with a fresh countdown, or finishes the draft. Always logged.
   */
  function CloseOrAdvance(next: DraftState, log: ConfirmLog, now: int): (r: ReducerResult)
    ensures LogStep(next, r.state, now)
  {
    if next.isFinished then NoOp(next)
    else
      match CurrentStep(next)
      case None => NoOp(next)
      case Some(step) =>
        var countdownBefore := next.countdown;
        var cur := next.currentStepId;
        var steps1 := next.steps[cur := step.(pending := false)];
        var last := IsLastStep(next);
        var s1 :=
          if !last then
            next.(steps := steps1[cur + 1 := steps1[cur + 1].(pending := true)],
                  currentStepId := cur + 1,
                  countdown := DefaultCountdown)
          else
            next.(steps := steps1, isFinished := true, countdown := 0);
        var s2 :=
          match log
          case ClientConfirmLog =>
            PushEvent(s1, ClientSource, ClientConfirm(step.side, step.kind, step.championId), countdownBefore, now)
          case TimeoutLog =>
            PushEvent(s1, ServerSource, ServerConfirm(step.side, step.kind, step.championId), 0, now);
        ReducerResult(s2, [Persist, EmitState, if last then StopTimer else StartTimer])
  }

  /** `handleSetTeamName`: stores the trimmed name; a blank or unchanged name changes nothing. */
  function HandleSetTeamName(next: DraftState, side: Side, name: string, now: int): (r: ReducerResult)
    ensures LogStep(next, r.state, now)
  {
    if next.isFinished then NoOp(next)
    else
      var oldName := next.teams.Get(side).name;
      var newName := if Trim(name) != "" then Trim(name) else oldName;
      if newName == oldName then NoOp(next)
      else
        var s1 := next.(teams := next.teams.With(side, next.teams.Get(side).(name := newName)));
        var s2 := if BothTeamsReady(s1) then PushEvent(s1, ClientSource, ClientSetTeamName(side, newName), s1.countdown, now) else s1;
        ReducerResult(s2, [Persist, EmitState])
  }

  /**
   * `reduce`. Every action keeps the log append-only with at most one new
   * entry, numbers a new entry after the room counter and bumps the counter
   * by exactly the number of entries added, and never alters the layout.
   */
  function Reduce(state: DraftState, action: DomainAction, now: int): (r: ReducerResult)
    ensures |state.events| <= |r.state.events| <= |state.events| + 1
    ensures r.state.events[..|state.events|] == state.events
    ensures r.state.eventSeq == state.eventSeq + (|r.state.events| - |state.events|)
    ensures |r.state.events| > |state.events| ==>
              r.state.events[|state.events|].seqNum == state.eventSeq + 1
              && r.state.events[|state.events|].at == Some(now)
    ensures SameLayout(state.steps, r.state.steps)
    ensures r.state.roomId == state.roomId && r.state.currentSide == state.currentSide
  {
    match action
    case Join => ReducerResult(state, [EmitState])
    case Ready(side) => HandleReady(state, side, now)
    case Select(side, act, championId) => HandleSelect(state, side, act, championId, now)
    case Confirm(_, _) => CloseOrAdvance(state, ClientConfirmLog, now)
    case SetTeamName(side, name) => HandleSetTeamName(state, side, name, now)
    case Tick(countdown) => ReducerResult(state.(countdown := if countdown > 0 then countdown else 0), [EmitTick])
    case AutoConfirm => CloseOrAdvance(state, TimeoutLog, now)
  }

  // ----- properties of single actions -----

  /** Once finished, every participant action and the timeout are ignored: same state, no effects. */
  lemma FinishedIsInert(s: DraftState, a: DomainAction, now: int)
    requires s.isFinished
    requires a.Ready? || a.Select? || a.Confirm? || a.SetTeamName? || a.AutoConfirm?
    ensures Reduce(s, a, now) == ReducerResult(s, [])
  {
  }

  /** A join only re-broadcasts; a tick only clamps and stores the supplied countdown and emits a tick. */
  lemma JoinAndTickAreLight(s: DraftState, c: int, now: int)
    ensures Reduce(s, Join, now) == ReducerResult(s, [EmitState])
    ensures Reduce(s, Tick(c), now).effects == [EmitTick]
    ensures Reduce(s, Tick(c), now).state.countdown == (if c > 0 then c else 0) >= 0
    ensures SameButCountdown(Reduce(s, Tick(c), now).state, s)
  {
  }

  /**
   * Ready: a repeat is ignored; the first side to ready only flips its flag
   * and persists; the second also logs one `CLIENT/READY` and starts the timer.
   */
  lemma ReadyProtocol(s: DraftState, side: Side, now: int)
    ensures var r := Reduce(s, Ready(side), now);
      && (s.teams.Get(side).ready ==> r == ReducerResult(s, []))
      && (!s.isFinished && !s.teams.Get(side).ready ==>
            && r.state.teams.Get(side).ready
            && r.state.teams.Get(side).name == s.teams.Get(side).name
            && (forall o: Side | o != side :: r.state.teams.Get(o) == s.teams.Get(o))
            && r.state.steps == s.steps && r.state.currentStepId == s.currentStepId
            && r.state.countdown == s.countdown && r.state.isFinished == s.isFinished
            && (if s.teams.Get(if side == Blue then Red else Blue).ready then
                  && r.effects == [Persist, EmitState, StartTimer]
                  && r.state.events == s.events + [DraftEvent(s.eventSeq + 1, Some(now), ClientSource, ClientReady(side), s.countdown)]
                else
                  && r.effects == [Persist, EmitState]
                  && r.state.events == s.events && r.state.eventSeq == s.eventSeq))
  {
  }

  /**
   * Select: a mismatch with the current step is ignored; a match changes
   * only that step's champion, is logged exactly when both teams are ready,
   * and persists either way.
   */
  lemma SelectProtocol(s: DraftState, side: Side, action: DraftType, championId: Option<int>, now: int)
    requires !s.isFinished
    ensures var r := Reduce(s, Select(side, action, championId), now);
      && ((CurrentStep(s).None? || CurrentStep(s).value.side != side || CurrentStep(s).value.kind != action)
            ==> r == ReducerResult(s, []))
      && (CurrentStep(s).Some? && CurrentStep(s).value.side == side && CurrentStep(s).value.kind == action ==>
            && r.effects == [Persist, EmitState]
            && r.state.steps == s.steps[s.currentStepId := s.steps[s.currentStepId].(championId := championId)]
            && r.state.currentStepId == s.currentStepId && r.state.countdown == s.countdown
            && r.state.teams == s.teams && r.state.isFinished == s.isFinished
            && (|r.state.events| == |s.events| + 1 <==> BothTeamsReady(s))
            && (BothTeamsReady(s) ==>
                  r.state.events[|s.events|] == DraftEvent(s.eventSeq + 1, Some(now), ClientSource, ClientSelect(side, action, championId), s.countdown)))
  {
  }

  /** A participant confirm is applied with no side or type check: its payload is ignored. */
  lemma ConfirmIgnoresPayload(s: DraftState, side1: Side, action1: DraftType, side2: Side, action2: DraftType, now: int)
    ensures Reduce(s, Confirm(side1, action1), now) == Reduce(s, Confirm(side2, action2), now)
  {
  }

  /** The action resolves the current step. */
  predicate IsResolution(a: DomainAction) {
    a.Confirm? || a.AutoConfirm?
  }

  /**
   * Confirm or timeout on a step that is not the last: the current step stops
   * pending, the next starts, the pointer moves by exactly one, the countdown
   * restarts at 30 and the timer is restarted. No other step changes.
   */
  lemma ConfirmAdvances(s: DraftState, a: DomainAction, now: int)
    requires IsResolution(a) && !s.isFinished
    requires 0 <= s.currentStepId && s.currentStepId + 1 < |s.steps|
    ensures var r := Reduce(s, a, now); var cur := s.currentStepId;
      && r.state.steps[cur] == s.steps[cur].(pending := false)
      && r.state.steps[cur + 1] == s.steps[cur + 1].(pending := true)
      && (forall i | 0 <= i < |s.steps| && i != cur && i != cur + 1 :: r.state.steps[i] == s.steps[i])
      && r.state.currentStepId == cur + 1
      && r.state.countdown == DefaultCountdown
      && !r.state.isFinished
      && r.effects == [Persist, EmitState, StartTimer]
  {
  }

  /**
   * Confirm or timeout on the last step: the draft finishes with countdown 0,
   * the pointer stays on the last step and the timer is stopped.
   */
  lemma ConfirmFinishes(s: DraftState, a: DomainAction, now: int)
    requires IsResolution(a) && !s.isFinished
    requires 0 <= s.currentStepId && s.currentStepId + 1 == |s.steps|
    ensures var r := Reduce(s, a, now); var cur := s.currentStepId;
      && r.state.isFinished && r.state.countdown == 0
      && r.state.currentStepId == cur
      && r.state.steps == s.steps[cur := s.steps[cur].(pending := false)]
      && r.effects == [Persist, EmitState, StopTimer]
  {
  }

  /**
   * What a resolution logs: a participant confirm records the countdown
   * before resolution and the resolved step's side, type and champion; a
   * timeout records the same step data as a server event at countdown 0.
   */
  lemma ConfirmEventRecords(s: DraftState, a: DomainAction, now: int)
    requires IsResolution(a) && !s.isFinished
    requires 0 <= s.currentStepId < |s.steps|
    ensures var r := Reduce(s, a, now); var st := s.steps[s.currentStepId];
      && |r.state.events| == |s.events| + 1
      && r.state.events[|s.events|] ==
           if a.Confirm? then
             DraftEvent(s.eventSeq + 1, Some(now), ClientSource, ClientConfirm(st.side, st.kind, st.championId), s.countdown)
           else
             DraftEvent(s.eventSeq + 1, Some(now), ServerSource, ServerConfirm(st.side, st.kind, st.championId), 0)
  {
  }

  /**
   * Set-team-name stores the trimmed name; a blank or unchanged name is
   * ignored; a change is logged exactly when both teams are ready.
   */
  lemma SetTeamNameProtocol(s: DraftState, side: Side, name: string, now: int)
    requires !s.isFinished
    ensures var r := Reduce(s, SetTeamName(side, name), now);
      && (IsBlank(name) || Trim(name) == s.teams.Get(side).name ==> r == ReducerResult(s, []))
      && (!IsBlank(name) && Trim(name) != s.teams.Get(side).name ==>
            && r.state.teams.Get(side) == s.teams.Get(side).(name := Trim(name))
            && (forall o: Side | o != side :: r.state.teams.Get(o) == s.teams.Get(o))
            && r.state.steps == s.steps
            && r.effects == [Persist, EmitState]
            && (|r.state.events| == |s.events| + 1 <==> BothTeamsReady(s)))
  {
    TrimFacts(name);
    assert Reduce(s, SetTeamName(side, name), now) == HandleSetTeamName(s, side, name, now);
    if !IsBlank(name) && Trim(name) != s.teams.Get(side).name {
      RenameWrites(s, side, Trim(name), now);
    }
  }

  /** The changing branch of set-team-name, over the new name alone. */
  lemma RenameWrites(s: DraftState, side: Side, newName: string, now: int)
    ensures var s1 := s.(teams := s.teams.With(side, s.teams.Get(side).(name := newName)));
      var s2 := if BothTeamsReady(s1) then PushEvent(s1, ClientSource, ClientSetTeamName(side, newName), s1.countdown, now) else s1;
      && s2.teams.Get(side) == s.teams.Get(side).(name := newName)
      && (forall o: Side | o != side :: s2.teams.Get(o) == s.teams.Get(o))
      && s2.steps == s.steps
      && (|s2.events| == |s.events| + 1 <==> BothTeamsReady(s))
  {
    var s1 := s.(teams := s.teams.With(side, s.teams.Get(side).(name := newName)));
    assert BothTeamsReady(s1) == BothTeamsReady(s);
  }

  // ----- invariants over runs -----

  /**
   * The structural invariant of a live room: the pointer is in range, a
   * finished draft points at its last step, and exactly one step is pending
   * (the current one) while the draft runs, none once it is finished.
   */
  predicate Wellformed(s: DraftState) {
    && |s.steps| > 0
    && 0 <= s.currentStepId < |s.steps|
    && (s.isFinished ==> s.currentStepId == |s.steps| - 1)
    && forall i | 0 <= i < |s.steps| :: s.steps[i].pending <==> (!s.isFinished && i == s.currentStepId)
  }

  /** A fresh room is well formed. */
  lemma InitialWellformed(o: InitOptions)
    ensures Wellformed(CreateInitialDraftState(o))
  {
  }

  /** Every action preserves the single-pending-step invariant. */
  lemma ReducePreservesWellformed(s: DraftState, a: DomainAction, now: int)
    requires Wellformed(s)
    ensures Wellformed(Reduce(s, a, now).state)
  {
    if IsResolution(a) && !s.isFinished {
      if s.currentStepId + 1 < |s.steps| {
        ConfirmAdvances(s, a, now);
      } else {
        ConfirmFinishes(s, a, now);
      }
    }
  }

  /** An action together with the clock reading at which the reducer ran it. */
  datatype Timed = Timed(action: DomainAction, now: int)

  /** The state after reducing `actions` in order. */
  function Run(s: DraftState, actions: seq<Timed>): DraftState
    decreases |actions|
  {
    if actions == [] then s else Run(Reduce(s, actions[0].action, actions[0].now).state, actions[1..])
  }

  /** Over any run the log only grows: the log before the run is a prefix of the log after it. */
  lemma {:induction false} RunAppendsOnly(s: DraftState, actions: seq<Timed>)
    ensures |s.events| <= |Run(s, actions).events|
    ensures Run(s, actions).events[..|s.events|] == s.events
    decreases |actions|
  {
    if actions != [] {
      var r := Reduce(s, actions[0].action, actions[0].now).state;
      RunAppendsOnly(r, actions[1..]);
      assert Run(s, actions).events[..|s.events|] == Run(s, actions).events[..|r.events|][..|s.events|];
    }
  }

  /** The log is numbered 1, 2, 3, ... and the counter equals its length. */
  predicate SeqConsistent(s: DraftState) {
    && s.eventSeq == |s.events|
    && forall i | 0 <= i < |s.events| :: s.events[i].seqNum == i + 1
  }

  /** Any run from a consistently numbered state keeps `events[i].seq == i + 1` and `eventSeq == |events|`. */
  lemma {:induction false} RunKeepsSeqConsistent(s: DraftState, actions: seq<Timed>)
    requires SeqConsistent(s)
    ensures SeqConsistent(Run(s, actions))
    decreases |actions|
  {
    if actions != [] {
      var r := Reduce(s, actions[0].action, actions[0].now).state;
      AppendKeepsSeqConsistent(s, r);
      RunKeepsSeqConsistent(r, actions[1..]);
    }
  }

  /** Appending at most one entry numbered after the counter, and bumping the counter to match, keeps the numbering. */
  lemma AppendKeepsSeqConsistent(s: DraftState, r: DraftState)
    requires SeqConsistent(s)
    requires |s.events| <= |r.events| <= |s.events| + 1
    requires r.events[..|s.events|] == s.events
    requires r.eventSeq == s.eventSeq + (|r.events| - |s.events|)
    requires |r.events| > |s.events| ==> r.events[|s.events|].seqNum == s.eventSeq + 1
    ensures SeqConsistent(r)
  {
    assert forall i | 0 <= i < |s.events| :: r.events[i] == r.events[..|s.events|][i];
  }

  /** Any run keeps a well-formed room well formed. */
  lemma {:induction false} RunKeepsWellformed(s: DraftState, actions: seq<Timed>)
    requires Wellformed(s)
    ensures Wellformed(Run(s, actions))
    decreases |actions|
  {
    if actions != [] {
      ReducePreservesWellformed(s, actions[0].action, actions[0].now);
      RunKeepsWellformed(Reduce(s, actions[0].action, actions[0].now).state, actions[1..]);
    }
  }

  /** From a fresh room, every run is well formed and its log is numbered `seq == index + 1`. */
  lemma FromInitial(o: InitOptions, actions: seq<Timed>)
    ensures var s := Run(CreateInitialDraftState(o), actions);
      && Wellformed(s)
      && s.eventSeq == |s.events|
      && forall i | 0 <= i < |s.events| :: s.events[i].seqNum == i + 1
  {
    RunKeepsSeqConsistent(CreateInitialDraftState(o), actions);
    RunKeepsWellformed(CreateInitialDraftState(o), actions);
  }
}

=== FILE: spec_page.dfy ===
/**
 * The spectator page (`SpecPageComponent`) and its own inline replay: a
 * one-second interval counts the countdown down, and at each value it
 * applies every pending event recorded at that countdown (`applyPending`),
 * jumping back to 30 after a confirm. The component's signals are the
 * fields of `Spec`; the store is taken as loaded.
 */
module SpecPage {
  import opened Wrappers
  import opened Draft
  import ClientReducer
  import ReplayContext
  import DraftHistory

  /**
   * `timer` holds the log the running interval replays (captured when the
   * replay started), `None` when no interval is set.
   */
  datatype Spec = Spec(
    store: DraftState,
    roomId: string,
    initialWasFinished: bool,
    hasCapturedInitial: bool,
    isReplaying: bool,
    isMasked: bool,
    historyIndex: int,
    replayIdx: nat,
    replayCountdown: int,
    timer: Option<seq<DraftEvent>>,
    socketConnected: bool)

  /** `isReplayMode`: the store holds events and the first server state seen was already finished. */
  predicate IsReplayMode(sp: Spec) {
    |sp.store.events| > 0 && sp.initialWasFinished
  }

  /** The three labels of the play/pause button. */
  datatype Label = Detener | Empezar | Continuar

  /**
   * `playPauseLabel`: "Detener" while replaying; otherwise "Empezar" when
   * the replay has run out or has not moved, "Continuar" when paused midway.
   */
  function PlayPauseLabel(sp: Spec): (l: Label)
    ensures l == Detener <==> sp.isReplaying
    ensures l == Continuar <==>
              !sp.isReplaying && !(sp.replayIdx >= |sp.store.events| && sp.replayCountdown <= 0)
              && (sp.replayIdx > 0 || sp.replayCountdown < DefaultCountdown)
  {
    if sp.isReplaying then Detener
    else
      var total := |sp.store.events|;
      var finished := sp.replayIdx >= total && sp.replayCountdown <= 0;
      if finished then Empezar
      else if sp.replayIdx > 0 || sp.replayCountdown < DefaultCountdown then Continuar
      else Empezar
  }

  /** `stopReplayTimer`. */
  function StopReplayTimer(sp: Spec): (r: Spec)
    ensures !r.isReplaying && r.timer.None?
    ensures r.(isReplaying := sp.isReplaying, timer := sp.timer) == sp
  {
    sp.(timer := None, isReplaying := false)
  }

  /**
   * The page's inline mask: the same state with the initial board, pointer,
   * side and countdown, finished, names kept and readiness cleared. Unlike
   * `maskedFromCurrent` it leaves `eventSeq` alone.
   */
  function InlineMask(s: DraftState): DraftState {
    var base := CreateInitialDraftState(InitOptions(Some(s.roomId), Some(s.teams.blue.name), Some(s.teams.red.name)));
    s.(steps := base.steps,
       currentStepId := base.currentStepId,
       currentSide := base.currentSide,
       countdown := base.countdown,
       isFinished := true,
       teams := base.teams)
  }

  /** The inline mask is the shared masked base except for `eventSeq`, which it does not bump. */
  lemma InlineMaskIsMaskedFromCurrent(s: DraftState)
    ensures InlineMask(s) == MaskedFromCurrent(s).(eventSeq := s.eventSeq)
    ensures InlineMask(s).eventSeq + 1 == MaskedFromCurrent(s).eventSeq
  {
  }

  /** Hydrate the store with a whole state. */
  function HydrateWith(store: DraftState, n: DraftState): (r: DraftState)
    ensures r == n
  {
    ClientReducer.HydrateFullReplaces(store, n);
    ClientReducer.Reduce(store, ClientReducer.Hydrate(ClientReducer.Full(n)))
  }

  /** `resetToMaskedBase`: show the masked board and rewind the replay and the slider. */
  function ResetToMaskedBase(sp: Spec): (r: Spec)
    ensures r.store == InlineMask(sp.store) && r.isMasked
    ensures r.historyIndex == -1 && r.replayIdx == 0 && r.replayCountdown == DefaultCountdown
    ensures r.isReplaying == sp.isReplaying && r.timer == sp.timer
  {
    sp.(store := HydrateWith(sp.store, InlineMask(sp.store)),
        isMasked := true,
        historyIndex := -1,
        replayIdx := 0,
        replayCountdown := DefaultCountdown)
  }

  /** `restart`: stop, then rewind to the masked base without playing. */
  function Restart(sp: Spec): (r: Spec)
    ensures !r.isReplaying && r.timer.None?
    ensures r.historyIndex == -1 && r.replayIdx == 0 && r.replayCountdown == DefaultCountdown
    ensures r.store.steps == InitialSteps() && r.store.isFinished
    ensures r.store.events == sp.store.events
  {
    ResetToMaskedBase(StopReplayTimer(sp))
  }

  /**
   * The constructor's masking effect: once the store holds a finished draft
   * with events, first seen finished, and it is neither replaying nor
   * already masked, hydrate the inline mask.
   */
  function MaskOnLoad(sp: Spec): (r: Spec)
    ensures r.isMasked == (sp.isMasked || (sp.store.isFinished && sp.hasCapturedInitial && sp.initialWasFinished
                                             && !sp.isReplaying && |sp.store.events| > 0))
    ensures r.isMasked && !sp.isMasked ==> r.store == InlineMask(sp.store)
    ensures !(r.isMasked && !sp.isMasked) ==> r == sp
  {
    if !sp.store.isFinished || !sp.hasCapturedInitial || !sp.initialWasFinished || sp.isReplaying || sp.isMasked
       || |sp.store.events| == 0 then sp
    else sp.(store := HydrateWith(sp.store, InlineMask(sp.store)), isMasked := true)
  }

  /**
   * The page's `applyEvent`: with a room id, exactly the slider's step (the
   * recorded countdown, the re-dispatched action, team names included); the
   * 30 that the loop shows after a confirm is part of that step, and is all
   * that happens to a confirm without a room id.
   */
  function ApplySpecEvent(store: DraftState, roomId: string, ev: DraftEvent): DraftState {
    if roomId != "" then DraftHistory.ApplyHistorical(store, roomId, ev)
    else if ev.body.IsConfirm() then ReplayContext.TickStore(store, DefaultCountdown)
    else store
  }

  /** What the page's replay of one event does: without a room id only a confirm's 30; with one, the recorded countdown and a scheduler's move of the board. */
  lemma SpecEventEffect(store: DraftState, roomId: string, ev: DraftEvent)
    ensures var r := ApplySpecEvent(store, roomId, ev);
      && (r.events == store.events && r.eventSeq == store.eventSeq && r.roomId == store.roomId)
      && (roomId == "" ==> r == (if ev.body.IsConfirm() then store.(countdown := DefaultCountdown) else store))
      && (roomId != "" ==> r.countdown == (if ev.body.IsConfirm() then DefaultCountdown else ev.countdownAt))
      && (roomId != "" ==>
            var rp := ReplayContext.ApplyEvent(store, Some(roomId), ev);
            r.steps == rp.steps && r.currentStepId == rp.currentStepId && r.isFinished == rp.isFinished)
  {
  }

  /** The store after `ApplySpecEvent` of each of `evs` in order. */
  function ApplySpecAll(store: DraftState, roomId: string, evs: seq<DraftEvent>): DraftState
    decreases |evs|
  {
    if evs == [] then store else ApplySpecEvent(ApplySpecAll(store, roomId, evs[..|evs| - 1]), roomId, evs[|evs| - 1])
  }

  /** With a room id the page's replay and the slider rebuild the same state from the same start. */
  lemma {:induction false} SpecAgreesWithHistory(store: DraftState, roomId: string, evs: seq<DraftEvent>)
    requires roomId != ""
    ensures ApplySpecAll(store, roomId, evs) == DraftHistory.ApplyAll(store, roomId, evs)
    decreases |evs|
  {
    if evs != [] {
      SpecAgreesWithHistory(store, roomId, evs[..|evs| - 1]);
    }
  }

  /** Extending the applied slice by the next event applies that event last. */
  lemma SpecAllExtend(store: DraftState, roomId: string, evs: seq<DraftEvent>, from: nat, to: nat)
    requires from <= to < |evs|
    ensures ApplySpecAll(store, roomId, evs[from..to + 1]) == ApplySpecEvent(ApplySpecAll(store, roomId, evs[from..to]), roomId, evs[to])
  {
    var e := evs[from..to + 1];
    assert e != [] && e[..|e| - 1] == evs[from..to] && e[|e| - 1] == evs[to];
  }

  /**
   * Where `applyPending` stops, as a reference definition: starting at
   * `idx` with target countdown `target`, consume events while the next one
   * was recorded at the target; a confirm moves the target to 30. Returns
   * the stopping index and the final target.
   */
  function PendingEnd(evs: seq<DraftEvent>, idx: nat, target: int): (r: (nat, int))
    ensures idx <= r.0
    ensures idx <= |evs| ==> r.0 <= |evs|
    ensures r.0 >= |evs| || evs[r.0].countdownAt != r.1
    decreases |evs| - idx
  {
    if idx >= |evs| || evs[idx].countdownAt != target then (idx, target)
    else PendingEnd(evs, idx + 1, if evs[idx].body.IsConfirm() then DefaultCountdown else target)
  }

  /** The target in force when event `i` is reached, starting at `from` with `target`: 30 once a confirm was consumed. */
  function TargetAt(evs: seq<DraftEvent>, from: nat, i: nat, target: int): int
    requires from <= i <= |evs|
    decreases i - from
  {
    if i == from then target
    else if evs[i - 1].body.IsConfirm() then DefaultCountdown
    else TargetAt(evs, from, i - 1, target)
  }

  /**
   * Every event `applyPending` consumes was recorded at the countdown then
   * in force: the starting target until a confirm, 30 after one.
   */
  lemma {:induction false} PendingConsumesAtTarget(evs: seq<DraftEvent>, from: nat, idx: nat, target: int)
    requires from <= idx <= |evs|
    ensures var (end, _) := PendingEnd(evs, idx, TargetAt(evs, from, idx, target));
      forall i | idx <= i < end :: evs[i].countdownAt == TargetAt(evs, from, i, target)
    decreases |evs| - idx
  {
    var t := TargetAt(evs, from, idx, target);
    if idx < |evs| && evs[idx].countdownAt == t {
      var t1 := if evs[idx].body.IsConfirm() then DefaultCountdown else t;
      assert TargetAt(evs, from, idx + 1, target) == t1;
      PendingConsumesAtTarget(evs, from, idx + 1, target);
    }
  }

  /**
   * `applyPending` over the captured log `events`: apply, in order, every
   * event recorded at the current target (30 after a confirm), moving
   * `replayIdx` past each and the slider onto it. It stops at the end of
   * the log or at the first event recorded at another countdown, having
   * applied exactly the events in between.
   */
  method ApplyPending(sp: Spec, events: seq<DraftEvent>) returns (r: Spec)
    ensures (r.replayIdx, r.replayCountdown) == PendingEnd(events, sp.replayIdx, sp.replayCountdown)
    ensures sp.replayIdx <= r.replayIdx
    ensures r.replayIdx >= |events| || events[r.replayIdx].countdownAt != r.replayCountdown
    ensures sp.replayIdx <= |events| ==>
              r.replayIdx <= |events| && r.store == ApplySpecAll(sp.store, sp.roomId, events[sp.replayIdx..r.replayIdx])
    ensures r.replayIdx > sp.replayIdx ==> r.historyIndex == r.replayIdx - 1
    ensures r.replayIdx == sp.replayIdx ==> r == sp
    ensures r.(store := sp.store, replayIdx := sp.replayIdx, replayCountdown := sp.replayCountdown, historyIndex := sp.historyIndex) == sp
  {
    if sp.replayIdx >= |events| {
      return sp;
    }
    var idx, store, target := PendingLoop(sp.store, sp.roomId, events, sp.replayIdx, sp.replayCountdown);
    if idx == sp.replayIdx {
      return sp;
    }
    r := sp.(replayIdx := idx, store := store, replayCountdown := target, historyIndex := idx - 1);
  }

  /** The loop of `applyPending` over its moving parts: the read index, the store and the target. */
  method PendingLoop(store0: DraftState, roomId: string, events: seq<DraftEvent>, from: nat, target0: int)
    returns (idx: nat, store: DraftState, target: int)
    requires from <= |events|
    ensures (idx, target) == PendingEnd(events, from, target0)
    ensures from <= idx <= |events|
    ensures store == ApplySpecAll(store0, roomId, events[from..idx])
    ensures idx == from ==> store == store0 && target == target0
  {
    idx := from;
    store := store0;
    target := target0;
    while idx < |events|
      invariant from <= idx <= |events|
      invariant PendingEnd(events, idx, target) == PendingEnd(events, from, target0)
      invariant store == ApplyRange(store0, roomId, events, from, idx)
      invariant idx == from ==> target == target0
      decreases |events| - idx
    {
      if events[idx].countdownAt != target {
        break;
      }
      var ev := events[idx];
      store := ApplySpecEvent(store, roomId, ev);
      idx := idx + 1;
      if ev.body.IsConfirm() {
        target := DefaultCountdown;
      }
    }
    RangeIsSlice(store0, roomId, events, from, idx);
  }

  /** The events `evs[lo..hi]` applied in order, counted by index rather than by slice. */
  function ApplyRange(store: DraftState, roomId: string, evs: seq<DraftEvent>, lo: nat, hi: nat): DraftState
    requires lo <= hi <= |evs|
    decreases hi - lo
  {
    if hi == lo then store else ApplySpecEvent(ApplyRange(store, roomId, evs, lo, hi - 1), roomId, evs[hi - 1])
  }

  /** Counting by index and folding over the slice give the same store. */
  lemma {:induction false} RangeIsSlice(store: DraftState, roomId: string, evs: seq<DraftEvent>, lo: nat, hi: nat)
    requires lo <= hi <= |evs|
    ensures ApplyRange(store, roomId, evs, lo, hi) == ApplySpecAll(store, roomId, evs[lo..hi])
    decreases hi - lo
  {
    if hi > lo {
      RangeIsSlice(store, roomId, evs, lo, hi - 1);
      SpecAllExtend(store, roomId, evs, lo, hi - 1);
    }
  }

  /**
   * The store `startReplay` replays onto: with a room id both sides are
   * marked ready through the local reducer, and the store shows the replay
   * countdown; nothing else about it changes.
   */
  function ReplayBase(sp: Spec): (b: DraftState)
    ensures sp.roomId != "" ==>
              b == sp.store.(teams := Teams(sp.store.teams.blue.(ready := true), sp.store.teams.red.(ready := true)),
                             countdown := sp.replayCountdown)
    ensures sp.roomId == "" ==> b == sp.store.(countdown := sp.replayCountdown)
  {
    var store := if sp.roomId != "" then
                   var s1 := ClientReducer.Reduce(sp.store, ClientReducer.ReadyAction(sp.roomId, Blue));
                   ClientReducer.ReadySetsOnlyFlag(sp.store, sp.roomId, Blue);
                   ClientReducer.ReadySetsOnlyFlag(s1, sp.roomId, Red);
                   ClientReducer.Reduce(s1, ClientReducer.ReadyAction(sp.roomId, Red))
                 else sp.store;
    ReplayContext.TickStore(store, sp.replayCountdown)
  }

  /**
   * `startReplay`: nothing outside replay mode, while already replaying, or
   * with no events. Otherwise the socket is dropped, both sides are marked
   * ready (with a room id), the store shows the replay countdown, the events
   * due at it are applied, and the interval starts on the current log.
   */
  method StartReplay(sp: Spec) returns (r: Spec)
    ensures !IsReplayMode(sp) || sp.isReplaying ==> r == sp
    ensures IsReplayMode(sp) && !sp.isReplaying ==>
              && r.isReplaying && r.timer == Some(sp.store.events) && !r.socketConnected
              && (r.replayIdx, r.replayCountdown) == PendingEnd(sp.store.events, sp.replayIdx, sp.replayCountdown)
              && (sp.replayIdx <= |sp.store.events| ==>
                    r.store == ApplySpecAll(ReplayBase(sp), sp.roomId, sp.store.events[sp.replayIdx..r.replayIdx]))
              && (r.replayIdx == sp.replayIdx ==> r.store == ReplayBase(sp) && r.historyIndex == sp.historyIndex)
              && (r.replayIdx > sp.replayIdx ==> r.historyIndex == r.replayIdx - 1)
              && r.store.events == sp.store.events
              && r.roomId == sp.roomId && r.isMasked == sp.isMasked
  {
    if !IsReplayMode(sp) || sp.isReplaying {
      return sp;
    }
    var events := sp.store.events;
    var s := sp.(socketConnected := false, isReplaying := true, store := ReplayBase(sp));
    r := ApplyPending(s, events);
    if sp.replayIdx <= |events| {
      LogSurvivesSpecReplay(s.store, s.roomId, events[sp.replayIdx..r.replayIdx]);
    }
    r := r.(timer := Some(events));
  }

  /** Replaying on the page never touches the store's log. */
  lemma {:induction false} LogSurvivesSpecReplay(store: DraftState, roomId: string, evs: seq<DraftEvent>)
    ensures ApplySpecAll(store, roomId, evs).events == store.events
    decreases |evs|
  {
    if evs != [] {
      LogSurvivesSpecReplay(store, roomId, evs[..|evs| - 1]);
    }
  }

  /**
   * `togglePlayback`: while replaying it only stops. Otherwise the countdown
   * is first raised to the next event's recorded countdown when that is
   * larger, and the replay starts from there.
   */
  method TogglePlayback(sp: Spec) returns (r: Spec)
    ensures sp.isReplaying ==> r == StopReplayTimer(sp)
    ensures !sp.isReplaying && IsReplayMode(sp) ==>
              && r.isReplaying
              && (r.replayIdx, r.replayCountdown) == PendingEnd(sp.store.events, sp.replayIdx, RaisedCountdown(sp))
  {
    if sp.isReplaying {
      return StopReplayTimer(sp);
    }
    r := StartReplay(sp.(replayCountdown := RaisedCountdown(sp)));
  }

  /** The countdown `togglePlayback` resumes from: never behind the next event's recorded countdown. */
  function RaisedCountdown(sp: Spec): (cd: int)
    ensures cd >= sp.replayCountdown
    ensures sp.replayIdx < |sp.store.events| ==> cd >= sp.store.events[sp.replayIdx].countdownAt
    ensures sp.replayIdx >= |sp.store.events| ==> cd == sp.replayCountdown
    ensures cd == sp.replayCountdown || (sp.replayIdx < |sp.store.events| && cd == sp.store.events[sp.replayIdx].countdownAt)
  {
    var events := sp.store.events;
    if sp.replayIdx < |events| && events[sp.replayIdx].countdownAt > sp.replayCountdown
    then events[sp.replayIdx].countdownAt
    else sp.replayCountdown
  }

  /**
   * Resuming in replay mode before the end of the log applies at least one
   * event when the next one was recorded at or above the current countdown
   * (the countdown is raised to it), such as the two readies recorded at 30
   * before anything else.
   */
  lemma ToggleAdvances(sp: Spec)
    requires !sp.isReplaying && IsReplayMode(sp)
    requires sp.replayIdx < |sp.store.events| && sp.store.events[sp.replayIdx].countdownAt >= sp.replayCountdown
    ensures PendingEnd(sp.store.events, sp.replayIdx, RaisedCountdown(sp)).0 >= sp.replayIdx + 1
  {
  }

  /**
   * The interval body, over the captured log: the countdown drops by one but
   * not below 0 and is shown; the events due at the new value are applied;
   * once the log is exhausted and the countdown is out, the replay stops.
   */
  method IntervalStep(sp: Spec) returns (r: Spec)
    requires sp.timer.Some?
    ensures var next := if sp.replayCountdown - 1 > 0 then sp.replayCountdown - 1 else 0;
      && (r.replayIdx, r.replayCountdown) == PendingEnd(sp.timer.value, sp.replayIdx, next)
      && (r.replayIdx >= |sp.timer.value| && r.replayCountdown <= 0 <==> r.timer.None?)
      && (r.timer.None? ==> !r.isReplaying)
      && (r.timer.Some? ==> r.isReplaying == sp.isReplaying && r.timer == sp.timer)
    ensures var next := if sp.replayCountdown - 1 > 0 then sp.replayCountdown - 1 else 0;
      && (sp.replayIdx <= |sp.timer.value| ==>
            r.store == ApplySpecAll(ReplayContext.TickStore(sp.store, next), sp.roomId, sp.timer.value[sp.replayIdx..r.replayIdx]))
      && (r.replayIdx > sp.replayIdx ==> r.historyIndex == r.replayIdx - 1)
      && (r.replayIdx == sp.replayIdx ==> r.historyIndex == sp.historyIndex)
      && r.roomId == sp.roomId && r.isMasked == sp.isMasked
  {
    var events := sp.timer.value;
    var next := if sp.replayCountdown - 1 > 0 then sp.replayCountdown - 1 else 0;
    var s := sp.(replayCountdown := next, store := ReplayContext.TickStore(sp.store, next));
    r := ApplyPending(s, events);
    if r.replayIdx >= |events| && r.replayCountdown <= 0 {
      r := r.(timer := None, isReplaying := false);
    }
  }
}

=== FILE: text.dfy ===
/**
 * The three JavaScript string helpers the draft core relies on:
 * `String.prototype.trim`, `toLowerCase` and `includes`.
 */
module Text {

  /** The WhiteSpace and LineTerminator code points that `trim` strips. */
  predicate IsJsSpace(c: char) {
    || c == '\t' || c == '\n' || c == '\U{000B}' || c == '\U{000C}' || c == '\r' || c == ' '
    || c == '\U{00A0}' || c == '\U{1680}' || ('\U{2000}' <= c <= '\U{200A}')
    || c == '\U{2028}' || c == '\U{2029}' || c == '\U{202F}' || c == '\U{205F}'
    || c == '\U{3000}' || c == '\U{FEFF}'
  }

  /** Every character of `s` is trimmable whitespace. */
  predicate IsBlank(s: string) {
    forall i | 0 <= i < |s| :: IsJsSpace(s[i])
  }

  /** Two blank strings joined are blank. */
  lemma BlankJoin(a: string, b: string)
    requires IsBlank(a) && IsBlank(b)
    ensures IsBlank(a + b)
  {
    forall i | 0 <= i < |a + b| ensures IsJsSpace((a + b)[i]) {
      if i < |a| { assert (a + b)[i] == a[i]; } else { assert (a + b)[i] == b[i - |a|]; }
    }
  }

  /** Drops leading whitespace: the result is the longest suffix of `s` that does not start with a space. */
  function TrimStart(s: string): (r: string)
    ensures |r| <= |s| && r == s[|s| - |r|..]
    ensures IsBlank(s[..|s| - |r|])
    ensures r == [] || !IsJsSpace(r[0])
  {
    if |s| > 0 && IsJsSpace(s[0]) then
      var r := TrimStart(s[1..]);
      TrimStartStep(s, r);
      r
    else s
  }

  /** Drops trailing whitespace: the result is the longest prefix of `s` that does not end with a space. */
  function TrimEnd(s: string): (r: string)
    ensures |r| <= |s| && r == s[..|r|]
    ensures IsBlank(s[|r|..])
    ensures r == [] || !IsJsSpace(r[|r| - 1])
  {
    if |s| > 0 && IsJsSpace(s[|s| - 1]) then
      var r := TrimEnd(s[..|s| - 1]);
      TrimEndStep(s, r);
      r
    else s
  }

  /** A suffix of `s[1..]` left after blank text is one of `s` too, when `s[0]` is a space. */
  lemma TrimStartStep(s: string, r: string)
    requires |s| > 0 && IsJsSpace(s[0])
    requires |r| <= |s| - 1 && r == s[1..][|s| - 1 - |r|..] && IsBlank(s[1..][..|s| - 1 - |r|])
    ensures |r| <= |s| && r == s[|s| - |r|..] && IsBlank(s[..|s| - |r|])
  {
    assert s[1..][|s| - 1 - |r|..] == s[|s| - |r|..];
    assert s[..|s| - |r|] == [s[0]] + s[1..][..|s| - 1 - |r|];
    BlankJoin([s[0]], s[1..][..|s| - 1 - |r|]);
  }

  /** A prefix of `s[..|s|-1]` followed by blank text is one of `s` too, when the last character is a space. */
  lemma TrimEndStep(s: string, r: string)
    requires |s| > 0 && IsJsSpace(s[|s| - 1])
    requires |r| <= |s| - 1 && r == s[..|s| - 1][..|r|] && IsBlank(s[..|s| - 1][|r|..])
    ensures |r| <= |s| && r == s[..|r|] && IsBlank(s[|r|..])
  {
    assert s[..|s| - 1][..|r|] == s[..|r|];
    assert s[|r|..] == s[..|s| - 1][|r|..] + [s[|s| - 1]];
    BlankJoin(s[..|s| - 1][|r|..], [s[|s| - 1]]);
  }

  /** `r` is `s` with only blank text before index `lo` and after `r` removed. */
  predicate CoreAt(s: string, r: string, lo: int) {
    && 0 <= lo <= |s| - |r|
    && s[lo..lo + |r|] == r
    && IsBlank(s[..lo])
    && IsBlank(s[lo + |r|..])
  }

  /** JavaScript's `s.trim()`. */
  function Trim(s: string): string {
    TrimEnd(TrimStart(s))
  }

  /** `trim` is empty exactly for blank input, and what it keeps never starts or ends with a space. */
  lemma TrimFacts(s: string)
    ensures Trim(s) == [] <==> IsBlank(s)
    ensures Trim(s) != [] ==> !IsJsSpace(Trim(s)[0]) && !IsJsSpace(Trim(s)[|Trim(s)| - 1])
  {
    var t := TrimStart(s);
    var r := TrimEnd(t);
    TrimEnds(s, t, r);
  }

  /** What `trim` keeps is a contiguous piece of the input with only blank text around it. */
  lemma TrimIsCore(s: string)
    ensures exists lo :: CoreAt(s, Trim(s), lo)
  {
    var t := TrimStart(s);
    var r := TrimEnd(t);
    assert Trim(s) == r;
    TrimCoreAt(s, t, r);
    assert CoreAt(s, r, |s| - |t|);
  }

  /**
   * What stripping both ends leaves, stated over the facts `TrimStart` and
   * `TrimEnd` promise: nothing when `s` is blank, else text with no space at either end.
   */
  lemma TrimEnds(s: string, t: string, r: string)
    requires |t| <= |s| && t == s[|s| - |t|..] && IsBlank(s[..|s| - |t|])
    requires t == [] || !IsJsSpace(t[0])
    requires |r| <= |t| && r == t[..|r|] && IsBlank(t[|r|..])
    requires r == [] || !IsJsSpace(r[|r| - 1])
    ensures r == [] <==> IsBlank(s)
    ensures r != [] ==> !IsJsSpace(r[0]) && !IsJsSpace(r[|r| - 1])
  {
    var lo := |s| - |t|;
    assert s[lo + |r|..] == t[|r|..];
    assert r == [] ==> t[|r|..] == t;
    assert t == [] ==> s[..lo] == s;
    assert t != [] ==> t[0] == s[lo];
    assert r != [] ==> t != [] && r[0] == t[0];
  }

  /** The same facts place `r` inside `s` with only blank text on either side. */
  lemma TrimCoreAt(s: string, t: string, r: string)
    requires |t| <= |s| && t == s[|s| - |t|..] && IsBlank(s[..|s| - |t|])
    requires |r| <= |t| && r == t[..|r|] && IsBlank(t[|r|..])
    ensures CoreAt(s, r, |s| - |t|)
  {
    var lo := |s| - |t|;
    assert s[lo..lo + |r|] == r;
    assert s[lo + |r|..] == t[|r|..];
  }

  /** Trimming twice is trimming once. */
  lemma TrimIdempotent(s: string)
    ensures Trim(Trim(s)) == Trim(s)
  {
    var r := Trim(s);
    if r != [] {
      assert TrimStart(r) == r;
      assert TrimEnd(r) == r;
    }
  }

  /** ASCII case folding of one character. */
  function LowerChar(c: char): char {
    if 'A' <= c <= 'Z' then (c as int + 32) as char else c
  }

  /** `s.toLowerCase()` restricted to ASCII letters. */
  function ToLower(s: string): (r: string)
    ensures |r| == |s|
    ensures forall i | 0 <= i < |s| :: r[i] == LowerChar(s[i])
  {
    seq(|s|, i requires 0 <= i < |s| => LowerChar(s[i]))
  }

  /** `q` occurs in `s` starting at index `i`. */
  predicate OccursAt(s: string, q: string, i: int) {
    0 <= i && i + |q| <= |s| && s[i..i + |q|] == q
  }

  /** `s.includes(q)`, computed by scanning `s` from the left. */
  function Includes(s: string, q: string): (b: bool)
    decreases |s|
  {
    if |q| > |s| then false
    else if s[..|q|] == q then true
    else Includes(s[1..], q)
  }

  /** The scan agrees with the positional definition of a substring, in both directions. */
  lemma {:induction false} IncludesIff(s: string, q: string)
    ensures Includes(s, q) <==> exists i :: OccursAt(s, q, i)
    decreases |s|
  {
    if |q| > |s| {
      assert forall i :: !OccursAt(s, q, i);
    } else if s[..|q|] == q {
      assert OccursAt(s, q, 0);
    } else {
      IncludesIff(s[1..], q);
      if Includes(s[1..], q) {
        var i :| OccursAt(s[1..], q, i);
        assert s[i + 1..i + 1 + |q|] == s[1..][i..i + |q|];
        assert OccursAt(s, q, i + 1);
      } else {
        forall i | OccursAt(s, q, i) ensures false {
          if i > 0 {
            assert s[1..][i - 1..i - 1 + |q|] == s[i..i + |q|];
            assert OccursAt(s[1..], q, i - 1);
          }
        }
      }
    }
  }

  /** The empty string occurs in every string. */
  lemma IncludesEmpty(s: string)
    ensures Includes(s, [])
  {
    assert s[..0] == [];
  }
}

=== FILE: wrappers.dfy ===
/** The optional value used for the source's `null`/`undefined` fields, and a shared arithmetic helper. */
module Wrappers {

  datatype Option<+T> = None | Some(value: T) {

    /** Returns the wrapped value, or `default` when there is none (JavaScript's `??`). */
    function GetOr(default: T): T {
      match this
      case Some(v) => v
      case None => default
    }
  }

  /** `Math.max(0, x)`: the floor at zero the source applies to countdowns and delays. */
  function Max0(x: int): int {
    if x > 0 then x else 0
  }
}
